=== FILE: README.md ===
# TopDownRPG turn core in Dafny

This project models the turn-based simulation core of TopDownRPG, a small
roguelike written in Python with pygame. It covers these parts:

- **The entity store.** `World` holds live ids, one table per component class and a FIFO event queue.
- **The data.** The component and event dataclasses.
- **The combat rules.** The dice evaluator, the d20 to-hit resolver and the damage resolver.
- **The grid algorithms.** Rectangle geometry, tiles, 4-way A* and the room-and-corridor dungeon generator.
- **The turn systems.** Combat state, movement, combat, AI, inventory pickup, FOV and input.
- **The turn schedule.** `PlayScene._process_turn` and `_descend_stairs` run the systems in order.
- **Bookkeeping.** The entity factories, the scene stack, keybind lookup, the message log and the HUD damage flash.

Every system is a pure function from a `World` to a `World`. Randomness is an
explicit oracle `Rng`:

- `randint(lo, hi)` is `lo + ints(cursor) % (hi - lo + 1)`.
- `random()` is `units(cursor)`.
- Every draw advances the cursor by one.

`World` iterates Python sets in `entities_with` and `entities_at`. The model
fixes that order to ascending ids.

Modules follow the repository's layout:

| module | file | models |
|---|---|---|
| `Ecs` | world.dfy | gameplay/ecs/world.py |
| `Components` | components.dfy | gameplay/ecs/components.py |
| `Events` | events.dfy | core/events.py |
| `Dice`, `Attack`, `Damage` | dice.dfy, attack.dfy, damage.dfy | gameplay/rules |
| `Geometry`, `Tiles` | geometry.dfy, tiles.dfy | core/types.py, gameplay/dungeon/tiles.py |
| `Pathfinding` | pathfinding.dfy | util/pathfinding.py |
| `Carving`, `Generator` | carving.dfy, generator.dfy | gameplay/dungeon/generator.py |
| `CombatStateSystem`, `Movement`, `Combat`, `Ai`, `InventorySystem`, `FovSystem`, `InputSystem` | one file each | gameplay/ecs/systems |
| `Factories` | factories.dfy | gameplay/content/factories.py |
| `PlayScene` | play_scene.dfy | scenes/play_scene.py (`_process_turn`, `_descend_stairs`) |
| `SceneManager`, `InputHandler` | scene_manager.dfy, input.dfy | core/scene_manager.py, core/input.py |
| `MessageLog`, `Hud` | message_log.dfy, hud.dfy | ui/message_log.py, ui/hud.py (update logic only) |
| `Random`, `Strings`, `Wrappers` | random.dfy, strings.dfy, wrappers.dfy | util/rng.py and support code |

Some behaviour of the code as written shows up in the model's contracts:

- `CombatSystem.process` and `InventorySystem.process` drain the whole queue and re-post only what they produce. The turn schedule places combat right after the player's move, so the inventory step never sees the player's `MoveResolved`. Nothing is ever picked up during a turn, and a `DescendRequested` never reaches the final drain. The contracts of `PlayScene.PlayerPhase`, `PlayScene.Systems` and `PlayScene.TurnNeverDescends` state this.
- The scene builds `MovementSystem` without a player id. The post-move adjacency attack on the player is therefore off in the turn schedule.
- The player carries `CBlocker(False)`, so `is_blocked` reports the player's cell as blocked. A* toward the player never reaches it, and chasing monsters fall back to the direct step (`Ai.ChaseIgnoresPathToBlockingPlayer`).
- The default item templates have glyphs `/` and `[`, which do not contain "item". Spawned default items are therefore never candidates for pickup (`Factories.DefaultItemsAreNeverPickedUp`).
- `PlayScene` passes four arguments to the two-argument `CombatSystem(world, rng)` constructor. The model uses the system as its own file defines it.
- `Tile` has a `tile_type` field and no `type` attribute. In `_descend_stairs` only the glyph test can succeed.

## Model

| member | source | states |
|---|---|---|
| Ecs.NewWorld | gameplay/ecs/world.py:9-13 | a new world is well formed, has no live entity, an empty queue and next id 1 |
| Ecs.CreateEntity | gameplay/ecs/world.py:15-19 | returns the old counter, which is at least 1 and not yet live; it joins the live set and the counter moves past it; tables and queue are unchanged |
| Ecs.CreateTwiceIncreasing | gameplay/ecs/world.py:15-19 | two consecutive creations return strictly increasing ids, neither live before |
| Ecs.FirstIdIsOne | gameplay/ecs/world.py:10 | the first id a new world hands out is 1 |
| Ecs.DestroyEntity | gameplay/ecs/world.py:21-26 | a live id leaves the live set and every table, and nothing else changes; an unknown id leaves the world unchanged |
| Ecs.DestroyThenGet | gameplay/ecs/world.py:21-26 | after destroying a live id, `get` finds none of its components and the id is not live |
| Ecs.Add | gameplay/ecs/world.py:28-30 | the table of the component's own class maps the id to the component, replacing any earlier one; every other table, the live set and the queue are unchanged |
| Ecs.Get | gameplay/ecs/world.py:32-33 | a component is found exactly when the id is in that class's table, and it is the stored one |
| Ecs.AddThenGet | gameplay/ecs/world.py:28-33 | `get` after `add` returns the added component; lookups of other ids or classes are unaffected |
| Ecs.Has | gameplay/ecs/world.py:35-36 | true exactly when the id is in every listed table, so it is true for an empty list |
| Ecs.EntitiesWith | gameplay/ecs/world.py:38-45 | with no classes, the live set; otherwise exactly the live ids present in every listed table |
| Ecs.EntitiesWithOrdered | gameplay/ecs/world.py:38-45 | the same ids as `entities_with`, strictly ascending |
| Ecs.Post | gameplay/ecs/world.py:47-48 | the event is appended at the tail; the store is unchanged |
| Ecs.DrainEvents | gameplay/ecs/world.py:50-53 | returns the queue as it was and leaves it empty; the store is unchanged |
| Ecs.PostThenDrainFifo | gameplay/ecs/world.py:47-53 | two posts to an empty queue drain in posting order |
| Ecs.EntitiesAt | gameplay/ecs/world.py:55-62 | exactly the live entities positioned at (x, y) that have every listed class, ascending |
| Ecs.AnyBlocking | gameplay/ecs/world.py:73-76 | true exactly when some listed entity has a Blocker with `passable` false |
| Ecs.IsBlocked | gameplay/ecs/world.py:64-77 | true exactly when a non-empty grid has (x, y) out of bounds or non-walkable, or a live entity there has a non-passable Blocker |
| Components.ComponentDefaults | gameplay/ecs/components.py:10-88 | z = 0; `is_dead` false; reach 1 with no tags; mp = max_mp = 50 with no spells; no items; empty resist maps; empty FOV sets |
| Events.EventDefaults | core/events.py:33-71 | Message defaults to channel "log" and ttl 3000; the killer and damage source default to None |
| Dice.SumBounds | gameplay/rules/dice.py:23-25 | the sum of n values in [lo, hi] lies in [n·lo, n·hi] |
| Dice.RollDice | gameplay/rules/dice.py:23 | exactly N rolls, each in [1, M], using N draws |
| Dice.AttrValue | gameplay/rules/dice.py:34-39 | a missing attribute reads as 0; with a divisor the value is floor-divided before the sign is applied |
| Dice.Roll | gameplay/rules/dice.py:11-43 | total = max(0, dice_total + mod_total) and is never negative; dice_total is the sum of the rolls; mod_total adds every constant and attribute term; without NdM there are no rolls and no draws; with NdM there are N rolls in [1, M] and N draws |
| Dice.RollAdvances | gameplay/rules/dice.py:19-25 | a roll uses exactly as many draws as it has dice |
| Dice.RollBounds | gameplay/rules/dice.py:19-43 | with NdM, the total lies between max(0, N + mods) and max(0, N·M + mods) |
| Dice.BlankRollsZero | gameplay/rules/dice.py:16-43 | an expression with no terms totals 0 and draws nothing |
| Dice.NoAttrsIsEmptyAttrs | gameplay/rules/dice.py:13 | passing no attribute map is the same as an empty one |
| Dice.NegativeConstantClampsToZero | gameplay/rules/dice.py:28-43 | "-5" has mod_total -5 and total 0 |
| Dice.OneDieOneSideIsOne | gameplay/rules/dice.py:19-25 | "1d1" always totals 1 |
| Dice.AttributeDivisionFloors | gameplay/rules/dice.py:35-39 | "+INT/2" with INT = -3 gives -2 (floor); "-INT/2" gives 2; a missing STR gives 0 |
| Attack.ClampPercent | gameplay/rules/attack.py:69 | the crit chance lies in [0, 100] and is unchanged when already inside |
| Attack.ToHit | gameplay/rules/attack.py:46-72 | the roll is the d20 draw in [1, 20]; target = 10 + evasion + cover; a 1 misses without a crit and uses one draw; a 20 hits; otherwise hit iff roll + accuracy + weapon bonus ≥ target; a hit uses a second draw and crits iff 100·draw < the clamped chance; a crit implies a hit |
| Attack.CritChanceExtremes | gameplay/rules/attack.py:66-70 | crit chance ≤ 0 never crits; crit chance ≥ 100 crits on every hit |
| Attack.NaturalRollsIgnoreStats | gameplay/rules/attack.py:57-61 | on a natural 1 or 20 the hit does not depend on stats or context |
| Damage.Trunc | gameplay/rules/damage.py:47 | `int()` of a real truncates toward zero |
| Damage.TruncMonotone | gameplay/rules/damage.py:47 | truncation is monotone on non-negative reals |
| Damage.AfterResist | gameplay/rules/damage.py:46-47 | 0 when soak ≥ base; never negative for a non-negative multiplier; at most base − soak for a multiplier in [0, 1] |
| Damage.SoakRoll | gameplay/rules/damage.py:35-37 | the soak is the armour dice roll, and a blank soak expression draws nothing |
| Damage.ApplyMeleeRanged | gameplay/rules/damage.py:14-49 | a crit doubles only the dice total; without armour soak 0 and multiplier 1; physical damage against armour rolls soak and uses 1 − resist["Physical"]; other types never soak and use 1 − resist[type]; final = trunc(max(0, base − soak) · mult) |
| Damage.UnarmoredTakesFullDamage | gameplay/rules/damage.py:30-47 | without armour the final damage is max(0, original) |
| Damage.AfterResistMonotone | gameplay/rules/damage.py:46-47 | more damage after soak never yields less final damage |
| Damage.CritNeverWeaker | gameplay/rules/damage.py:24-28 | on the same draws, a crit never deals less final damage than a normal hit (resistance at most 1) |
| Damage.CritDoublesDiceOnly | gameplay/rules/damage.py:24-26 | dice 4 and modifiers 3 give an original crit damage of 11, not 14 |
| Damage.ApplySpell | gameplay/rules/damage.py:51-72 | the dice default to "1d4" and the type to "Arcane"; soak is 0; spell_resist[type] is preferred over resist[type]; final = trunc(base · mult) |
| Damage.SpellDamage | gameplay/rules/damage.py:61-70 | spell damage is not soaked: a non-negative roll with a non-negative multiplier gives non-negative damage, a multiplier in [0, 1] never raises it, and multiplier 1 keeps it |
| Geometry.Delta | core/types.py:10-14 | each direction moves one cell: UP and DOWN change only y, LEFT and RIGHT only x, DOWN and RIGHT move toward larger coordinates |
| Geometry.DirectionStepsAreNeighbours | core/types.py:10-14 | the four deltas lead to four distinct 4-neighbours |
| Geometry.Rect.CenterX | core/types.py:23-25 | center_x − x is width // 2 (floor) |
| Geometry.Rect.CenterY | core/types.py:27-29 | center_y − y is height // 2 (floor) |
| Geometry.IntersectsSymmetric | core/types.py:31-35 | `intersects` is symmetric |
| Geometry.IntersectsSelf | core/types.py:31-35 | a rectangle of non-negative size intersects itself |
| Geometry.OverlapIntersects | core/types.py:31-35 | rectangles sharing a cell intersect |
| Geometry.NonIntersectingAreSeparated | core/types.py:31-35 | non-intersecting rectangles leave a gap of at least two cells on some axis |
| Geometry.NonIntersectingCellsApart | core/types.py:31-35 | cells of non-intersecting rectangles are at Chebyshev distance at least 3 |
| Tiles.WallTile | gameplay/dungeon/tiles.py:23-25 | a wall is not walkable, is opaque and shows "#" |
| Tiles.FloorTile | gameplay/dungeon/tiles.py:27-29 | a floor is walkable, not opaque and shows "." |
| Tiles.DoorTile | gameplay/dungeon/tiles.py:31-33 | a door is not walkable, is opaque and shows "+" |
| Tiles.StairsDownTile | gameplay/dungeon/tiles.py:35-37 | stairs are walkable, not opaque and show ">" |
| Tiles.WaterTile | gameplay/dungeon/tiles.py:39-41 | water is walkable, not opaque and shows "~" |
| Tiles.PredefinedTilesWalkableIffClear | gameplay/dungeon/tiles.py:23-41 | every predefined tile is walkable exactly when it is not opaque |
| Tiles.SetTile | gameplay/dungeon/generator.py:41 | writing one cell keeps the grid's shape and changes only that cell |
| Random.RandInt | util/rng.py:11-12 | `randint(lo, hi)` lies in [lo, hi] and uses one draw |
| Random.RandIntReaches | util/rng.py:11-12 | every value in [lo, hi] is the result for some oracle |
| Random.Unit | util/rng.py:14-15 | `random()` is the oracle's current unit value and uses one draw |
| Random.Sample | util/rng.py:20-21 | `sample(pool, k)` returns k members of the pool, pairwise distinct when the pool is, using k draws |
| Strings.ToLower | gameplay/ecs/systems/inventory_system.py:36 | `lower()` keeps the length and lowers each ASCII capital |
| Strings.Contains | gameplay/ecs/systems/inventory_system.py:36 | `sub in s` holds exactly when `sub` occurs at some index of `s` |
| Strings.IntToString | gameplay/ecs/systems/combat_system.py:61-63 | the decimal text of an integer is non-empty and starts with "-" exactly when it is negative |
| Pathfinding.MinIndex | util/pathfinding.py:67 | `heappop` takes an entry no other entry precedes in tuple order, so its f is minimal |
| Pathfinding.Initial | util/pathfinding.py:61-64 | the initial heap and scores satisfy the search invariant |
| Pathfinding.RelaxOne | util/pathfinding.py:78-86 | relaxing a neighbour only adds or lowers g-scores; a passable neighbour ends with g at most g(current) + 1 |
| Pathfinding.Expand | util/pathfinding.py:78-86 | after expanding the current cell, all its passable neighbours have g at most g(current) + 1 |
| Pathfinding.RelaxOneProgress | util/pathfinding.py:80-86 | a relaxation either leaves the search unchanged or strictly lowers the termination measure: fewer unknown in-bounds cells, or the same cells with a smaller g-score total |
| Pathfinding.RelaxOneKeeps | util/pathfinding.py:80-86 | relaxing a neighbour of the cell being expanded keeps the search invariant for every cell except that one |
| Pathfinding.ExpandKeeps | util/pathfinding.py:78-86 | expanding a popped cell restores the search invariant |
| Pathfinding.PopKeeps | util/pathfinding.py:67-69 | popping a non-goal entry keeps the invariant for every cell except the popped one |
| Pathfinding.Reconstruct | util/pathfinding.py:69-76 | following `came_from` back from a scored cell gives a walk from start to it of at most g + 1 cells, by 4-way steps through passable cells |
| Pathfinding.ManhattanAlongPath | util/pathfinding.py:29-31 | along a 4-way walk the Manhattan distance between two cells is at most the number of steps, so the heuristic never overestimates |
| Pathfinding.ReachBound | util/pathfinding.py:66-86 | for any walk from start, each cell on it is already known with g no larger than its index, or some heap entry is keyed no higher than the walk's length minus one |
| Pathfinding.GoalOptimal | util/pathfinding.py:66-76 | when the goal is popped with minimal f, its g-score is at most the length of any walk to it minus one |
| Pathfinding.Exhausted | util/pathfinding.py:66-88 | once the heap is empty, no walk from start to goal exists |
| Pathfinding.Run | util/pathfinding.py:66-88 | the search returns a walk of minimal length, or None exactly when there is no walk |
| Pathfinding.FindPath | util/pathfinding.py:21-88 | `find_path` returns a shortest 4-way walk from start to goal whose every cell after start is in bounds, walkable and not blocked, or None exactly when none exists |
| Pathfinding.FindPathToSelf | util/pathfinding.py:61-76 | start = goal gives [start] |
| Pathfinding.BlockedGoalHasNoPath | util/pathfinding.py:42-88 | a goal other than start that is out of bounds, non-walkable or blocked gives None |
| Pathfinding.FirstStepIsLegal | util/pathfinding.py:51-58 | a returned path longer than one cell starts with a 4-neighbour step onto a passable cell |
| Carving.CarveCell | gameplay/dungeon/generator.py:41 | one in-bounds cell becomes floor and every other cell is unchanged |
| Carving.CarveRow | gameplay/dungeon/generator.py:150-152 | the in-bounds cells of a row segment become floor and nothing else changes |
| Carving.CarveColumn | gameplay/dungeon/generator.py:166-168 | the in-bounds cells of a column segment become floor and nothing else changes |
| Carving.CarveHorizontal | gameplay/dungeon/generator.py:138-152 | the row `y` from min(x1, x2) to max(x1, x2) becomes floor where in bounds; every other cell is unchanged |
| Carving.CarveVertical | gameplay/dungeon/generator.py:154-168 | the column `x` from min(y1, y2) to max(y1, y2) becomes floor where in bounds; every other cell is unchanged |
| Carving.HorizontalKeepsBorder | gameplay/dungeon/generator.py:138-152 | a horizontal corridor between interior cells leaves the outer wall ring alone |
| Carving.VerticalKeepsBorder | gameplay/dungeon/generator.py:154-168 | a vertical corridor between interior cells leaves the outer wall ring alone |
| Carving.CarveRoom | gameplay/dungeon/generator.py:37-41 | every in-bounds cell of the room becomes floor and every cell outside it is unchanged |
| Carving.CarvedKeepsWalkable | gameplay/dungeon/generator.py:138-168 | carving only writes floor, so a walkable cell stays walkable |
| Carving.LinkedJoin | gameplay/dungeon/generator.py:91-115 | walkable connection is transitive |
| Carving.LinkedKept | gameplay/dungeon/generator.py:91-115 | a connection survives any change that keeps walkable cells walkable |
| Carving.RowLinked | gameplay/dungeon/generator.py:138-152 | a fully walkable row segment connects its two ends |
| Carving.ColumnLinked | gameplay/dungeon/generator.py:154-168 | a fully walkable column segment connects its two ends |
| Generator.AllWalls | gameplay/dungeon/generator.py:31 | the fresh map is `height` rows of `width` walls |
| Generator.PlaceRooms | gameplay/dungeon/generator.py:67-89 | the attempt loop only appends, stops at `max_rooms`, and every kept room respects the size bounds, the one-tile margin and the separation test |
| Generator.GenerateRooms | gameplay/dungeon/generator.py:55-89 | at most `max_rooms` and at most `max_attempts` rooms, each within the size bounds and the map's interior, no two intersecting |
| Generator.InsideGridCells | gameplay/dungeon/generator.py:77-81 | a placed room's cells and centre are interior cells of the map |
| Generator.CarveRooms | gameplay/dungeon/generator.py:37-41 | every cell of every room becomes floor, only floor is written, and the wall ring survives when the rooms are interior |
| Generator.CarveL | gameplay/dungeon/generator.py:129-136 | an L-shaped corridor only writes floor |
| Generator.CarveLKeepsBorder | gameplay/dungeon/generator.py:129-136 | an L between interior cells keeps the wall ring |
| Generator.CarveLLinks | gameplay/dungeon/generator.py:129-136 | whichever leg comes first, the L corridor connects its two endpoints on foot |
| Generator.CarveCorridor | gameplay/dungeon/generator.py:117-136 | one draw picks the leg order; between interior centres the corridor keeps the wall ring and connects the two centres |
| Generator.ChainRooms | gameplay/dungeon/generator.py:103-104 | each room from index i on is connected to the next one |
| Generator.ExtraLinks | gameplay/dungeon/generator.py:111-115 | the extra corridors only carve floor inside the wall ring |
| Generator.ConnectRooms | gameplay/dungeon/generator.py:91-115 | consecutive rooms are connected, and with more than two rooms the last is connected back to the first |
| Generator.PlaceTreasures | gameplay/dungeon/generator.py:194-198 | one treasure spot per chosen room, inside that room, two draws each |
| Generator.PlaceStairs | gameplay/dungeon/generator.py:186-191 | the stairs land on a cell of the last room, which becomes the stairs tile; no other cell changes |
| Generator.PlaceFeatures | gameplay/dungeon/generator.py:170-200 | with rooms: one stairs spot in the last room, `min(3, len(rooms))` treasure spots inside rooms, pairwise distinct and in distinct rooms, no springs or magic circles; with none: nothing placed and the map unchanged |
| Generator.TreasuresInRooms | gameplay/dungeon/generator.py:193-198 | sampled rooms are distinct, so with separate rooms no room holds two treasure spots and the spots are distinct |
| Generator.Generate | gameplay/dungeon/generator.py:21-53 | the map has the requested size and an intact wall ring; rooms keep their bounds, are separate and all floor; consecutive rooms are connected; the only stairs tile is the recorded one in the last room; treasures are distinct cells of rooms, no two in the same room |
| Generator.GeneratedDungeonConnected | gameplay/dungeon/generator.py:91-136 | every room's centre and the stairs are reachable on foot from the first room's centre |
| Generator.LayOut | gameplay/dungeon/generator.py:30-44 | after rooms are placed, carved out of solid wall and joined, the map has the requested size, an intact wall ring and only walls and floors; rooms keep their bounds, are separate, inside and all floor; consecutive rooms are connected |
| Generator.FurnishedWell | gameplay/dungeon/generator.py:46-53 | placing the features on a laid-out map gives a dungeon with every promise of `generate`: the layout facts survive, the only stairs tile is the recorded one in the last room, and no room holds two treasures |
| Generator.ChainLinked | gameplay/dungeon/generator.py:103-104 | a chain of consecutive connections connects the first room to every later one |
| CombatStateSystem.NewCombatState | gameplay/ecs/systems/combat_state_system.py:20-24 | a fresh tracker is inactive with no participants |
| CombatStateSystem.HandleCombatStart | gameplay/ecs/systems/combat_state_system.py:40-51 | the first attack of a fight activates combat with exactly the two parties and posts `CombatStarted` for them; later attacks only add the parties |
| CombatStateSystem.ShouldEndCombat | gameplay/ecs/systems/combat_state_system.py:63-93 | combat should end exactly when no two distinct standing participants (with a Position and a Health not dead) are within Chebyshev distance 1; the early exits for fewer than two participants or fewer than two standing agree with that test |
| CombatStateSystem.AdjacentFightersKeepCombat | gameplay/ecs/systems/combat_state_system.py:63-93 | two distinct standing participants within one step of each other keep the fight going |
| CombatStateSystem.ScatteredFightersEndCombat | gameplay/ecs/systems/combat_state_system.py:63-93 | when no two standing participants are within one step, the fight should end |
| CombatStateSystem.EndCombat | gameplay/ecs/systems/combat_state_system.py:95-101 | ending clears the participants, deactivates, and posts `CombatEnded` with the participants it had |
| CombatStateSystem.HandleEntityDeath | gameplay/ecs/systems/combat_state_system.py:53-61 | a non-participant's death changes nothing; a participant's death removes it, and ends the fight with `CombatEnded` of the rest exactly when the end test holds on the rest |
| CombatStateSystem.HandleEvents | gameplay/ecs/systems/combat_state_system.py:30-34 | handlers post only combat announcements, only attack parties join, and an attack outside combat announces a start |
| CombatStateSystem.Process | gameplay/ecs/systems/combat_state_system.py:26-38 | the tables are untouched; the queue is the announcements followed by every drained event re-posted in order; only attack parties can become participants |
| CombatStateSystem.CanMoveFreely | gameplay/ecs/systems/combat_state_system.py:103-122 | a move is allowed exactly when the entity is not in combat or the target is within one step (eight-way) |
| CombatStateSystem.EndedCombatLocksNobody | gameplay/ecs/systems/combat_state_system.py:95-122 | once combat has ended every move is allowed |
| Movement.Adjacent4Positions | gameplay/ecs/systems/movement_system.py:16-19 | two positions are 4-adjacent exactly when their Manhattan distance is 1 |
| Movement.ScanTargets | gameplay/ecs/systems/movement_system.py:65-84 | the scan of the target cell is clear exactly when nobody else there is alive or blocks; a collision names a living other entity on the cell |
| Movement.Judge | gameplay/ecs/systems/movement_system.py:36-84 | the request succeeds exactly when the mover has a Position, the combat lock allows it, a non-empty grid has the target in bounds and walkable, and nobody else on the target is alive or blocking |
| Movement.CompleteMove | gameplay/ecs/systems/movement_system.py:86-97 | only the mover's Position changes, to the target; `MoveResolved` from the old cell is posted; a non-player that ends 4-adjacent to the positioned player then posts exactly one attack on it, and otherwise nothing else is posted |
| Movement.Refuse | gameplay/ecs/systems/movement_system.py:50-83 | a refused request changes no table and posts only messages, a bump, or the attack on the living entity it bumped |
| Movement.HandleMoveRequest | gameplay/ecs/systems/movement_system.py:36-97 | the mover moves to the target with `MoveResolved` exactly when the request may succeed, followed by an attack on the player exactly when a non-player ends 4-adjacent to the positioned player; otherwise no Position changes and no move is announced; only the mover's Position ever changes; every attack posted is by the mover on a living entity or the player |
| Movement.LockedMoveRefused | gameplay/ecs/systems/movement_system.py:49-52 | a locked move posts only "Cannot flee from combat!" and changes no table |
| Movement.OffMapOrWallRefused | gameplay/ecs/systems/movement_system.py:54-62 | an out-of-bounds target posts only "Can't go that way!"; a non-walkable one changes nothing at all |
| Movement.BumpThenAttack | gameplay/ecs/systems/movement_system.py:75-80 | a living entity on the target yields `Bump` then `AttackRequested` from the mover, and no table changes |
| Movement.CannotFleeCombat | gameplay/ecs/systems/movement_system.py:49-52 | an entity in combat that changes position moved at most one step |
| Movement.BumpingIntoTheLiving | gameplay/ecs/systems/movement_system.py:75-80 | moving onto a living entity's cell moves nobody |
| Movement.DispatchOne | gameplay/ecs/systems/movement_system.py:29-34 | a move request is handled; any other event is re-posted unchanged |
| Movement.Dispatch | gameplay/ecs/systems/movement_system.py:29-34 | only requested movers move, no request is left in the queue, and the non-move events are re-posted in their original order, after the events already queued; with no move request among them the queue gains exactly those events |
| Movement.Process | gameplay/ecs/systems/movement_system.py:21-34 | after `process` the queue holds no move request and the drained non-move events appear in it in their original order; a queue without move requests comes back unchanged; only entities that requested a move changed Position |
| Movement.RepostedCounted | gameplay/ecs/systems/movement_system.py:28-34 | every drained non-move event is still in the queue after `process` as many times as it was drained |
| Movement.InOrderCounts | gameplay/ecs/systems/movement_system.py:28-34 | events kept in order are kept with their multiplicity |
| Movement.StillWithoutRequest | gameplay/ecs/systems/movement_system.py:21-34 | an entity with no move request keeps its Position |
| Combat.UnarmedWeapon | gameplay/ecs/systems/combat_system.py:36-40 | the default weapon is "1d4+STR", physical, reach 1 |
| Combat.DealtMessage | gameplay/ecs/systems/combat_system.py:64-65 | the hit message starts with "Dealt " |
| Combat.LandBlow | gameplay/ecs/systems/combat_system.py:56-71 | the target's hp drops by the final damage and only that entry changes; `DamageApplied` and the "Dealt" message are posted, and `EntityDied` with "Target defeated!" follow exactly when hp reaches 0 or below, with `is_dead` set |
| Combat.Strike | gameplay/ecs/systems/combat_system.py:36-71 | a miss posts only "Miss!"; a hit lowers the target's hp by exactly the final damage of `apply_melee_ranged` with the equipped or unarmed weapon; only the target is hurt and only attack outcomes are posted |
| Combat.HandleAttack | gameplay/ecs/systems/combat_system.py:23-71 | a missing attacker Stats, target Health or target Stats makes the attack a no-op; otherwise only the target's Health changes, by the damage announced |
| Combat.NoResurrection | gameplay/ecs/systems/combat_system.py:57-70 | an attack never clears `is_dead` |
| Combat.DeadStaysDead | gameplay/ecs/systems/combat_system.py:57-70 | a step that hurts only the target and keeps it dead if it was keeps every dead entity dead |
| Combat.StepsCompose | gameplay/ecs/systems/combat_system.py:19-21 | consecutive attacks compose: the hurt sets add up and every death stays announced |
| Combat.HandleAll | gameplay/ecs/systems/combat_system.py:19-21 | only targets of attack requests lose Health, and every new death is announced |
| Combat.Process | gameplay/ecs/systems/combat_system.py:15-21 | the drained queue is consumed: only attack outcomes remain, only attacked entities are hurt, and every entity newly dead has its `EntityDied` |
| Combat.NoAttacksNoChange | gameplay/ecs/systems/combat_system.py:15-21 | without attack requests `process` only empties the queue |
| Combat.NoAttacksKeepTables | gameplay/ecs/systems/combat_system.py:19-21 | handling events that are not attacks changes nothing |
| Ai.Sign | gameplay/ecs/systems/ai_system.py:78-88 | the direct-approach step component is 1, -1 or 0 as the difference is positive, negative or zero |
| Ai.StepToward | gameplay/ecs/systems/ai_system.py:77-90 | the direct step is one king's move that brings the monster one Chebyshev step closer, or stays put when already there |
| Ai.DirectApproach | gameplay/ecs/systems/ai_system.py:77-97 | it attacks exactly when the player is within one king's move; otherwise it requests the neighbouring cell one step closer |
| Ai.Wander | gameplay/ecs/systems/ai_system.py:99-114 | one draw picks one of the eight neighbours; landing on the player attacks it, any other neighbour is a move request |
| Ai.WanderReachesEveryNeighbour | gameplay/ecs/systems/ai_system.py:105-107 | each of the eight neighbours other than the player's cell is the move for a suitable draw |
| Ai.Chase | gameplay/ecs/systems/ai_system.py:40-75 | a chaser attacks only the player from one king's move away or moves one step; within Manhattan range 5 it uses no draw, beyond it wanders with one draw |
| Ai.ChaseByRange | gameplay/ecs/systems/ai_system.py:55-75 | at Manhattan distance 1 the chaser attacks the player; from 2 to 5 it requests the second cell of the A* path when there is one and takes the direct approach otherwise; beyond 5 it wanders |
| Ai.ChaseIgnoresPathToBlockingPlayer | gameplay/ecs/systems/ai_system.py:62-72 | A* never reaches a blocking player's cell, so within range but not adjacent the chaser always takes the direct approach |
| Ai.Think | gameplay/ecs/systems/ai_system.py:25-36 | a monster posts one request exactly when it is alive and its behaviour is "chase" or "wander", and the request is its own |
| Ai.Acting | gameplay/ecs/systems/ai_system.py:25-36 | the monsters that act are those alive with behaviour "chase" or "wander" |
| Ai.ThinkAll | gameplay/ecs/systems/ai_system.py:25-36 | one request per acting monster, in the order of the monsters |
| Ai.Monsters | gameplay/ecs/systems/ai_system.py:25 | the monsters visited are exactly the live entities with AI, Position and Health, in ascending id order |
| Ai.PostRequests | gameplay/ecs/systems/ai_system.py:59-114 | posting appends the requests after the existing queue and touches no table |
| Ai.Process | gameplay/ecs/systems/ai_system.py:16-38 | with no player Position nothing happens; otherwise the tables are unchanged and each acting monster, in ascending id order, appends exactly one attack or move request on its own behalf |
| InventorySystem.ItemGlyphIsLowerContains | gameplay/ecs/systems/inventory_system.py:36 | the item test on glyphs holds exactly when "item" occurs in the lower-cased glyph |
| InventorySystem.ItemsAmong | gameplay/ecs/systems/inventory_system.py:31-37 | the filter keeps exactly the entities that are items standing on the target cell |
| InventorySystem.ItemsAmongAscending | gameplay/ecs/systems/inventory_system.py:31-37 | the filter keeps the ascending id order |
| InventorySystem.ItemsHere | gameplay/ecs/systems/inventory_system.py:29-37 | `items_here` is exactly the live items on the cell, in ascending id order |
| InventorySystem.Room | gameplay/ecs/systems/inventory_system.py:41 | no room is left exactly when the bag holds at least `capacity` items |
| InventorySystem.TakeOne | gameplay/ecs/systems/inventory_system.py:46-56 | the item loses its Position and nothing else in the store changes; `ItemPicked` and "Picked up <name>" are posted |
| InventorySystem.Announce | gameplay/ecs/systems/inventory_system.py:52-56 | two events per item taken: an `ItemPicked` by the picker and a "Picked up " message |
| InventorySystem.PickUp | gameplay/ecs/systems/inventory_system.py:40-56 | the first `min(len(items), room)` items go into the bag in order and lose their Positions; "Inventory full!" follows exactly when items were left behind |
| InventorySystem.AnnounceNeverFull | gameplay/ecs/systems/inventory_system.py:42-56 | the pickup announcements never include the full notice |
| InventorySystem.FullNotice | gameplay/ecs/systems/inventory_system.py:41-43 | the full notice is posted at most once, exactly when the bag overflowed |
| InventorySystem.CheckItemPickup | gameplay/ecs/systems/inventory_system.py:19-56 | without an Inventory nothing happens; otherwise the bag gains the items on the cell that fit, in id order, they leave the map, and only the picker's Inventory and those Positions change |
| InventorySystem.PickupKeepsCapacity | gameplay/ecs/systems/inventory_system.py:41-46 | a bag within capacity stays within capacity |
| InventorySystem.FullNoticeIffNoRoom | gameplay/ecs/systems/inventory_system.py:41-43 | "Inventory full!" is posted exactly when more items lie on the cell than fit |
| InventorySystem.HandleAll | gameplay/ecs/systems/inventory_system.py:15-17 | handling the drained events keeps every bag within capacity, keeps picked items off the map, and only removes Positions |
| InventorySystem.HandleAllWithoutMoves | gameplay/ecs/systems/inventory_system.py:15-17 | events that are not `MoveResolved` change nothing |
| InventorySystem.HandleOne | gameplay/ecs/systems/inventory_system.py:15-17 | handling one event only appends pickup outcomes to the queue, only removes Positions and changes Inventories, and keeps bags within capacity and picked items off the map |
| InventorySystem.ProcessWithoutMoves | gameplay/ecs/systems/inventory_system.py:11-17 | with no `MoveResolved` in the queue `process` only empties it |
| InventorySystem.Process | gameplay/ecs/systems/inventory_system.py:11-17 | the queue is consumed and only pickup events remain; bags stay within capacity; no Position is added or moved |
| FovSystem.UpdateFov | gameplay/ecs/systems/fov_system.py:20-39 | without Position, Vision or a grid nothing changes; otherwise the visible set becomes the raycast from the entity's cell and the seen set gains it; no other entity's cache changes |
| FovSystem.UpdateKeepsCoherent | gameplay/ecs/systems/fov_system.py:31-39 | after an update every visible set is inside its seen set, and no seen tile is forgotten |
| FovSystem.UpdateSeesOwnCell | gameplay/dungeon/fov.py:10 | with a raycaster that sees its origin, the entity sees its own cell |
| FovSystem.UpdateAll | gameplay/ecs/systems/fov_system.py:17-18 | only Visible entries of the visited entities change, coherence is kept, and seen sets only grow |
| FovSystem.UpdateAllRefreshes | gameplay/ecs/systems/fov_system.py:17-39 | a visited viewer ends with exactly its fresh raycast |
| FovSystem.Viewers | gameplay/ecs/systems/fov_system.py:17 | the visited entities are exactly the live ones with Vision and Position |
| FovSystem.Process | gameplay/ecs/systems/fov_system.py:13-18 | only Visible caches change, coherence is kept, seen sets only grow, and non-viewers keep their cache |
| FovSystem.ProcessRefreshesViewers | gameplay/ecs/systems/fov_system.py:13-39 | every live viewer sees exactly its raycast afterwards, its own cell included when the raycaster sees its origin |
| InputHandler.GetAction | core/input.py:36-41 | no action exactly when no binding lists the key; otherwise an action whose keys include it |
| InputHandler.GetActionIsFirst | core/input.py:38-40 | the action returned is the first binding, in table order, that lists the key |
| InputHandler.DefaultKeybinds | core/input.py:21-34 | the fallback table binds the ten actions in order, each to at least one key |
| InputHandler.DefaultBindsEveryAction | core/input.py:23-34 | every key bound in the fallback table maps back to its own action |
| InputHandler.GetDirection | core/input.py:43-51 | a direction is returned exactly for "up", "down", "left" and "right" |
| InputHandler.GetDirectionInvertsNaming | core/input.py:45-51 | `get_direction` returns `d` exactly for the name of `d` |
| InputSystem.HandleMovement | gameplay/ecs/systems/input_system.py:27-36 | without a player Position nothing is posted; otherwise one `MoveRequested` for a 4-neighbour of the player |
| InputSystem.HandleDescend | gameplay/ecs/systems/input_system.py:38-42 | with a player Position exactly one `DescendRequested` from the player's cell is posted, otherwise nothing |
| InputSystem.HandleAction | gameplay/ecs/systems/input_system.py:14-25 | at most one event is appended and no table changes; an unknown action, or a movement action without a direction, does nothing; the player never attacks from input |
| InputSystem.MovementKeyRequestsNeighbour | gameplay/ecs/systems/input_system.py:16-36 | a movement action with its own direction requests exactly the neighbouring cell in that direction |
| InputSystem.OnlyMovementActionsMove | gameplay/ecs/systems/input_system.py:14-25 | a non-movement action never requests a move |
| InputSystem.OtherActionsOnlyAnnounce | gameplay/ecs/systems/input_system.py:18-25 | wait, inventory and spellbook post one message; descend posts its request |
| InputSystem.MoveWithoutDirectionIgnored | gameplay/ecs/systems/input_system.py:16 | a movement action without a direction falls through every branch |
| SceneManager.ActiveScene | core/scene_manager.py:24-26 | the active scene is the top of the stack, and none exactly when the stack is empty |
| SceneManager.Push | core/scene_manager.py:28-29 | pushing keeps the stack below and makes the new scene active |
| SceneManager.Pop | core/scene_manager.py:31-32 | popping returns the active scene and removes exactly the top; an empty stack stays empty |
| SceneManager.Replace | core/scene_manager.py:34-38 | the new scene becomes active in place of the top, or is pushed onto an empty stack |
| SceneManager.PushThenPop | core/scene_manager.py:28-32 | pop undoes push |
| SceneManager.ReplaceIsPopPush | core/scene_manager.py:28-38 | replace is a pop followed by a push |
| MessageLog.NewLog | ui/message_log.py:17-20 | a fresh log is empty with a bound of 15 |
| MessageLog.PySuffix | ui/message_log.py:36 | Python's `s[-m:]` is a suffix of `s`; it is all of `s` for `m = 0` and the last `min(m, len(s))` entries for positive `m` |
| MessageLog.AddMessageAsWritten | ui/message_log.py:24-36 | the trimmed list is a suffix of the old list plus the new entry, and under the bound nothing is dropped |
| MessageLog.ZeroBoundKeepsEverything | ui/message_log.py:35-36 | with a bound of 0 one message is kept, so the log exceeds its bound |
| MessageLog.AddMessage | ui/message_log.py:24-36 | only the oldest entries are dropped; the log grows by one or is cut to its bound; under the bound the entry is simply appended |
| MessageLog.AddMessageKeepsBound | ui/message_log.py:24-36 | a log within its bound stays within it, and the new entry is last whenever the bound is positive |
| MessageLog.PositiveBoundAgrees | ui/message_log.py:24-36 | for a positive bound the corrected trim and the code as written agree |
| MessageLog.Age | ui/message_log.py:50-56 | aging keeps only entries with time left, and never adds any |
| MessageLog.Update | ui/message_log.py:40-56 | the bound is kept, no entry is added, every surviving entry has time left, and an empty log is returned as is |
| MessageLog.AgeDistributes | ui/message_log.py:52-55 | entries age independently: aging a concatenation ages each part |
| MessageLog.AgeOne | ui/message_log.py:53-55 | an entry survives with `remaining - elapsed` exactly when that is positive |
| MessageLog.FrozenTimeKeepsLog | ui/message_log.py:43-46 | an update by zero milliseconds keeps a live log unchanged |
| MessageLog.AgeComposes | ui/message_log.py:52-55 | aging by `a` then `b` equals aging by `a + b` |
| MessageLog.UpdateComposes | ui/message_log.py:40-56 | two updates equal one update by the summed time |
| Hud.NewHud | ui/hud.py:20-25 | the HUD starts with no last hp, no flash and no damage |
| Hud.RunDown | ui/hud.py:47-49 | a running flash decreases by the elapsed time and stops at 0; a spent flash stays as it is |
| Hud.Update | ui/hud.py:27-49 | without player Health nothing changes; otherwise the last hp becomes the current one; a drop restarts the flash at 1500 ms with the damage taken, otherwise the flash only runs down |
| Hud.FlashStaysInRange | ui/hud.py:41-49 | the flash timer stays within [0, 1500] |
| Hud.FrozenFlashNeverFades | ui/hud.py:30-49 | with zero elapsed time the flash does not decrease |
| Hud.NoNewDamageOnlyFades | ui/hud.py:41-49 | a second update without new damage only lets the flash fade and keeps the damage amount |
| Factories.ClassOf | gameplay/content/factories.py:56-57 | a class name resolves only to the component kind of that name |
| Factories.ClassOfInvertsKindName | gameplay/content/factories.py:56-57 | a name resolves to a kind exactly when it is that kind's class name |
| Factories.AddParts | gameplay/content/factories.py:55-62 | only the new entity gains components, only of the kinds of recognised parts, and the last recognised part is the one stored |
| Factories.UnknownPartsSkipped | gameplay/content/factories.py:56-57 | parts with no matching class are skipped |
| Factories.CreateSpawns | gameplay/content/factories.py:10 | `create_entity` adds one new entity and leaves the others alone |
| Factories.PlayerBody | gameplay/content/factories.py:10-20 | the player's Position, 100/100 Health, stats and Vision 5 |
| Factories.PlayerKit | gameplay/content/factories.py:21-23 | an empty 20-slot Inventory, empty Equipment and a Spellbook with "firebolt" |
| Factories.PlayerLook | gameplay/content/factories.py:24-25 | a Blocker with `passable` false and the "Hero" "@" descriptor |
| Factories.SpawnPlayer | gameplay/content/factories.py:8-27 | the player is the next id, newly live, the queue is untouched and every other entity's components are as before |
| Factories.SpawnedPlayerBody | gameplay/content/factories.py:14-20 | the spawned player reads back at the given cell, with 100/100 Health and not dead, the player stats and Vision radius 5 |
| Factories.SpawnedPlayerKit | gameplay/content/factories.py:21-25 | the spawned player reads back with an empty 20-slot Inventory, empty Equipment, a Spellbook holding "firebolt", a non-passable Blocker and the "Hero" "@" blue descriptor |
| Factories.PlayerIsLivingObstacle | gameplay/content/factories.py:15-24 | the spawned player is alive and blocks its cell |
| Factories.MonsterBase | gameplay/content/factories.py:35-52 | the monster's Position, blocking Blocker, catalog descriptor and Vision 4 |
| Factories.ItemBase | gameplay/content/factories.py:75-87 | the item's Position, catalog descriptor and passable Blocker |
| Factories.SpawnMonster | gameplay/content/factories.py:29-67 | an unknown id fails with "Unknown monster: <id>"; a known one spawns exactly one new entity |
| Factories.SpawnItem | gameplay/content/factories.py:69-99 | an unknown id fails with "Unknown item: <id>"; a known one spawns exactly one new entity |
| Factories.MonsterKeepsBase | gameplay/content/factories.py:38-62 | when the catalog parts do not override them, the base components survive |
| Factories.ItemIsPassable | gameplay/content/factories.py:78-97 | a spawned item without overriding parts is passable |
| Factories.SlimeParts | gameplay/content/registries.py:72-79 | the slime's parts add its Health, Stats and AI in that order |
| Factories.DefaultSlime | gameplay/content/registries.py:67-81 | the built-in slime spawns with 15/15 Health, a chase AI and Vision 4, alive and blocking |
| Factories.SlimeOnTop | gameplay/content/registries.py:72-79 | the slime's parts give any entity 15/15 Health and a chase AI and leave its Blocker and Vision untouched |
| Factories.DefaultItemsAreNeverPickedUp | gameplay/content/registries.py:41-65 | the built-in glyphs "/" and "[" do not contain "item", so pickup never takes a built-in item |
| PlayScene.DescendReply | scenes/play_scene.py:202-235 | no reply exactly without a player Position; "You can't descend here." exactly off the map, the descend text exactly on a ">" or "stairs_down" glyph, "There are no stairs here." exactly on any other tile; 4000 ms for the descend text, 2000 otherwise |
| PlayScene.OnMapIsInBounds | scenes/play_scene.py:208-212 | on a rectangular map the row-wise bounds test is the usual bounds test |
| PlayScene.StairsTileDescends | scenes/play_scene.py:216-235 | the generator's stairs tile gets the descend reply and a floor tile gets the no-stairs reply |
| PlayScene.DescendStairs | scenes/play_scene.py:202-235 | without a player Position the log is unchanged; otherwise exactly the reply is logged |
| PlayScene.Say | scenes/play_scene.py:190 | the scene logs through `add_message` as written: the bound is unchanged, at most one entry is added, below the bound the entry is appended, and for a positive bound (the scene's `MessageLog()` has 15) the result is the corrected trim |
| PlayScene.Handle | scenes/play_scene.py:188-198 | a Message is logged with its own ttl; the player's `EntityDied` ends the game and logs "You have died! Press R to restart." for 10000 ms; a `DescendRequested` is answered by `_descend_stairs`; every other event leaves the log alone; at most one entry is added |
| PlayScene.Drain | scenes/play_scene.py:187-198 | the game is over afterwards exactly when it was or the player's `EntityDied` is among the events; with room in the log one entry is added per noted event |
| PlayScene.DrainIgnoresStairs | scenes/play_scene.py:197-235 | without a descend request the drain does not depend on the world or the map |
| PlayScene.PlayerMoves | scenes/play_scene.py:168-171 | combat state then player movement change only Positions |
| PlayScene.Fight | scenes/play_scene.py:172 | the combat system changes only Health and leaves only attack outcomes queued |
| PlayScene.Collect | scenes/play_scene.py:173 | with no move outcome queued, the inventory system only empties the queue |
| PlayScene.PlayerPhase | scenes/play_scene.py:167-173 | the player's phase changes only Positions and Health and leaves the queue empty |
| PlayScene.MonsterMoves | scenes/play_scene.py:177-179 | monster AI then movement change only Positions |
| PlayScene.MonsterPhase | scenes/play_scene.py:176-184 | the monsters' phase changes only Positions, Health and Visible, and leaves only messages, damage and deaths in the queue |
| PlayScene.Systems | scenes/play_scene.py:165-184 | the system pipeline creates and destroys no entity, changes only Positions, Health and Visible, and leaves only messages, damage and deaths to drain |
| PlayScene.Finish | scenes/play_scene.py:186-200 | the drain empties the queue, adds one to the turn count, and ends the game exactly when it was over or the player died |
| PlayScene.ProcessTurn | scenes/play_scene.py:165-200 | a turn keeps the scene well formed, empties the queue, counts one turn, keeps the map and the player, changes only Positions, Health and Visible, and sets `game_over` exactly when the player's death is drained or it was already set |
| PlayScene.FinishIgnoresStairs | scenes/play_scene.py:186-198 | a queue of messages, damage and deaths is drained the same whatever the world and the map |
| PlayScene.TurnNeverDescends | scenes/play_scene.py:172-198 | every descend request is consumed by the combat system before the final drain, so a turn's log never depends on the stairs |

## Left out

- Rendering and wall-clock time are not modelled: every `render` method, `ui/combat_ui.py`, `PlayScene.handle_input`, `PlayScene.update`, `PlayScene.render`, the start and pause scenes, `core/app.py` and `main.py`. They draw with pygame or run the event loop.
- `compute_visible` in `gameplay/dungeon/fov.py` casts rays with floating-point trigonometry. It is the function parameter `see`; the only fact assumed of it, where a lemma needs one, is that the origin is visible.
- Floating-point values are Dafny reals: crit chance and multiplier, resistances, message lifetimes and the HUD flash timer. IEEE rounding is not modelled; `int()` is truncation toward zero.
- `DiceRoller.roll` parses its expression with regular expressions. The model takes the parsed form, `DiceExpr`: an optional NdM term, the signed constants and the attribute references with their divisors.
- The random number generator is an oracle of integer and unit draws (`Rng`). `util/rng.py`, Python's Mersenne Twister and its seeding are not modelled; the scene seeds from the clock and ignores the configured seed.
- File and content loading are not modelled: `InputHandler._load_keybinds` reads TOML, and `gameplay/content/registries.py` reads JSON. Keybinds are an ordered list of bindings and the catalog is a map parameter; the built-in defaults are constants.
- Catalog components are given already built (a class name with a component value). Building a component from a JSON dict of keyword arguments is not modelled; the `globals()` lookup is a lookup by component class name.
- `print` output and `debug_system.py` are left out.
- The systems are always given a grid. The `grid=None` defaults are not modelled; an empty grid stands for the falsy one.
- `str.lower()` lowers ASCII capitals only.
- Python sets are iterated in ascending id order in `entities_with` and `entities_at`.
- Rolls the Python code would abort with an exception are excluded by preconditions rather than modelled: a die with 0 sides or a divisor of 0 (`Dice.Evaluable`). `Damage.WeaponInputsOk` asks this of the weapon's dice always, and of the armor's soak dice only for Physical damage, as `apply_melee_ranged` rolls them. An unknown catalog id, which raises `ValueError`, is a `Failure` result.
- Combat.ArmsEvaluable, PlayScene.Ready: a world that stores any weapon or armor with unrollable dice is excluded as a whole, even when no turn would roll those dice. Python rolls a weapon's dice only when its wielder hits, and an armor's soak only on a Physical hit against its wearer. The model does not state which attacks a turn will make before it runs, so it asks every stored weapon and armor to be rollable.
- The player's Equipment and Spellbook are spawned but nothing in the turn uses them; `ItemEquipped` is never posted.
- PlayScene.Drain: the count of logged entries is stated only while the log has room for every event; beyond that, only the bound and the game-over flag are stated.
- PlayScene.TurnNeverDescends: states that the turn's log does not depend on the world or the map the stairs check would read. That a descend request never survives to the final drain is carried by `PlayScene.Systems` (only messages, damage and deaths remain).
- Ai.Chase: its own contract states only the shape of the request; which A* step is taken is stated by `Ai.ChaseByRange`.
- Generator.GenerateRooms, Generator.PlaceRooms: require `min_size <= max_size`. With the bounds crossed, `randint(min_size, max_size)` at gameplay/dungeon/generator.py:73-74 raises `ValueError`, and the model does not describe that failure.
- Generator.LayOut, Generator.Generate: also require `min_size >= 1`, so every room is at least one tile wide and high. With `min_size <= 0`, `randint` can draw a room of width or height 0 or less, and the stairs and treasure draws at gameplay/dungeon/generator.py:187-188 and 195-196 would then raise. Runs with `min_size <= 0` that happen to draw only positive sizes are accepted by the Python code but excluded from the model.
- Generator.ExtraLinks: states only that the extra corridors carve floor inside the wall ring, not which room pairs they join.
- MessageLog.Age: its own contract states only that entries are dropped and survivors have time left; the exact arithmetic is stated by `MessageLog.AgeOne` and `MessageLog.AgeDistributes`.

## Findings

| source | as written | input that shows it | evidently intended | confidence | as-written member | corrected member |
|---|---|---|---|---|---|---|
| ui/message_log.py:35-36 | trims with `messages[-max_messages:]`; for a bound of 0 the slice `[-0:]` is the whole list | `MessageLog(max_messages=0)` then one `add_message`: the log holds 1 entry, above its bound of 0 | the log never holds more than `max(0, max_messages)` entries | not executed | MessageLog.ZeroBoundKeepsEverything | MessageLog.AddMessageKeepsBound |

=== FILE: ai.dfy ===
/**
  Monster behaviour (gameplay/ecs/systems/ai_system.py): each living entity
  with an AI component either attacks the player, asks to move, or (with an
  unknown behaviour) does nothing. The system only posts requests; the
  movement and combat systems act on them.
*/
module Ai {
  import opened Wrappers
  import opened Geometry
  import opened Tiles
  import opened Random
  import opened Components
  import opened Events
  import opened Ecs
  import opened Pathfinding

  /** The eight directions `_process_wander_ai` chooses from, in the order of its `directions` list. */
  const WanderSteps: seq<Point> :=
    [Point(0, 1), Point(0, -1), Point(1, 0), Point(-1, 0), Point(1, 1), Point(1, -1), Point(-1, 1), Point(-1, -1)]

  /** The chase range of `_process_chase_ai`, in 4-way steps. */
  const ChaseRange: nat := 5

  /** The entity on whose behalf a request was posted. */
  function Actor(ev: Event): Eid
    requires ev.AttackRequested? || ev.MoveRequested?
  {
    if ev.AttackRequested? then ev.attackerEid else ev.eid
  }

  /** -1, 0 or 1: the `dx`/`dy` of the direct approach. */
  function Sign(n: int): (s: int)
    ensures n > 0 ==> s == 1
    ensures n < 0 ==> s == -1
    ensures n == 0 ==> s == 0
  {
    if n > 0 then 1 else if n < 0 then -1 else 0
  }

  /** The cell one king's move from `from` toward `to`. */
  function StepToward(from: Point, to: Point): (p: Point)
    ensures Chebyshev(from, p) <= 1
    ensures from != to ==> Chebyshev(p, to) + 1 == Chebyshev(from, to)
    ensures from == to ==> p == from
  {
    Point(from.x + Sign(to.x - from.x), from.y + Sign(to.y - from.y))
  }

  /** `_move_toward_player_direct`: attack if the step lands on the player, else ask to move there. */
  function DirectApproach(eid: Eid, monster: Point, player: Point, playerEid: Eid): (ev: Event)
    ensures ev.AttackRequested? <==> Chebyshev(monster, player) <= 1
    ensures ev.AttackRequested? ==> ev == AttackRequested(eid, playerEid)
    ensures ev.MoveRequested? ==>
      ev.eid == eid && Chebyshev(monster, ev.toXy) == 1 && Chebyshev(ev.toXy, player) + 1 == Chebyshev(monster, player)
    ensures ev.AttackRequested? || ev.MoveRequested?
  {
    var next := StepToward(monster, player);
    if next == player then AttackRequested(eid, playerEid) else MoveRequested(eid, next)
  }

  /** `_process_wander_ai`: one of the eight neighbours at random; stepping onto the player attacks. */
  function Wander(r: Rng, eid: Eid, monster: Point, player: Point, playerEid: Eid): (res: (Event, Rng))
    ensures Advanced(r, res.1, 1)
    ensures res.0.AttackRequested? || res.0.MoveRequested?
    ensures res.0.AttackRequested? ==> res.0 == AttackRequested(eid, playerEid) && Chebyshev(monster, player) == 1
    ensures res.0.MoveRequested? ==> res.0.eid == eid && Chebyshev(monster, res.0.toXy) == 1 && res.0.toXy != player
  {
    var (k, r') := RandBelow(r, |WanderSteps|);
    var next := Translate(monster, WanderSteps[k]);
    if next == player then (AttackRequested(eid, playerEid), r') else (MoveRequested(eid, next), r')
  }

  /** Every wander direction can be drawn, so a wandering monster can end up on any of its eight neighbours. */
  lemma WanderReachesEveryNeighbour(r: Rng, eid: Eid, monster: Point, player: Point, playerEid: Eid, target: Point)
    requires Chebyshev(monster, target) == 1 && target != player
    requires r.ints(r.cursor) % 8 == (if target.x == monster.x && target.y == monster.y + 1 then 0
      else if target.x == monster.x && target.y == monster.y - 1 then 1
      else if target.x == monster.x + 1 && target.y == monster.y then 2
      else if target.x == monster.x - 1 && target.y == monster.y then 3
      else if target.x == monster.x + 1 && target.y == monster.y + 1 then 4
      else if target.x == monster.x + 1 && target.y == monster.y - 1 then 5
      else if target.x == monster.x - 1 && target.y == monster.y + 1 then 6
      else 7)
    ensures Wander(r, eid, monster, player, playerEid).0 == MoveRequested(eid, target)
  {
  }

  /**
    `_process_chase_ai`: attack when one 4-way step away; within the chase
    range follow the first step of the A* path, or approach directly when
    there is none; farther away, wander.
  */
  function Chase(w: World, grid: Grid, r: Rng, eid: Eid, monster: Point, player: Point, playerEid: Eid): (res: (Event, Rng))
    requires Wf(w) && Rectangular(grid)
    ensures res.0.AttackRequested? || res.0.MoveRequested?
    ensures res.0.AttackRequested? ==> res.0 == AttackRequested(eid, playerEid) && Chebyshev(monster, player) <= 1
    ensures res.0.MoveRequested? ==> res.0.eid == eid && Chebyshev(monster, res.0.toXy) == 1
    ensures Manhattan(monster, player) <= ChaseRange ==> res.1 == r
    ensures Manhattan(monster, player) > ChaseRange ==> Advanced(r, res.1, 1)
  {
    var d := Manhattan(monster, player);
    if d == 1 then (AttackRequested(eid, playerEid), r)
    else if d <= ChaseRange then (PathOrDirect(w, grid, eid, monster, player, playerEid), r)
    else Wander(r, eid, monster, player, playerEid)
  }

  /** The in-range branch of the chase: the second cell of the A* path, or the direct approach without one. */
  function PathOrDirect(w: World, grid: Grid, eid: Eid, monster: Point, player: Point, playerEid: Eid): (ev: Event)
    requires Wf(w) && Rectangular(grid)
    ensures ev.AttackRequested? || ev.MoveRequested?
    ensures ev.AttackRequested? ==> ev == AttackRequested(eid, playerEid) && Chebyshev(monster, player) <= 1
    ensures ev.MoveRequested? ==> ev.eid == eid && Chebyshev(monster, ev.toXy) == 1
  {
    var path := FindPath(monster, player, grid, w);
    if path.Some? && |path.value| > 1 then
      FirstStepIsKingMove(monster, player, grid, w);
      MoveRequested(eid, path.value[1])
    else DirectApproach(eid, monster, player, playerEid)
  }

  /** The second cell of an A* path is one king's move from the first. */
  lemma FirstStepIsKingMove(monster: Point, player: Point, grid: Grid, w: World)
    requires Wf(w) && Rectangular(grid)
    ensures var found := FindPath(monster, player, grid, w);
      found.Some? && |found.value| > 1 ==> Chebyshev(monster, found.value[1]) == 1
  {
    var found := FindPath(monster, player, grid, w);
    if found.Some? && |found.value| > 1 {
      FirstStepIsLegal(monster, player, grid, w);
      assert Adjacent4(monster, found.value[1]);
    }
  }

  /**
    The three ranges of the chase: one 4-way step away it attacks; within
    range it takes the second cell of a path when A* finds one; beyond the
    range it wanders.
  */
  lemma ChaseByRange(w: World, grid: Grid, r: Rng, eid: Eid, monster: Point, player: Point, playerEid: Eid)
    requires Wf(w) && Rectangular(grid)
    ensures Manhattan(monster, player) == 1 ==>
      Chase(w, grid, r, eid, monster, player, playerEid) == (AttackRequested(eid, playerEid), r)
    ensures 2 <= Manhattan(monster, player) <= ChaseRange ==>
      var path := FindPath(monster, player, grid, w);
      && (path.Some? && |path.value| > 1 ==>
            Chase(w, grid, r, eid, monster, player, playerEid) == (MoveRequested(eid, path.value[1]), r))
      && (!(path.Some? && |path.value| > 1) ==>
            Chase(w, grid, r, eid, monster, player, playerEid) == (DirectApproach(eid, monster, player, playerEid), r))
    ensures Manhattan(monster, player) > ChaseRange ==>
      Chase(w, grid, r, eid, monster, player, playerEid) == Wander(r, eid, monster, player, playerEid)
  {
  }

  /**
    The player spawns with an impassable Blocker, so A* never reaches it and
    a chasing monster two to five steps away always takes the direct approach.
  */
  lemma ChaseIgnoresPathToBlockingPlayer(w: World, grid: Grid, r: Rng, eid: Eid, monster: Point, playerEid: Eid)
    requires Wf(w) && Rectangular(grid)
    requires playerEid in w.live && GetPosition(w, playerEid).Some? && Obstacle(w, playerEid)
    requires var player := GetPosition(w, playerEid).value.Xy();
      2 <= Manhattan(monster, player) <= ChaseRange
    ensures var player := GetPosition(w, playerEid).value.Xy();
      Chase(w, grid, r, eid, monster, player, playerEid) == (DirectApproach(eid, monster, player, playerEid), r)
  {
    var player := GetPosition(w, playerEid).value.Xy();
    assert PositionedAt(w, playerEid, player.x, player.y);
    assert BlockerAt(w, player.x, player.y);
    BlockedGoalHasNoPath(monster, player, grid, w);
  }

  /** The behaviours the loop of `process` dispatches on. */
  predicate Acts(ai: AI) {
    ai.behavior == "chase" || ai.behavior == "wander"
  }

  /**
    What every posted request satisfies: it comes from a live, living entity
    with an acting AI and a Position; an attack targets the player from at
    most one king's move away; a move asks for one of the eight neighbours.
  */
  ghost predicate Request(w: World, ev: Event, player: Point, playerEid: Eid)
    requires Wf(w)
  {
    && (ev.AttackRequested? || ev.MoveRequested?)
    && Actor(ev) in w.live && Living(w, Actor(ev))
    && GetAI(w, Actor(ev)).Some? && Acts(GetAI(w, Actor(ev)).value)
    && GetPosition(w, Actor(ev)).Some?
    && (ev.AttackRequested? ==> ev.targetEid == playerEid && Chebyshev(GetPosition(w, Actor(ev)).value.Xy(), player) <= 1)
    && (ev.MoveRequested? ==> Chebyshev(GetPosition(w, Actor(ev)).value.Xy(), ev.toXy) == 1)
  }

  /** One iteration of the loop of `process`, for an entity with AI, Position and Health. */
  function Think(w: World, grid: Grid, r: Rng, player: Point, playerEid: Eid, eid: Eid): (res: (seq<Event>, Rng))
    requires Wf(w) && Rectangular(grid)
    requires eid in w.live && GetAI(w, eid).Some? && GetPosition(w, eid).Some? && GetHealth(w, eid).Some?
    ensures |res.0| <= 1
    ensures |res.0| == 1 <==> Living(w, eid) && Acts(GetAI(w, eid).value)
    ensures |res.0| == 1 ==> Request(w, res.0[0], player, playerEid) && Actor(res.0[0]) == eid
  {
    if GetHealth(w, eid).value.isDead then ([], r)
    else
      var monster := GetPosition(w, eid).value.Xy();
      var ai := GetAI(w, eid).value;
      if ai.behavior == "chase" then
        var (ev, r') := Chase(w, grid, r, eid, monster, player, playerEid);
        ([ev], r')
      else if ai.behavior == "wander" then
        var (ev, r') := Wander(r, eid, monster, player, playerEid);
        ([ev], r')
      else ([], r)
  }

  /** The living entities among `es` whose behaviour is chase or wander, in iteration order. */
  function Acting(w: World, es: seq<Eid>): (r: seq<Eid>)
    requires Wf(w)
    ensures forall e :: e in r <==> e in es && Living(w, e) && GetAI(w, e).Some? && Acts(GetAI(w, e).value)
  {
    if |es| == 0 then []
    else
      var rest := Acting(w, es[1..]);
      assert forall e :: e in es[1..] ==> e in es;
      var ai := GetAI(w, es[0]);
      if Living(w, es[0]) && ai.Some? && Acts(ai.value) then [es[0]] + rest else rest
  }

  /** The entities on whose behalf `evs` were posted, in order. */
  ghost function Actors(evs: seq<Event>): seq<Eid>
    requires forall i :: 0 <= i < |evs| ==> evs[i].AttackRequested? || evs[i].MoveRequested?
  {
    if |evs| == 0 then [] else [Actor(evs[0])] + Actors(evs[1..])
  }

  /** The loop of `process` over the entities `es`. */
  function ThinkAll(w: World, grid: Grid, r: Rng, player: Point, playerEid: Eid, es: seq<Eid>): (res: (seq<Event>, Rng))
    requires Wf(w) && Rectangular(grid)
    requires forall i :: 0 <= i < |es| ==>
      es[i] in w.live && GetAI(w, es[i]).Some? && GetPosition(w, es[i]).Some? && GetHealth(w, es[i]).Some?
    ensures |res.0| == |Acting(w, es)|
    ensures forall i :: 0 <= i < |res.0| ==> res.0[i].AttackRequested? || res.0[i].MoveRequested?
    ensures forall i :: 0 <= i < |res.0| ==> Request(w, res.0[i], player, playerEid)
    ensures Actors(res.0) == Acting(w, es)
    decreases |es|
  {
    if |es| == 0 then ([], r)
    else
      var (first, r1) := Think(w, grid, r, player, playerEid, es[0]);
      var (rest, r2) := ThinkAll(w, grid, r1, player, playerEid, es[1..]);
      ThinkAllStep(w, player, playerEid, es, first, rest);
      (first + rest, r2)
  }

  /** One monster's request, then the rest's: the loop's facts extend to `es`. */
  lemma ThinkAllStep(w: World, player: Point, playerEid: Eid, es: seq<Eid>, first: seq<Event>, rest: seq<Event>)
    requires Wf(w) && |es| > 0 && GetAI(w, es[0]).Some?
    requires |first| <= 1
    requires |first| == 1 <==> Living(w, es[0]) && Acts(GetAI(w, es[0]).value)
    requires |first| == 1 ==> Request(w, first[0], player, playerEid) && Actor(first[0]) == es[0]
    requires |rest| == |Acting(w, es[1..])|
    requires forall i :: 0 <= i < |rest| ==> rest[i].AttackRequested? || rest[i].MoveRequested?
    requires forall i :: 0 <= i < |rest| ==> Request(w, rest[i], player, playerEid)
    requires Actors(rest) == Acting(w, es[1..])
    ensures |first + rest| == |Acting(w, es)|
    ensures forall i :: 0 <= i < |first + rest| ==> (first + rest)[i].AttackRequested? || (first + rest)[i].MoveRequested?
    ensures forall i :: 0 <= i < |first + rest| ==> Request(w, (first + rest)[i], player, playerEid)
    ensures Actors(first + rest) == Acting(w, es)
  {
    if |first| == 1 {
      assert first == [first[0]];
      assert Acting(w, es) == [es[0]] + Acting(w, es[1..]);
      ActedStep(w, player, playerEid, first[0], rest);
    } else {
      assert Acting(w, es) == Acting(w, es[1..]);
      assert first + rest == rest;
    }
  }

  /** A request in front of the rest's keeps every request valid and puts its actor first. */
  lemma ActedStep(w: World, player: Point, playerEid: Eid, ev: Event, rest: seq<Event>)
    requires Wf(w) && Request(w, ev, player, playerEid)
    requires forall i :: 0 <= i < |rest| ==> rest[i].AttackRequested? || rest[i].MoveRequested?
    requires forall i :: 0 <= i < |rest| ==> Request(w, rest[i], player, playerEid)
    ensures forall i :: 0 <= i < |[ev] + rest| ==> ([ev] + rest)[i].AttackRequested? || ([ev] + rest)[i].MoveRequested?
    ensures forall i :: 0 <= i < |[ev] + rest| ==> Request(w, ([ev] + rest)[i], player, playerEid)
    ensures Actors([ev] + rest) == [Actor(ev)] + Actors(rest)
  {
    var all := [ev] + rest;
    assert all[1..] == rest;
    forall i | 0 <= i < |all|
      ensures Request(w, all[i], player, playerEid)
    {
      if i > 0 {
        assert all[i] == rest[i - 1];
      }
    }
  }

  /** `entities_with(CAI, CPosition, CHealth)`, in iteration order; each carries the three kinds. */
  function Monsters(w: World): (es: seq<Eid>)
    requires Wf(w)
    ensures forall i :: 0 <= i < |es| ==>
      es[i] in w.live && GetAI(w, es[i]).Some? && GetPosition(w, es[i]).Some? && GetHealth(w, es[i]).Some?
    ensures forall e :: e in es <==> e in EntitiesWith(w, [AIKind, PositionKind, HealthKind])
    ensures forall i, j :: 0 <= i < j < |es| ==> es[i] < es[j]
  {
    var ks := [AIKind, PositionKind, HealthKind];
    var es := EntitiesWithOrdered(w, ks);
    assert forall i :: 0 <= i < |es| ==>
      es[i] in w.live && GetAI(w, es[i]).Some? && GetPosition(w, es[i]).Some? && GetHealth(w, es[i]).Some? by {
      forall i | 0 <= i < |es|
        ensures es[i] in w.live && GetAI(w, es[i]).Some? && GetPosition(w, es[i]).Some? && GetHealth(w, es[i]).Some?
      {
        assert es[i] in EntitiesWith(w, ks);
        assert ks[0] == AIKind && ks[1] == PositionKind && ks[2] == HealthKind;
      }
    }
    es
  }

  /** What the monsters posted after the queue `before`. */
  ghost predicate PostedRequests(w: World, queue: seq<Event>, before: nat, player: Point, playerEid: Eid)
    requires Wf(w) && before <= |queue|
  {
    forall i :: before <= i < |queue| ==> Request(w, queue[i], player, playerEid)
  }

  /** Append the monsters' requests to the queue. */
  function PostRequests(w: World, posts: seq<Event>, player: Point, playerEid: Eid): (w': World)
    requires Wf(w)
    requires forall i :: 0 <= i < |posts| ==> Request(w, posts[i], player, playerEid)
    ensures Wf(w') && w'.tables == w.tables && w'.live == w.live && w'.nextId == w.nextId
    ensures |w'.queue| == |w.queue| + |posts| && w'.queue[..|w.queue|] == w.queue
    ensures PostedRequests(w, w'.queue, |w.queue|, player, playerEid)
    ensures w'.queue[|w.queue|..] == posts
  {
    var w' := PostAll(w, posts);
    assert forall i :: |w.queue| <= i < |w'.queue| ==> w'.queue[i] == posts[i - |w.queue|];
    assert w'.queue[..|w.queue|] == w.queue;
    w'
  }

  /**
    `process`: nothing happens unless the player has a Position; otherwise
    every acting monster, in ascending id order, posts exactly one request,
    and only the queue changes.
  */
  function Process(w: World, grid: Grid, r: Rng, playerEid: Eid): (res: (World, Rng))
    requires Wf(w) && Rectangular(grid)
    ensures Wf(res.0)
    ensures res.0.tables == w.tables && res.0.live == w.live && res.0.nextId == w.nextId
    ensures |res.0.queue| >= |w.queue| && res.0.queue[..|w.queue|] == w.queue
    ensures GetPosition(w, playerEid).None? ==> res == (w, r)
    ensures GetPosition(w, playerEid).Some? ==>
      && |res.0.queue| == |w.queue| + |Acting(w, Monsters(w))|
      && PostedRequests(w, res.0.queue, |w.queue|, GetPosition(w, playerEid).value.Xy(), playerEid)
    ensures GetPosition(w, playerEid).Some? ==>
      && (forall i :: |w.queue| <= i < |res.0.queue| ==> res.0.queue[i].AttackRequested? || res.0.queue[i].MoveRequested?)
      && Actors(res.0.queue[|w.queue|..]) == Acting(w, Monsters(w))
  {
    match GetPosition(w, playerEid)
    case None => (w, r)
    case Some(pp) =>
      var t := ThinkAll(w, grid, r, pp.Xy(), playerEid, Monsters(w));
      var w' := PostRequests(w, t.0, pp.Xy(), playerEid);
      assert w'.queue[|w.queue|..] == t.0;
      (w', t.1)
  }
}

=== FILE: attack.dfy ===
/** The d20 to-hit resolver (gameplay/rules/attack.py). */
module Attack {
  import opened Wrappers
  import opened Random
  import opened Components

  /** `roll` is the raw d20; `target` is the defense value to meet or beat. */
  datatype AttackResult = AttackResult(hit: bool, crit: bool, roll: int, target: int)

  /** `max(0.0, min(100.0, crit_chance))`. */
  function ClampPercent(c: real): (r: real)
    ensures 0.0 <= r <= 100.0
    ensures 0.0 <= c <= 100.0 ==> r == c
  {
    if c < 0.0 then 0.0 else if c > 100.0 then 100.0 else c
  }

  /** `context or {}` followed by `ctx.get(key, 0)`. */
  function ContextValue(context: Option<map<string, int>>, key: string): int {
    MapGet(context.GetOr(map[]), key, 0)
  }

  /**
    `to_hit`: draws a d20; a natural 1 misses without a crit draw, a natural 20
    hits, any other roll hits when roll + accuracy + weapon bonus reaches
    10 + evasion + cover. A hit then draws `random()` and crits when
    100 times that draw is below the clamped crit chance.
  */
  function ToHit(attacker: Stats, defender: Stats, context: Option<map<string, int>>, r: Rng): (res: (AttackResult, Rng))
    ensures var a := res.0;
      && 1 <= a.roll <= 20
      && a.roll == RandInt(r, 1, 20).0
      && a.target == 10 + defender.evasion + ContextValue(context, "cover")
    ensures res.0.roll == 1 ==> !res.0.hit && !res.0.crit && Advanced(r, res.1, 1)
    ensures res.0.roll == 20 ==> res.0.hit
    ensures 2 <= res.0.roll <= 19 ==>
      (res.0.hit <==> res.0.roll + attacker.accuracy + ContextValue(context, "weapon_bonus") >= res.0.target)
    ensures res.0.crit ==> res.0.hit
    ensures res.0.hit ==>
      && Advanced(r, res.1, 2)
      && (res.0.crit <==> r.units(r.cursor + 1) * 100.0 < ClampPercent(attacker.critChance))
    ensures !res.0.hit ==> Advanced(r, res.1, 1)
  {
    var (roll, r1) := RandInt(r, 1, 20);
    var attackBonus := attacker.accuracy + ContextValue(context, "weapon_bonus");
    var defenseValue := 10 + defender.evasion + ContextValue(context, "cover");
    if roll == 1 then
      (AttackResult(false, false, roll, defenseValue), r1)
    else
      var hit := roll == 20 || roll + attackBonus >= defenseValue;
      if hit then
        var (u, r2) := Unit(r1);
        (AttackResult(true, u * 100.0 < ClampPercent(attacker.critChance), roll, defenseValue), r2)
      else
        (AttackResult(false, false, roll, defenseValue), r1)
  }

  /** A crit chance of 0 (or below) never crits; one of 100 (or above) crits on every hit whose draw is below 1. */
  lemma CritChanceExtremes(attacker: Stats, defender: Stats, context: Option<map<string, int>>, r: Rng)
    ensures attacker.critChance <= 0.0 && r.units(r.cursor + 1) >= 0.0 ==> !ToHit(attacker, defender, context, r).0.crit
    ensures attacker.critChance >= 100.0 && 0.0 <= r.units(r.cursor + 1) < 1.0 ==>
      (ToHit(attacker, defender, context, r).0.crit <==> ToHit(attacker, defender, context, r).0.hit)
  {
  }

  /** The natural 1 and natural 20 rules ignore every stat: the d20 oracle alone decides. */
  lemma NaturalRollsIgnoreStats(a1: Stats, d1: Stats, a2: Stats, d2: Stats, c1: Option<map<string, int>>, c2: Option<map<string, int>>, r: Rng)
    requires RandInt(r, 1, 20).0 == 1 || RandInt(r, 1, 20).0 == 20
    ensures ToHit(a1, d1, c1, r).0.hit == ToHit(a2, d2, c2, r).0.hit
  {
  }
}

=== FILE: carving.dfy ===
/**
  Writing floor tiles into the wall grid (the carving helpers of
  gameplay/dungeon/generator.py), and the walks across walkable tiles that
  carving opens up.
*/
module Carving {
  import opened Geometry
  import opened Tiles

  ghost predicate SameShape(g: Grid, g': Grid) {
    Rectangular(g) && Rectangular(g') && Width(g') == Width(g) && Height(g') == Height(g)
  }

  /** `g'` differs from `g` only by cells turned into floor. */
  ghost predicate CarvedFrom(g: Grid, g': Grid) {
    SameShape(g, g') &&
    forall p :: InBounds(g, p) ==> At(g', p) == At(g, p) || At(g', p) == FloorTile()
  }

  /** Every cell walkable in `g` is still walkable in `g'`. */
  ghost predicate WalkableKept(g: Grid, g': Grid) {
    SameShape(g, g') && forall p :: WalkableAt(g, p) ==> WalkableAt(g', p)
  }

  /** A cell away from the outer ring of the grid. */
  predicate Interior(g: Grid, p: Point) {
    1 <= p.x <= Width(g) - 2 && 1 <= p.y <= Height(g) - 2
  }

  /** The outer ring of the grid is untouched. */
  ghost predicate BorderKept(g: Grid, g': Grid) {
    SameShape(g, g') && forall p :: InBounds(g, p) && !Interior(g, p) ==> At(g', p) == At(g, p)
  }

  lemma CarvedFromTrans(g0: Grid, g1: Grid, g2: Grid)
    requires CarvedFrom(g0, g1) && CarvedFrom(g1, g2)
    ensures CarvedFrom(g0, g2)
  {
    forall p | InBounds(g0, p)
      ensures At(g2, p) == At(g0, p) || At(g2, p) == FloorTile()
    {
      assert InBounds(g1, p);
    }
  }

  lemma CarvedKeepsWalkable(g: Grid, g': Grid)
    requires CarvedFrom(g, g')
    ensures WalkableKept(g, g')
  {
    forall p | WalkableAt(g, p)
      ensures WalkableAt(g', p)
    {
      assert At(g', p) == At(g, p) || At(g', p) == FloorTile();
    }
  }

  lemma WalkableKeptTrans(g0: Grid, g1: Grid, g2: Grid)
    requires WalkableKept(g0, g1) && WalkableKept(g1, g2)
    ensures WalkableKept(g0, g2)
  {
  }

  lemma BorderKeptTrans(g0: Grid, g1: Grid, g2: Grid)
    requires BorderKept(g0, g1) && BorderKept(g1, g2)
    ensures BorderKept(g0, g2)
  {
    forall p | InBounds(g0, p) && !Interior(g0, p)
      ensures At(g2, p) == At(g0, p)
    {
      assert InBounds(g1, p) && !Interior(g1, p);
    }
  }

  /** `grid[p.y][p.x] = Tile.floor()` behind the loops' bounds test. */
  function CarveCell(g: Grid, p: Point): (g': Grid)
    requires Rectangular(g)
    ensures CarvedFrom(g, g')
    ensures InBounds(g, p) ==> At(g', p) == FloorTile()
    ensures forall q :: InBounds(g, q) && q != p ==> At(g', q) == At(g, q)
  {
    if InBounds(g, p) then SetTile(g, p, FloorTile()) else g
  }

  /** Floors the cells `(lo..hi, y)` that lie inside the grid. */
  function CarveRow(g: Grid, y: int, lo: int, hi: int): (g': Grid)
    requires Rectangular(g)
    ensures CarvedFrom(g, g')
    ensures forall q :: InBounds(g, q) && q.y == y && lo <= q.x <= hi ==> At(g', q) == FloorTile()
    ensures forall q :: InBounds(g, q) && !(q.y == y && lo <= q.x <= hi) ==> At(g', q) == At(g, q)
    decreases if lo > hi then 0 else hi - lo + 1
  {
    if lo > hi then g
    else
      var g1 := CarveCell(g, Point(lo, y));
      var g' := CarveRow(g1, y, lo + 1, hi);
      CarvedFromTrans(g, g1, g');
      g'
  }

  /** Floors the cells `(x, lo..hi)` that lie inside the grid. */
  function CarveColumn(g: Grid, x: int, lo: int, hi: int): (g': Grid)
    requires Rectangular(g)
    ensures CarvedFrom(g, g')
    ensures forall q :: InBounds(g, q) && q.x == x && lo <= q.y <= hi ==> At(g', q) == FloorTile()
    ensures forall q :: InBounds(g, q) && !(q.x == x && lo <= q.y <= hi) ==> At(g', q) == At(g, q)
    decreases if lo > hi then 0 else hi - lo + 1
  {
    if lo > hi then g
    else
      var g1 := CarveCell(g, Point(x, lo));
      var g' := CarveColumn(g1, x, lo + 1, hi);
      CarvedFromTrans(g, g1, g');
      g'
  }

  function Min(a: int, b: int): int { if a <= b then a else b }
  function Max(a: int, b: int): int { if a <= b then b else a }

  /** `_carve_horizontal_corridor`: the row `y` between `x1` and `x2`, both included. */
  function CarveHorizontal(g: Grid, x1: int, x2: int, y: int): (g': Grid)
    requires Rectangular(g)
    ensures CarvedFrom(g, g')
    ensures forall q :: InBounds(g, q) && q.y == y && Min(x1, x2) <= q.x <= Max(x1, x2) ==> At(g', q) == FloorTile()
    ensures forall q :: InBounds(g, q) && !(q.y == y && Min(x1, x2) <= q.x <= Max(x1, x2)) ==> At(g', q) == At(g, q)
  {
    CarveRow(g, y, Min(x1, x2), Max(x1, x2))
  }

  /** `_carve_vertical_corridor`: the column `x` between `y1` and `y2`, both included. */
  function CarveVertical(g: Grid, x: int, y1: int, y2: int): (g': Grid)
    requires Rectangular(g)
    ensures CarvedFrom(g, g')
    ensures forall q :: InBounds(g, q) && q.x == x && Min(y1, y2) <= q.y <= Max(y1, y2) ==> At(g', q) == FloorTile()
    ensures forall q :: InBounds(g, q) && !(q.x == x && Min(y1, y2) <= q.y <= Max(y1, y2)) ==> At(g', q) == At(g, q)
  {
    CarveColumn(g, x, Min(y1, y2), Max(y1, y2))
  }

  /** A horizontal leg between interior cells leaves the outer ring alone. */
  lemma HorizontalKeepsBorder(g: Grid, x1: int, x2: int, y: int)
    requires Rectangular(g)
    requires Interior(g, Point(x1, y)) && Interior(g, Point(x2, y))
    ensures BorderKept(g, CarveHorizontal(g, x1, x2, y))
  {
    var g' := CarveHorizontal(g, x1, x2, y);
    forall q | InBounds(g, q) && !Interior(g, q)
      ensures At(g', q) == At(g, q)
    {
      assert !(q.y == y && Min(x1, x2) <= q.x <= Max(x1, x2));
    }
  }

  /** A vertical leg between interior cells leaves the outer ring alone. */
  lemma VerticalKeepsBorder(g: Grid, x: int, y1: int, y2: int)
    requires Rectangular(g)
    requires Interior(g, Point(x, y1)) && Interior(g, Point(x, y2))
    ensures BorderKept(g, CarveVertical(g, x, y1, y2))
  {
    var g' := CarveVertical(g, x, y1, y2);
    forall q | InBounds(g, q) && !Interior(g, q)
      ensures At(g', q) == At(g, q)
    {
      assert !(q.x == x && Min(y1, y2) <= q.y <= Max(y1, y2));
    }
  }

  /** Floors the rows `y ..` of `room` (the generator's room-carving loops). */
  function CarveRows(g: Grid, room: Rect, y: int): (g': Grid)
    requires Rectangular(g) && y >= room.y
    ensures CarvedFrom(g, g')
    ensures forall q :: InBounds(g, q) && room.Contains(q) && q.y >= y ==> At(g', q) == FloorTile()
    ensures forall q :: InBounds(g, q) && !(room.Contains(q) && q.y >= y) ==> At(g', q) == At(g, q)
    decreases room.y + room.height - y
  {
    if y >= room.y + room.height then g
    else
      var g1 := CarveRow(g, y, room.x, room.x + room.width - 1);
      var g' := CarveRows(g1, room, y + 1);
      CarvedFromTrans(g, g1, g');
      g'
  }

  /** Floors every in-bounds cell of `room` and nothing else. */
  function CarveRoom(g: Grid, room: Rect): (g': Grid)
    requires Rectangular(g)
    ensures CarvedFrom(g, g')
    ensures forall q :: InBounds(g, q) && room.Contains(q) ==> At(g', q) == FloorTile()
    ensures forall q :: InBounds(g, q) && !room.Contains(q) ==> At(g', q) == At(g, q)
  {
    CarveRows(g, room, room.y)
  }

  // ---------------------------------------------------------------------
  // Walks over walkable tiles.

  /** A sequence of 4-way steps over walkable cells. */
  ghost predicate IsWalk(g: Grid, path: seq<Point>)
    requires Rectangular(g)
  {
    && |path| >= 1
    && (forall i :: 0 <= i < |path| - 1 ==> Adjacent4(path[i], path[i + 1]))
    && (forall i :: 0 <= i < |path| ==> WalkableAt(g, path[i]))
  }

  /** `b` can be reached from `a` on foot, ignoring entities. */
  ghost predicate Linked(g: Grid, a: Point, b: Point)
    requires Rectangular(g)
  {
    exists path :: IsWalk(g, path) && path[0] == a && path[|path| - 1] == b
  }

  lemma LinkedSelf(g: Grid, a: Point)
    requires Rectangular(g) && WalkableAt(g, a)
    ensures Linked(g, a, a)
  {
    assert IsWalk(g, [a]);
  }

  lemma LinkedJoin(g: Grid, a: Point, b: Point, c: Point)
    requires Rectangular(g) && Linked(g, a, b) && Linked(g, b, c)
    ensures Linked(g, a, c)
  {
    var p :| IsWalk(g, p) && p[0] == a && p[|p| - 1] == b;
    var q :| IsWalk(g, q) && q[0] == b && q[|q| - 1] == c;
    var pq := p + q[1..];
    assert forall i :: 0 <= i < |p| ==> pq[i] == p[i];
    assert forall i :: |p| <= i < |pq| ==> pq[i] == q[i - |p| + 1];
    assert IsWalk(g, pq);
  }

  lemma LinkedKept(g: Grid, g': Grid, a: Point, b: Point)
    requires WalkableKept(g, g') && Linked(g, a, b)
    ensures Linked(g', a, b)
  {
    var p :| IsWalk(g, p) && p[0] == a && p[|p| - 1] == b;
    assert IsWalk(g', p);
  }

  /** The cells `(x1, y), …, (x2, y)` in walking order. */
  ghost function RowWalk(x1: int, x2: int, y: int): (path: seq<Point>)
    ensures |path| >= 1 && path[0] == Point(x1, y) && path[|path| - 1] == Point(x2, y)
    ensures forall i :: 0 <= i < |path| - 1 ==> Adjacent4(path[i], path[i + 1])
    ensures forall i :: 0 <= i < |path| ==> path[i].y == y && Min(x1, x2) <= path[i].x <= Max(x1, x2)
    decreases if x1 <= x2 then x2 - x1 else x1 - x2
  {
    if x1 == x2 then [Point(x1, y)]
    else
      var rest := RowWalk(if x1 < x2 then x1 + 1 else x1 - 1, x2, y);
      [Point(x1, y)] + rest
  }

  /** The cells `(x, y1), …, (x, y2)` in walking order. */
  ghost function ColumnWalk(x: int, y1: int, y2: int): (path: seq<Point>)
    ensures |path| >= 1 && path[0] == Point(x, y1) && path[|path| - 1] == Point(x, y2)
    ensures forall i :: 0 <= i < |path| - 1 ==> Adjacent4(path[i], path[i + 1])
    ensures forall i :: 0 <= i < |path| ==> path[i].x == x && Min(y1, y2) <= path[i].y <= Max(y1, y2)
    decreases if y1 <= y2 then y2 - y1 else y1 - y2
  {
    if y1 == y2 then [Point(x, y1)]
    else
      var rest := ColumnWalk(x, if y1 < y2 then y1 + 1 else y1 - 1, y2);
      [Point(x, y1)] + rest
  }

  /** A straight run of floor in one row links its two ends. */
  lemma RowLinked(g: Grid, x1: int, x2: int, y: int)
    requires Rectangular(g)
    requires forall q: Point :: q.y == y && Min(x1, x2) <= q.x <= Max(x1, x2) ==> WalkableAt(g, q)
    ensures Linked(g, Point(x1, y), Point(x2, y))
  {
    var p := RowWalk(x1, x2, y);
    assert IsWalk(g, p);
  }

  /** A straight run of floor in one column links its two ends. */
  lemma ColumnLinked(g: Grid, x: int, y1: int, y2: int)
    requires Rectangular(g)
    requires forall q: Point :: q.x == x && Min(y1, y2) <= q.y <= Max(y1, y2) ==> WalkableAt(g, q)
    ensures Linked(g, Point(x, y1), Point(x, y2))
  {
    var p := ColumnWalk(x, y1, y2);
    assert IsWalk(g, p);
  }
}

=== FILE: combat.dfy ===
/**
  Attack resolution (gameplay/ecs/systems/combat_system.py): each
  `AttackRequested` rolls to hit, rolls damage, lowers the target's hit
  points and announces the outcome; the random generator is threaded through.
*/
module Combat {
  import opened Wrappers
  import opened Random
  import opened Dice
  import opened Strings
  import opened Components
  import opened Events
  import opened Ecs
  import opened Attack
  import opened Damage

  /** `CWeapon(damage_dice="1d4+STR", damage_type="Physical")`, the unarmed attack. */
  function UnarmedWeapon(): (wp: Weapon)
    ensures Evaluable(wp.damageDice) && wp.damageType == "Physical" && wp.reach == 1
    ensures wp.damageDice.dice == Some(DiceTerm(1, 4)) && wp.damageDice.consts == []
    ensures wp.damageDice.attrRefs == [AttrRef(Plus, STR, None)]
  {
    Weapon(DiceExpr(Some(DiceTerm(1, 4)), [], [AttrRef(Plus, STR, None)]), "Physical")
  }

  /**
    Every stored weapon and armor has dice the roller evaluates without
    raising; `roll` in dice.py raises on the others, so the model leaves them out.
  */
  ghost predicate ArmsEvaluable(w: World)
    requires Wf(w)
  {
    && (forall e :: GetWeapon(w, e).Some? ==> Evaluable(GetWeapon(w, e).value.damageDice))
    && (forall e :: GetArmor(w, e).Some? ==> Evaluable(GetArmor(w, e).value.soakDice))
  }

  /** `f"Dealt {final_damage} damage{crit_text}"`. */
  function DealtMessage(amount: int, crit: bool): (text: string)
    ensures |text| > 13 && text[..6] == "Dealt "
  {
    "Dealt " + IntToString(amount) + " damage" + (if crit then " (Critical Hit!)" else "")
  }

  /** The events an attack can post. */
  ghost predicate AttackOutcome(ev: Event) {
    ev.Message? || ev.DamageApplied? || ev.EntityDied?
  }

  /** Only Health entries of the entities in `hurt` may differ; nothing else in the store changes. */
  ghost predicate HurtsOnly(w: World, w': World, hurt: set<Eid>)
    requires Wf(w) && Wf(w')
  {
    && w'.live == w.live && w'.nextId == w.nextId
    && (forall k :: k != HealthKind ==> Table(w', k) == Table(w, k))
    && (forall e :: e !in hurt ==> GetHealth(w', e) == GetHealth(w, e))
    && (forall e :: GetHealth(w', e).Some? <==> GetHealth(w, e).Some?)
    && |w'.queue| >= |w.queue| && w'.queue[..|w.queue|] == w.queue
  }

  /** Every death in the step from `w` to `w'` was announced by an `EntityDied` at the tail of the queue. */
  ghost predicate DeathsAnnounced(w: World, w': World)
    requires Wf(w) && Wf(w') && |w'.queue| >= |w.queue|
  {
    && (forall e :: Living(w', e) ==> Living(w, e))
    && (forall e :: Living(w, e) && !Living(w', e) ==>
          exists i :: |w.queue| <= i < |w'.queue| && w'.queue[i].EntityDied? && w'.queue[i].eid == e)
  }

  /** A hit: lower the hit points, announce the damage, and kill at zero or below. */
  function LandBlow(w: World, attacker: Eid, target: Eid, health: Health, dr: DamageResult, crit: bool): (w': World)
    requires Wf(w) && GetHealth(w, target) == Some(health)
    ensures Wf(w')
    ensures HurtsOnly(w, w', {target}) && DeathsAnnounced(w, w')
    ensures GetHealth(w', target).value.hp == health.hp - dr.finalDamage
    ensures GetHealth(w', target).value.isDead <==> health.isDead || health.hp - dr.finalDamage <= 0
    ensures GetHealth(w', target).value.maxHp == health.maxHp
    ensures |w'.queue| >= |w.queue| + 2 && w'.queue[|w.queue|..|w.queue| + 2] ==
      [DamageApplied(target, dr.finalDamage, dr.damageType, Some(attacker)), Message(DealtMessage(dr.finalDamage, crit))]
    ensures health.hp - dr.finalDamage <= 0 ==>
      w'.queue[|w.queue| + 2..] == [EntityDied(target, Some(attacker)), Message("Target defeated!")]
    ensures health.hp - dr.finalDamage > 0 ==> |w'.queue| == |w.queue| + 2
    ensures forall i :: |w.queue| <= i < |w'.queue| ==> AttackOutcome(w'.queue[i])
    ensures forall i :: |w.queue| <= i < |w'.queue| && w'.queue[i].DamageApplied? ==>
      w'.queue[i].targetEid == target && w'.queue[i].sourceEid == Some(attacker)
      && GetHealth(w', target).value.hp == health.hp - w'.queue[i].amount
    ensures forall i :: |w.queue| <= i < |w'.queue| && w'.queue[i].EntityDied? ==>
      w'.queue[i] == EntityDied(target, Some(attacker)) && GetHealth(w', target).value.isDead
      && GetHealth(w', target).value.hp <= 0
    ensures exists i :: |w.queue| <= i < |w'.queue| && w'.queue[i].DamageApplied?
  {
    var w' := PostAll(Wound(w, target, health, dr.finalDamage), BlowEvents(attacker, target, dr, crit, health.hp - dr.finalDamage <= 0));
    BlowFacts(w, attacker, target, health, dr, crit, w');
    w'
  }

  /** The facts of `LandBlow`, for the world it builds. */
  lemma BlowFacts(w: World, attacker: Eid, target: Eid, health: Health, dr: DamageResult, crit: bool, w': World)
    requires Wf(w) && GetHealth(w, target) == Some(health)
    requires w' == PostAll(Wound(w, target, health, dr.finalDamage), BlowEvents(attacker, target, dr, crit, health.hp - dr.finalDamage <= 0))
    ensures Wf(w')
    ensures HurtsOnly(w, w', {target}) && DeathsAnnounced(w, w')
    ensures GetHealth(w', target).value.hp == health.hp - dr.finalDamage
    ensures GetHealth(w', target).value.isDead <==> health.isDead || health.hp - dr.finalDamage <= 0
    ensures GetHealth(w', target).value.maxHp == health.maxHp
    ensures |w'.queue| >= |w.queue| + 2 && w'.queue[|w.queue|..|w.queue| + 2] ==
      [DamageApplied(target, dr.finalDamage, dr.damageType, Some(attacker)), Message(DealtMessage(dr.finalDamage, crit))]
    ensures health.hp - dr.finalDamage <= 0 ==>
      w'.queue[|w.queue| + 2..] == [EntityDied(target, Some(attacker)), Message("Target defeated!")]
    ensures health.hp - dr.finalDamage > 0 ==> |w'.queue| == |w.queue| + 2
    ensures forall i :: |w.queue| <= i < |w'.queue| ==> AttackOutcome(w'.queue[i])
    ensures forall i :: |w.queue| <= i < |w'.queue| && w'.queue[i].DamageApplied? ==>
      w'.queue[i].targetEid == target && w'.queue[i].sourceEid == Some(attacker)
      && GetHealth(w', target).value.hp == health.hp - w'.queue[i].amount
    ensures forall i :: |w.queue| <= i < |w'.queue| && w'.queue[i].EntityDied? ==>
      w'.queue[i] == EntityDied(target, Some(attacker)) && GetHealth(w', target).value.isDead
      && GetHealth(w', target).value.hp <= 0
    ensures exists i :: |w.queue| <= i < |w'.queue| && w'.queue[i].DamageApplied?
  {
    var w1 := Wound(w, target, health, dr.finalDamage);
    var evs := BlowEvents(attacker, target, dr, crit, health.hp - dr.finalDamage <= 0);
    assert health.hp - dr.finalDamage <= 0 ==> evs[2].EntityDied? && evs[2].eid == target;
    BlowStore(w, w1, w', target, health, dr.finalDamage, evs);
    BlowQueue(w.queue, w'.queue, evs, attacker, target, dr, crit, health.hp - dr.finalDamage <= 0);
  }

  /** What a hit posts, in order: the damage and its message, then the death and its message when `dies`. */
  function BlowEvents(attacker: Eid, target: Eid, dr: DamageResult, crit: bool, dies: bool): (evs: seq<Event>)
    ensures |evs| == (if dies then 4 else 2)
    ensures forall j :: 0 <= j < |evs| ==> AttackOutcome(evs[j])
    ensures forall j :: 0 <= j < |evs| && evs[j].DamageApplied? ==> j == 0
    ensures forall j :: 0 <= j < |evs| && evs[j].EntityDied? ==> dies && evs[j] == EntityDied(target, Some(attacker))
    ensures dies ==> evs[2] == EntityDied(target, Some(attacker))
  {
    [DamageApplied(target, dr.finalDamage, dr.damageType, Some(attacker)), Message(DealtMessage(dr.finalDamage, crit))]
      + (if dies then [EntityDied(target, Some(attacker)), Message("Target defeated!")] else [])
  }

  /** The store after a hit: only the target's Health differs, and a death it causes is announced. */
  lemma BlowStore(w: World, w1: World, w': World, target: Eid, health: Health, amount: int, evs: seq<Event>)
    requires Wf(w) && GetHealth(w, target) == Some(health)
    requires w1 == Wound(w, target, health, amount) && w' == PostAll(w1, evs)
    requires health.hp - amount <= 0 ==> exists j :: 0 <= j < |evs| && evs[j].EntityDied? && evs[j].eid == target
    ensures Wf(w') && HurtsOnly(w, w', {target}) && DeathsAnnounced(w, w')
    ensures GetHealth(w', target).Some? && GetHealth(w', target).value.hp == health.hp - amount
    ensures GetHealth(w', target).value.isDead <==> health.isDead || health.hp - amount <= 0
    ensures GetHealth(w', target).value.maxHp == health.maxHp
  {
    PostedKeeps(w, w1, w', target);
    forall e | Living(w, e) && !Living(w', e)
      ensures exists i :: |w.queue| <= i < |w'.queue| && w'.queue[i].EntityDied? && w'.queue[i].eid == e
    {
      var j :| 0 <= j < |evs| && evs[j].EntityDied? && evs[j].eid == target;
      assert w'.queue[|w.queue| + j] == evs[j];
    }
  }

  /** Where the events of a hit land in the queue. */
  lemma BlowQueue(q: seq<Event>, q': seq<Event>, evs: seq<Event>, attacker: Eid, target: Eid, dr: DamageResult, crit: bool, dies: bool)
    requires evs == BlowEvents(attacker, target, dr, crit, dies) && q' == q + evs
    ensures |q'| >= |q| + 2 && q'[|q|..|q| + 2] ==
      [DamageApplied(target, dr.finalDamage, dr.damageType, Some(attacker)), Message(DealtMessage(dr.finalDamage, crit))]
    ensures dies ==> q'[|q| + 2..] == [EntityDied(target, Some(attacker)), Message("Target defeated!")]
    ensures !dies ==> |q'| == |q| + 2
    ensures forall i :: |q| <= i < |q'| ==> AttackOutcome(q'[i])
    ensures forall i :: |q| <= i < |q'| && q'[i].DamageApplied? ==>
      q'[i].targetEid == target && q'[i].sourceEid == Some(attacker) && q'[i].amount == dr.finalDamage
    ensures forall i :: |q| <= i < |q'| && q'[i].EntityDied? ==> dies && q'[i] == EntityDied(target, Some(attacker))
    ensures q'[|q|].DamageApplied?
  {
    assert forall i :: |q| <= i < |q'| ==> q'[i] == evs[i - |q|];
  }

  /** The Health update of a hit: `hp` drops by `amount`, and `is_dead` is set at zero or below. */
  function Wound(w: World, target: Eid, health: Health, amount: int): (w': World)
    requires Wf(w) && GetHealth(w, target) == Some(health)
    ensures Wf(w') && w'.queue == w.queue
    ensures HurtsOnly(w, w', {target})
    ensures GetHealth(w', target).Some? && GetHealth(w', target).value.hp == health.hp - amount
    ensures GetHealth(w', target).value.maxHp == health.maxHp
    ensures GetHealth(w', target).value.isDead <==> health.isDead || health.hp - amount <= 0
    ensures forall e :: Living(w', e) ==> Living(w, e)
    ensures forall e :: Living(w, e) && !Living(w', e) ==> e == target && health.hp - amount <= 0
  {
    var hp := health.hp - amount;
    Add(w, target, CHealth(health.(hp := hp, isDead := if hp <= 0 then true else health.isDead)))
  }

  /** Posting events after a wound keeps the store as the wound left it. */
  lemma PostedKeeps(w: World, w1: World, w2: World, target: Eid)
    requires Wf(w) && Wf(w1) && HurtsOnly(w, w1, {target}) && w1.queue == w.queue
    requires w2.nextId == w1.nextId && w2.live == w1.live && w2.tables == w1.tables
    requires |w2.queue| >= |w1.queue| && w2.queue[..|w1.queue|] == w1.queue
    ensures Wf(w2) && HurtsOnly(w, w2, {target})
    ensures forall e :: GetHealth(w2, e) == GetHealth(w1, e)
  {
  }

  /** Changing nothing but Health keeps every weapon and armor evaluable. */
  lemma ArmsKept(w: World, w': World)
    requires Wf(w) && Wf(w') && ArmsEvaluable(w)
    requires Table(w', WeaponKind) == Table(w, WeaponKind) && Table(w', ArmorKind) == Table(w, ArmorKind)
    ensures ArmsEvaluable(w')
  {
    assert forall e :: GetWeapon(w', e) == GetWeapon(w, e) && GetArmor(w', e) == GetArmor(w, e);
  }

  /** The part of `_handle_attack` after the three components were found: roll to hit, then damage. */
  function Strike(w: World, r: Rng, attacker: Eid, target: Eid, ast: Stats, th: Health, tst: Stats): (res: (World, Rng))
    requires Wf(w) && ArmsEvaluable(w)
    requires GetStats(w, attacker) == Some(ast) && GetHealth(w, target) == Some(th) && GetStats(w, target) == Some(tst)
    ensures Wf(res.0)
    ensures HurtsOnly(w, res.0, {target}) && DeathsAnnounced(w, res.0)
    ensures forall i :: |w.queue| <= i < |res.0.queue| ==> AttackOutcome(res.0.queue[i])
    ensures forall i :: |w.queue| <= i < |res.0.queue| && res.0.queue[i].DamageApplied? ==>
      res.0.queue[i].targetEid == target && res.0.queue[i].sourceEid == Some(attacker)
      && GetHealth(res.0, target).value.hp == th.hp - res.0.queue[i].amount
    ensures (forall i :: |w.queue| <= i < |res.0.queue| ==> !res.0.queue[i].DamageApplied?) ==> res.0.tables == w.tables
    ensures forall i :: |w.queue| <= i < |res.0.queue| && res.0.queue[i].EntityDied? ==>
      res.0.queue[i] == EntityDied(target, Some(attacker)) && GetHealth(res.0, target).value.isDead
      && GetHealth(res.0, target).value.hp <= 0
    ensures th.isDead ==> GetHealth(res.0, target).value.isDead
    ensures var roll := ToHit(ast, tst, None, r);
      && (!roll.0.hit ==> res.0 == Post(w, Message("Miss!")) && res.1 == roll.1)
      && (roll.0.hit ==>
            var dr := ApplyMeleeRanged(ast, GetWeapon(w, attacker).GetOr(UnarmedWeapon()), GetArmor(w, target), roll.0.crit, roll.1);
            GetHealth(res.0, target).value.hp == GetHealth(w, target).value.hp - dr.0.finalDamage && res.1 == dr.1)
  {
    var weapon := GetWeapon(w, attacker).GetOr(UnarmedWeapon());
    var armor := GetArmor(w, target);
    var (ar, r1) := ToHit(ast, tst, None, r);
    if !ar.hit then
      var w' := Post(w, Message("Miss!"));
      MissFacts(w, w', attacker, target, th);
      (w', r1)
    else
      var (dr, r2) := ApplyMeleeRanged(ast, weapon, armor, ar.crit, r1);
      var w' := LandBlow(w, attacker, target, th, dr, ar.crit);
      HitFacts(w, w', attacker, target, th, dr, ar.crit);
      (w', r2)
  }

  /** The store facts of `Strike` for a miss. */
  lemma MissFacts(w: World, w': World, attacker: Eid, target: Eid, th: Health)
    requires Wf(w) && GetHealth(w, target) == Some(th)
    requires w' == Post(w, Message("Miss!"))
    ensures Wf(w')
    ensures HurtsOnly(w, w', {target}) && DeathsAnnounced(w, w')
    ensures forall i :: |w.queue| <= i < |w'.queue| ==> AttackOutcome(w'.queue[i])
    ensures forall i :: |w.queue| <= i < |w'.queue| && w'.queue[i].DamageApplied? ==>
      w'.queue[i].targetEid == target && w'.queue[i].sourceEid == Some(attacker)
      && GetHealth(w', target).value.hp == th.hp - w'.queue[i].amount
    ensures (forall i :: |w.queue| <= i < |w'.queue| ==> !w'.queue[i].DamageApplied?) ==> w'.tables == w.tables
    ensures forall i :: |w.queue| <= i < |w'.queue| && w'.queue[i].EntityDied? ==>
      w'.queue[i] == EntityDied(target, Some(attacker)) && GetHealth(w', target).value.isDead
      && GetHealth(w', target).value.hp <= 0
    ensures th.isDead ==> GetHealth(w', target).value.isDead
  {
    assert w'.queue[..|w.queue|] == w.queue;
  }

  /** The store facts of `Strike` for a landed blow. */
  lemma HitFacts(w: World, w': World, attacker: Eid, target: Eid, th: Health, dr: DamageResult, crit: bool)
    requires Wf(w) && GetHealth(w, target) == Some(th)
    requires w' == LandBlow(w, attacker, target, th, dr, crit)
    ensures Wf(w')
    ensures HurtsOnly(w, w', {target}) && DeathsAnnounced(w, w')
    ensures forall i :: |w.queue| <= i < |w'.queue| ==> AttackOutcome(w'.queue[i])
    ensures forall i :: |w.queue| <= i < |w'.queue| && w'.queue[i].DamageApplied? ==>
      w'.queue[i].targetEid == target && w'.queue[i].sourceEid == Some(attacker)
      && GetHealth(w', target).value.hp == th.hp - w'.queue[i].amount
    ensures (forall i :: |w.queue| <= i < |w'.queue| ==> !w'.queue[i].DamageApplied?) ==> w'.tables == w.tables
    ensures forall i :: |w.queue| <= i < |w'.queue| && w'.queue[i].EntityDied? ==>
      w'.queue[i] == EntityDied(target, Some(attacker)) && GetHealth(w', target).value.isDead
      && GetHealth(w', target).value.hp <= 0
    ensures th.isDead ==> GetHealth(w', target).value.isDead
  {
  }

  /** `_handle_attack`. */
  function HandleAttack(w: World, r: Rng, attacker: Eid, target: Eid): (res: (World, Rng))
    requires Wf(w) && ArmsEvaluable(w)
    ensures Wf(res.0) && ArmsEvaluable(res.0)
    ensures HurtsOnly(w, res.0, {target}) && DeathsAnnounced(w, res.0)
    ensures forall i :: |w.queue| <= i < |res.0.queue| ==> AttackOutcome(res.0.queue[i])
    ensures GetStats(w, attacker).None? || GetHealth(w, target).None? || GetStats(w, target).None? ==> res == (w, r)
    ensures forall i :: |w.queue| <= i < |res.0.queue| && res.0.queue[i].DamageApplied? ==>
      res.0.queue[i].targetEid == target && res.0.queue[i].sourceEid == Some(attacker)
      && GetHealth(res.0, target).value.hp == GetHealth(w, target).value.hp - res.0.queue[i].amount
    ensures (forall i :: |w.queue| <= i < |res.0.queue| ==> !res.0.queue[i].DamageApplied?) ==> res.0.tables == w.tables
    ensures forall i :: |w.queue| <= i < |res.0.queue| && res.0.queue[i].EntityDied? ==>
      res.0.queue[i] == EntityDied(target, Some(attacker)) && GetHealth(res.0, target).value.isDead
      && GetHealth(res.0, target).value.hp <= 0
    ensures GetHealth(w, target).Some? && GetHealth(w, target).value.isDead ==> GetHealth(res.0, target).value.isDead
  {
    var ast := GetStats(w, attacker);
    var th := GetHealth(w, target);
    var tst := GetStats(w, target);
    if ast.None? || th.None? || tst.None? then (w, r)
    else
      var res := Strike(w, r, attacker, target, ast.value, th.value, tst.value);
      ArmsKept(w, res.0);
      res
  }

  /** An entity already dead stays dead whoever hits it. */
  lemma NoResurrection(w: World, r: Rng, attacker: Eid, target: Eid, e: Eid)
    requires Wf(w) && ArmsEvaluable(w)
    requires GetHealth(w, e).Some? && GetHealth(w, e).value.isDead
    ensures GetHealth(HandleAttack(w, r, attacker, target).0, e).value.isDead
  {
    var res := HandleAttack(w, r, attacker, target);
    DeadStaysDead(w, res.0, target, e);
  }

  /** A step that only hurts `target`, and keeps it dead if it was, keeps every dead entity dead. */
  lemma DeadStaysDead(w: World, w': World, target: Eid, e: Eid)
    requires Wf(w) && Wf(w') && HurtsOnly(w, w', {target})
    requires GetHealth(w, target).Some? && GetHealth(w, target).value.isDead ==> GetHealth(w', target).value.isDead
    requires GetHealth(w, e).Some? && GetHealth(w, e).value.isDead
    ensures GetHealth(w', e).Some? && GetHealth(w', e).value.isDead
  {
    if e != target {
      assert e !in {target};
    }
  }

  /** The targets of the attack requests among `evs`. */
  ghost function Targets(evs: seq<Event>): set<Eid> {
    set i | 0 <= i < |evs| && evs[i].AttackRequested? :: evs[i].targetEid
  }

  lemma TargetsCons(evs: seq<Event>)
    requires |evs| > 0
    ensures Targets(evs) == (if evs[0].AttackRequested? then {evs[0].targetEid} else {}) + Targets(evs[1..])
  {
    forall e | e in Targets(evs[1..]) ensures e in Targets(evs) {
      var i :| 0 <= i < |evs[1..]| && evs[1..][i].AttackRequested? && evs[1..][i].targetEid == e;
      assert evs[i + 1] == evs[1..][i];
    }
    forall e | e in Targets(evs) ensures e in (if evs[0].AttackRequested? then {evs[0].targetEid} else {}) + Targets(evs[1..]) {
      var i :| 0 <= i < |evs| && evs[i].AttackRequested? && evs[i].targetEid == e;
      if i > 0 {
        assert evs[1..][i - 1] == evs[i];
      }
    }
  }

  lemma StepsCompose(w0: World, w1: World, w2: World, h1: set<Eid>, h2: set<Eid>)
    requires Wf(w0) && Wf(w1) && Wf(w2)
    requires HurtsOnly(w0, w1, h1) && HurtsOnly(w1, w2, h2)
    requires DeathsAnnounced(w0, w1) && DeathsAnnounced(w1, w2)
    requires forall i :: |w0.queue| <= i < |w1.queue| ==> AttackOutcome(w1.queue[i])
    requires forall i :: |w1.queue| <= i < |w2.queue| ==> AttackOutcome(w2.queue[i])
    ensures HurtsOnly(w0, w2, h1 + h2) && DeathsAnnounced(w0, w2)
    ensures forall i :: |w0.queue| <= i < |w2.queue| ==> AttackOutcome(w2.queue[i])
  {
    assert w2.queue[..|w0.queue|] == w2.queue[..|w1.queue|][..|w0.queue|];
    forall e | Living(w0, e) && !Living(w2, e)
      ensures exists i :: |w0.queue| <= i < |w2.queue| && w2.queue[i].EntityDied? && w2.queue[i].eid == e
    {
      if Living(w1, e) {
        var i :| |w1.queue| <= i < |w2.queue| && w2.queue[i].EntityDied? && w2.queue[i].eid == e;
      } else {
        var i :| |w0.queue| <= i < |w1.queue| && w1.queue[i].EntityDied? && w1.queue[i].eid == e;
        assert w2.queue[i] == w1.queue[i];
      }
    }
    forall i | |w0.queue| <= i < |w2.queue| ensures AttackOutcome(w2.queue[i]) {
      if i < |w1.queue| {
        assert w2.queue[i] == w1.queue[i];
      }
    }
  }

  /** The loop of `process`: attack requests are resolved in order; every other event is dropped. */
  function HandleAll(w: World, r: Rng, evs: seq<Event>): (res: (World, Rng))
    requires Wf(w) && ArmsEvaluable(w)
    ensures Wf(res.0) && ArmsEvaluable(res.0)
    ensures HurtsOnly(w, res.0, Targets(evs)) && DeathsAnnounced(w, res.0)
    ensures forall i :: |w.queue| <= i < |res.0.queue| ==> AttackOutcome(res.0.queue[i])
    decreases |evs|
  {
    if |evs| == 0 then (w, r)
    else
      var (w1, r1) := if evs[0].AttackRequested? then HandleAttack(w, r, evs[0].attackerEid, evs[0].targetEid) else (w, r);
      var (w2, r2) := HandleAll(w1, r1, evs[1..]);
      TargetsCons(evs);
      StepsCompose(w, w1, w2, if evs[0].AttackRequested? then {evs[0].targetEid} else {}, Targets(evs[1..]));
      (w2, r2)
  }

  /**
    `process`: drain the queue, resolve the attacks, and drop everything else.
    Only Health changes, only for attacked entities; nobody comes back to
    life; every death is announced; the queue holds only attack outcomes.
  */
  function Process(w: World, r: Rng): (res: (World, Rng))
    requires Wf(w) && ArmsEvaluable(w)
    ensures Wf(res.0) && ArmsEvaluable(res.0)
    ensures HurtsOnly(w.(queue := []), res.0, Targets(w.queue))
    ensures DeathsAnnounced(w.(queue := []), res.0)
    ensures forall ev :: ev in res.0.queue ==> AttackOutcome(ev)
  {
    var (w0, evs) := DrainEvents(w);
    ArmsKept(w, w0);
    HandleAll(w0, r, evs)
  }

  /** Without attack requests the drain only empties the queue. */
  lemma NoAttacksNoChange(w: World, r: Rng)
    requires Wf(w) && ArmsEvaluable(w)
    requires forall ev :: ev in w.queue ==> !ev.AttackRequested?
    ensures Process(w, r).0.tables == w.tables && Process(w, r).0.queue == []
  {
    assert forall i :: 0 <= i < |w.queue| ==> w.queue[i] in w.queue;
    ArmsKept(w, w.(queue := []));
    NoAttacksKeepTables(w.(queue := []), r, w.queue);
  }

  lemma {:induction false} NoAttacksKeepTables(w: World, r: Rng, evs: seq<Event>)
    requires Wf(w) && ArmsEvaluable(w)
    requires forall i :: 0 <= i < |evs| ==> !evs[i].AttackRequested?
    ensures HandleAll(w, r, evs) == (w, r)
    decreases |evs|
  {
    if |evs| > 0 {
      NoAttacksKeepTables(w, r, evs[1..]);
    }
  }
}

=== FILE: combat_state.dfy ===
/**
  Combat state and movement locking (gameplay/ecs/systems/combat_state_system.py).
  The system's two mutable fields become the `CombatState` value that every
  operation takes and returns.
*/
module CombatStateSystem {
  import opened Geometry
  import opened Components
  import opened Events
  import opened Ecs

  /** `combat_active` and `combat_participants`. */
  datatype CombatState = CombatState(active: bool, participants: set<Eid>)

  /** The state `__init__` sets up. */
  function NewCombatState(): (cs: CombatState)
    ensures Consistent(cs) && cs.participants == {}
  {
    CombatState(false, {})
  }

  /** Combat is active exactly when someone takes part in it. */
  ghost predicate Consistent(cs: CombatState) {
    cs.active <==> cs.participants != {}
  }

  /** `_handle_combat_start`: a new fight posts `CombatStarted`; a running one just grows. */
  function HandleCombatStart(cs: CombatState, attacker: Eid, target: Eid): (res: (CombatState, seq<Event>))
    ensures Consistent(res.0)
    ensures res.0.active && attacker in res.0.participants && target in res.0.participants
    ensures cs.active ==> res.0.participants == cs.participants + {attacker, target} && res.1 == []
    ensures !cs.active ==> res.0.participants == {attacker, target} && res.1 == [CombatStarted({attacker, target})]
  {
    if !cs.active then
      (CombatState(true, {attacker, target}), [CombatStarted({attacker, target})])
    else
      (cs.(participants := cs.participants + {attacker, target}), [])
  }

  /** A participant that still stands on the map: it has a Position and a Health that is not dead. */
  predicate Standing(w: World, e: Eid)
    requires Wf(w)
  {
    GetPosition(w, e).Some? && GetHealth(w, e).Some? && !GetHealth(w, e).value.isDead
  }

  /** Chebyshev distance between two stored positions (`max(dx, dy)`). */
  function Reach(a: Position, b: Position): nat {
    Chebyshev(Point(a.x, a.y), Point(b.x, b.y))
  }

  /** Two distinct standing participants are within one step of each other. */
  ghost predicate AdjacentStandingPair(w: World, participants: set<Eid>)
    requires Wf(w)
  {
    exists a, c :: a in participants && c in participants && a != c && Standing(w, a) && Standing(w, c)
      && Reach(GetPosition(w, a).value, GetPosition(w, c).value) <= 1
  }

  /**
    `_should_end_combat`: fewer than two participants, fewer than two of them
    standing, or no two standing participants within one step of each other.
    The two size tests are early exits: the answer is decided by the pair test alone.
  */
  function ShouldEndCombat(w: World, participants: set<Eid>): (b: bool)
    requires Wf(w)
    ensures b <==> !AdjacentStandingPair(w, participants)
  {
    if |participants| < 2 then
      assert !AdjacentStandingPair(w, participants) by {
        if AdjacentStandingPair(w, participants) {
          var a, c :| a in participants && c in participants && a != c && Standing(w, a) && Standing(w, c)
            && Reach(GetPosition(w, a).value, GetPosition(w, c).value) <= 1;
          assert |{a, c}| == 2;
          SubsetCard({a, c}, participants);
        }
      }
      true
    else
      var fighters := set e | e in participants && Standing(w, e);
      if |fighters| < 2 then
        assert !AdjacentStandingPair(w, participants) by {
          if AdjacentStandingPair(w, participants) {
            var a, c :| a in participants && c in participants && a != c && Standing(w, a) && Standing(w, c)
              && Reach(GetPosition(w, a).value, GetPosition(w, c).value) <= 1;
            assert {a, c} <= fighters;
            assert |{a, c}| == 2;
            SubsetCard({a, c}, fighters);
          }
        }
        true
      else !exists a, c | a in fighters && c in fighters && a != c ::
        Reach(GetPosition(w, a).value, GetPosition(w, c).value) <= 1
  }

  /** Two standing participants next to each other keep the fight going. */
  lemma AdjacentFightersKeepCombat(w: World, participants: set<Eid>, a: Eid, c: Eid)
    requires Wf(w)
    requires a in participants && c in participants && a != c
    requires Standing(w, a) && Standing(w, c)
    requires Reach(GetPosition(w, a).value, GetPosition(w, c).value) <= 1
    ensures !ShouldEndCombat(w, participants)
  {
    var fighters := set e | e in participants && Standing(w, e);
    assert {a, c} <= fighters;
    assert |{a, c}| == 2;
    SubsetCard({a, c}, fighters);
    assert |participants| >= 2 by { SubsetCard({a, c}, participants); }
  }

  /** With no two standing participants within one step, the fight ends. */
  lemma ScatteredFightersEndCombat(w: World, participants: set<Eid>)
    requires Wf(w)
    requires forall a, c :: a in participants && c in participants && a != c && Standing(w, a) && Standing(w, c) ==>
      Reach(GetPosition(w, a).value, GetPosition(w, c).value) > 1
    ensures ShouldEndCombat(w, participants)
  {
  }

  lemma SubsetCard(a: set<Eid>, b: set<Eid>)
    requires a <= b
    ensures |a| <= |b|
  {
    assert b == a + (b - a);
  }

  /** `_end_combat`: clear the state and report who was in the fight. */
  function EndCombat(cs: CombatState): (res: (CombatState, seq<Event>))
    ensures !res.0.active && res.0.participants == {} && Consistent(res.0)
    ensures res.1 == [CombatEnded(cs.participants)]
  {
    (CombatState(false, {}), [CombatEnded(cs.participants)])
  }

  /** `_handle_entity_death`: the dead leave the fight, which may then end. */
  function HandleEntityDeath(cs: CombatState, w: World, dead: Eid): (res: (CombatState, seq<Event>))
    requires Wf(w)
    ensures dead !in res.0.participants
    ensures res.0.participants <= cs.participants
    ensures dead !in cs.participants ==> res == (cs, [])
    ensures Consistent(cs) ==> Consistent(res.0)
    ensures dead in cs.participants && ShouldEndCombat(w, cs.participants - {dead}) ==>
      !res.0.active && res.0.participants == {} && res.1 == [CombatEnded(cs.participants - {dead})]
    ensures dead in cs.participants && !ShouldEndCombat(w, cs.participants - {dead}) ==>
      res.0.active == cs.active && res.0.participants == cs.participants - {dead} && res.1 == []
  {
    if dead in cs.participants then
      var remaining := cs.(participants := cs.participants - {dead});
      if ShouldEndCombat(w, remaining.participants) then EndCombat(remaining)
      else
        assert |remaining.participants| >= 2;
        (remaining, [])
    else (cs, [])
  }

  /** The dispatch of one drained event. */
  function HandleEvent(cs: CombatState, w: World, ev: Event): (res: (CombatState, seq<Event>))
    requires Wf(w)
  {
    match ev
    case AttackRequested(a, t) => HandleCombatStart(cs, a, t)
    case EntityDied(e, _) => HandleEntityDeath(cs, w, e)
    case _ => (cs, [])
  }

  /** `e` is the attacker or target of some `AttackRequested` in `evs`. */
  ghost predicate Attacked(evs: seq<Event>, e: Eid) {
    exists i :: 0 <= i < |evs| && evs[i].AttackRequested? && (evs[i].attackerEid == e || evs[i].targetEid == e)
  }

  /** The events posted by the handlers: combat announcements only. */
  ghost predicate Announcements(posts: seq<Event>) {
    forall i :: 0 <= i < |posts| ==> posts[i].CombatStarted? || posts[i].CombatEnded?
  }

  /** The first loop of `process`: the handlers in queue order, collecting what they post. */
  function HandleEvents(cs: CombatState, w: World, evs: seq<Event>): (res: (CombatState, seq<Event>))
    requires Wf(w)
    ensures Consistent(cs) ==> Consistent(res.0)
    ensures Announcements(res.1)
    ensures forall e :: e in res.0.participants ==> e in cs.participants || Attacked(evs, e)
    ensures !cs.active && (exists i :: 0 <= i < |evs| && evs[i].AttackRequested?) ==>
      exists i :: 0 <= i < |res.1| && res.1[i].CombatStarted?
    decreases |evs|
  {
    if |evs| == 0 then (cs, [])
    else
      var (cs1, p1) := HandleEvent(cs, w, evs[0]);
      var (cs2, p2) := HandleEvents(cs1, w, evs[1..]);
      HandleEventsStep(cs, w, evs, cs1, p1, cs2, p2);
      (cs2, p1 + p2)
  }

  /** One handler, then the rest: the loop's facts extend to `evs`. */
  lemma HandleEventsStep(cs: CombatState, w: World, evs: seq<Event>, cs1: CombatState, p1: seq<Event>, cs2: CombatState, p2: seq<Event>)
    requires Wf(w) && |evs| > 0 && (cs1, p1) == HandleEvent(cs, w, evs[0])
    requires Consistent(cs1) ==> Consistent(cs2)
    requires Announcements(p2)
    requires forall e :: e in cs2.participants ==> e in cs1.participants || Attacked(evs[1..], e)
    requires !cs1.active && (exists i :: 0 <= i < |evs[1..]| && evs[1..][i].AttackRequested?) ==>
      exists i :: 0 <= i < |p2| && p2[i].CombatStarted?
    ensures Consistent(cs) ==> Consistent(cs2)
    ensures Announcements(p1 + p2)
    ensures forall e :: e in cs2.participants ==> e in cs.participants || Attacked(evs, e)
    ensures !cs.active && (exists i :: 0 <= i < |evs| && evs[i].AttackRequested?) ==>
      exists i :: 0 <= i < |p1 + p2| && (p1 + p2)[i].CombatStarted?
  {
    assert forall i :: 1 <= i < |evs| ==> evs[i] == evs[1..][i - 1];
    assert forall e :: Attacked(evs[1..], e) ==> Attacked(evs, e) by {
      forall e | Attacked(evs[1..], e) ensures Attacked(evs, e) {
        var i :| 0 <= i < |evs[1..]| && evs[1..][i].AttackRequested? && (evs[1..][i].attackerEid == e || evs[1..][i].targetEid == e);
        assert evs[i + 1] == evs[1..][i];
      }
    }
    var posts := p1 + p2;
    assert forall i :: 0 <= i < |p1| ==> posts[i] == p1[i];
    assert forall i :: 0 <= i < |p2| ==> posts[|p1| + i] == p2[i];
    assert !cs.active && (exists i :: 0 <= i < |evs| && evs[i].AttackRequested?) ==>
      exists i :: 0 <= i < |posts| && posts[i].CombatStarted? by {
      if !cs.active && (exists i :: 0 <= i < |evs| && evs[i].AttackRequested?) {
        if evs[0].AttackRequested? {
          assert posts[0] == CombatStarted({evs[0].attackerEid, evs[0].targetEid});
        } else {
          var i :| 0 <= i < |evs| && evs[i].AttackRequested?;
          assert evs[1..][i - 1].AttackRequested?;
          assert !cs1.active by {
            if evs[0].EntityDied? {
              assert cs1.participants <= cs.participants;
            }
          }
        }
      }
    }
  }

  /**
    `process`: handle every drained event, then put all of them back behind
    whatever the handlers posted. Only the queue changes in the world.
  */
  function Process(cs: CombatState, w: World): (res: (CombatState, World))
    requires Wf(w)
    ensures Wf(res.1)
    ensures res.1.nextId == w.nextId && res.1.live == w.live && res.1.tables == w.tables
    ensures |res.1.queue| >= |w.queue|
    ensures res.1.queue[|res.1.queue| - |w.queue|..] == w.queue
    ensures Announcements(res.1.queue[..|res.1.queue| - |w.queue|])
    ensures Consistent(cs) ==> Consistent(res.0)
    ensures forall e :: e in res.0.participants ==> e in cs.participants || Attacked(w.queue, e)
  {
    var (w1, evs) := DrainEvents(w);
    var (cs', posts) := HandleEvents(cs, w1, evs);
    var w' := PostAll(PostAll(w1, posts), evs);
    assert w'.queue == posts + evs;
    assert w'.queue[..|posts|] == posts;
    (cs', w')
  }

  /** `is_in_combat`. */
  predicate IsInCombat(cs: CombatState, e: Eid) {
    e in cs.participants
  }

  /** `can_move_freely`: outside combat any move is allowed, inside it only a step to one of the eight neighbours (or staying put). */
  function CanMoveFreely(cs: CombatState, e: Eid, from: Point, to: Point): (b: bool)
    ensures !IsInCombat(cs, e) ==> b
    ensures b <==> !IsInCombat(cs, e) || Chebyshev(from, to) <= 1
  {
    if !IsInCombat(cs, e) then true
    else Chebyshev(from, to) <= 1
  }

  /** Once combat has ended nobody is locked. */
  lemma EndedCombatLocksNobody(cs: CombatState, e: Eid, from: Point, to: Point)
    requires Consistent(cs) && !cs.active
    ensures CanMoveFreely(cs, e, from, to)
  {
  }
}

=== FILE: components.dfy ===
/**
  The component dataclasses (gameplay/ecs/components.py) as plain records
  with the dataclasses' defaults, and the closed set `Component` of them that
  the entity store holds.
*/
module Components {
  import opened Geometry
  import opened Dice

  /** Entity identifiers are Python integers. */
  type Eid = int

  /** Values of the untyped `Any` fields (AI memory, status effects, ...). */
  datatype Datum = DInt(i: int) | DReal(r: real) | DStr(s: string) | DBool(b: bool)

  datatype Position = Position(x: int, y: int, z: int := 0) {
    /** The `(x, y)` pair the systems compare and post. */
    function Xy(): Point {
      Point(x, y)
    }
  }
  datatype Vision = Vision(radius: int)
  /** `passable = false` is what makes an entity block movement. */
  datatype Blocker = Blocker(passable: bool)
  datatype Health = Health(hp: int, maxHp: int, isDead: bool := false)
  datatype Stats = Stats(
    strength: int, agility: int, intellect: int,
    accuracy: int, evasion: int, critChance: real, critMult: real)
  datatype Armor = Armor(soakDice: DiceExpr, resist: map<string, real> := map[], spellResist: map<string, real> := map[])
  datatype Weapon = Weapon(damageDice: DiceExpr, damageType: string, reach: int := 1, tags: seq<string> := [])
  datatype Inventory = Inventory(capacity: int, items: seq<Eid> := [])
  datatype Equipment = Equipment(slots: map<string, Eid> := map[])
  datatype Spellbook = Spellbook(spells: seq<string> := [], mp: int := 50, maxMp: int := 50)
  datatype Status = Status(effects: seq<map<string, Datum>> := [])
  datatype AI = AI(behavior: string, memory: map<string, Datum> := map[])
  datatype Interactable = Interactable(kind: string, data: map<string, Datum> := map[])
  datatype Descriptor = Descriptor(name: string, glyph: string, color: string)
  /** The FOV cache: what is visible now and what has ever been seen. */
  datatype Visible = Visible(visibleTiles: set<Point> := {}, seenTiles: set<Point> := {})

  /** One value of any component class; the constructor names are the class names. */
  datatype Component =
    | CPosition(position: Position)
    | CVision(vision: Vision)
    | CBlocker(blocker: Blocker)
    | CHealth(health: Health)
    | CStats(stats: Stats)
    | CArmor(armor: Armor)
    | CWeapon(weapon: Weapon)
    | CInventory(inventory: Inventory)
    | CEquipment(equipment: Equipment)
    | CSpellbook(spellbook: Spellbook)
    | CStatus(status: Status)
    | CAI(ai: AI)
    | CInteractable(interactable: Interactable)
    | CDescriptor(descriptor: Descriptor)
    | CVisible(visible: Visible)

  /** The component classes themselves: the keys of the store. */
  datatype Kind =
    | PositionKind | VisionKind | BlockerKind | HealthKind | StatsKind
    | ArmorKind | WeaponKind | InventoryKind | EquipmentKind | SpellbookKind
    | StatusKind | AIKind | InteractableKind | DescriptorKind | VisibleKind

  /** `type(component_obj)`. */
  function KindOf(c: Component): Kind {
    match c
    case CPosition(_) => PositionKind
    case CVision(_) => VisionKind
    case CBlocker(_) => BlockerKind
    case CHealth(_) => HealthKind
    case CStats(_) => StatsKind
    case CArmor(_) => ArmorKind
    case CWeapon(_) => WeaponKind
    case CInventory(_) => InventoryKind
    case CEquipment(_) => EquipmentKind
    case CSpellbook(_) => SpellbookKind
    case CStatus(_) => StatusKind
    case CAI(_) => AIKind
    case CInteractable(_) => InteractableKind
    case CDescriptor(_) => DescriptorKind
    case CVisible(_) => VisibleKind
  }

  /** The class name of each kind, as the content catalog spells it. */
  function KindName(k: Kind): string {
    match k
    case PositionKind => "CPosition"
    case VisionKind => "CVision"
    case BlockerKind => "CBlocker"
    case HealthKind => "CHealth"
    case StatsKind => "CStats"
    case ArmorKind => "CArmor"
    case WeaponKind => "CWeapon"
    case InventoryKind => "CInventory"
    case EquipmentKind => "CEquipment"
    case SpellbookKind => "CSpellbook"
    case StatusKind => "CStatus"
    case AIKind => "CAI"
    case InteractableKind => "CInteractable"
    case DescriptorKind => "CDescriptor"
    case VisibleKind => "CVisible"
  }

  /** The dataclass defaults of the components that have them. */
  lemma ComponentDefaults(x: int, y: int, hp: int, maxHp: int, d: DiceExpr, t: string, cap: int)
    ensures Position(x, y).z == 0
    ensures !Health(hp, maxHp).isDead
    ensures Weapon(d, t).reach == 1 && Weapon(d, t).tags == []
    ensures Spellbook().mp == 50 && Spellbook().maxMp == 50 && Spellbook().spells == []
    ensures Inventory(cap).items == []
    ensures Armor(d).resist == map[] && Armor(d).spellResist == map[]
    ensures Visible().visibleTiles == {} && Visible().seenTiles == {}
  {
  }
}

=== FILE: damage.dfy ===
/**
  The weapon and spell damage resolvers (gameplay/rules/damage.py). Resist
  multipliers are exact reals; `int()` truncates toward zero.
*/
module Damage {
  import opened Wrappers
  import opened Random
  import opened Dice
  import opened Components

  datatype DamageResult = DamageResult(
    finalDamage: int,
    originalDamage: int,
    soakAmount: int,
    resistMult: real,
    damageType: string)

  /** A spell definition: `damage_dice` and `damage_type` may be absent. */
  datatype SpellData = SpellData(damageDice: Option<DiceExpr>, damageType: Option<string>)

  /** `"1d4"`, the damage of a spell that names none. */
  function DefaultSpellDice(): DiceExpr {
    DiceExpr(Some(DiceTerm(1, 4)), [], [])
  }

  /** Python's `int(v)` on a float: truncation toward zero. */
  function Trunc(v: real): (n: int)
    ensures v >= 0.0 ==> n as real <= v < n as real + 1.0
    ensures v < 0.0 ==> n as real - 1.0 < v <= n as real
  {
    if v >= 0.0 then v.Floor else -((-v).Floor)
  }

  lemma TruncMonotone(a: real, b: real)
    requires 0.0 <= a <= b
    ensures Trunc(a) <= Trunc(b)
  {
  }

  /** `{'STR': strength, 'AGI': agility, 'INT': intellect}`. */
  function AttrsOf(s: Stats): map<Attr, int> {
    map[STR := s.strength, AGI := s.agility, INT := s.intellect]
  }

  function Max0(n: int): nat {
    if n < 0 then 0 else n
  }

  lemma ScaleBounds(a: real, m: real)
    requires a >= 0.0
    ensures m >= 0.0 ==> a * m >= 0.0
    ensures 0.0 <= m <= 1.0 ==> a * m <= a
  {
    if 0.0 <= m <= 1.0 {
      assert a * m <= a * 1.0;
    }
  }

  /** The clamped damage before resistance, times the multiplier, truncated. */
  function AfterResist(base: int, soak: int, mult: real): (d: int)
    ensures soak >= base ==> d == 0
    ensures mult >= 0.0 ==> d >= 0
    ensures 0.0 <= mult <= 1.0 ==> d <= Max0(base - soak)
  {
    var afterSoak := Max0(base - soak);
    ScaleBounds(afterSoak as real, mult);
    Trunc(afterSoak as real * mult)
  }

  /**
    The dice `apply_melee_ranged` rolls are ones the roller evaluates without
    raising: the weapon's always, the armor's soak only for Physical damage.
  */
  ghost predicate WeaponInputsOk(weapon: Weapon, armor: Option<Armor>) {
    Evaluable(weapon.damageDice) && (armor.Some? && weapon.damageType == "Physical" ==> Evaluable(armor.value.soakDice))
  }

  /** `if armor.soak_dice: roll(armor.soak_dice)`; a blank expression soaks nothing and draws nothing. */
  function SoakRoll(armor: Armor, r: Rng): (res: (int, Rng))
    requires Evaluable(armor.soakDice)
    ensures res.0 == Roll(r, armor.soakDice, None).0.total && res.1 == Roll(r, armor.soakDice, None).1
  {
    if !IsBlank(armor.soakDice) then
      var (soakRoll, r') := Roll(r, armor.soakDice, None);
      (soakRoll.total, r')
    else
      BlankRollsZero(r, armor.soakDice, None);
      (0, r)
  }

  /**
    `apply_melee_ranged`: roll the weapon's dice with the attacker's attributes;
    a crit doubles the dice but not the modifiers; Physical damage against
    armor also rolls the armor's soak dice and uses the Physical resist; other
    damage against armor uses that type's resist; no armor means no soak and a
    multiplier of 1.
  */
  function ApplyMeleeRanged(attacker: Stats, weapon: Weapon, armor: Option<Armor>, isCrit: bool, r: Rng): (res: (DamageResult, Rng))
    requires WeaponInputsOk(weapon, armor)
    ensures var (roll, r1) := Roll(r, weapon.damageDice, Some(AttrsOf(attacker)));
      && res.0.originalDamage == (if isCrit then 2 * roll.breakdown.diceTotal + roll.breakdown.modTotal else roll.total)
      && res.0.damageType == weapon.damageType
      && res.0.finalDamage == AfterResist(res.0.originalDamage, res.0.soakAmount, res.0.resistMult)
      && res.0.soakAmount >= 0
      && (armor.None? ==> res.0.soakAmount == 0 && res.0.resistMult == 1.0 && res.1 == r1)
      && (armor.Some? && weapon.damageType == "Physical" ==>
            res.0.resistMult == 1.0 - MapGet(armor.value.resist, "Physical", 0.0)
            && res.0.soakAmount == Roll(r1, armor.value.soakDice, None).0.total
            && res.1 == Roll(r1, armor.value.soakDice, None).1)
      && (armor.Some? && weapon.damageType != "Physical" ==>
            res.0.soakAmount == 0
            && res.0.resistMult == 1.0 - MapGet(armor.value.resist, weapon.damageType, 0.0)
            && res.1 == r1)
  {
    var (roll, r1) := Roll(r, weapon.damageDice, Some(AttrsOf(attacker)));
    var finalBase := if isCrit then 2 * roll.breakdown.diceTotal + roll.breakdown.modTotal else roll.total;
    var (soak, mult, r2) :=
      if armor.Some? && weapon.damageType == "Physical" then
        var (s, r2) := SoakRoll(armor.value, r1);
        (s, 1.0 - MapGet(armor.value.resist, "Physical", 0.0), r2)
      else if armor.Some? then
        (0, 1.0 - MapGet(armor.value.resist, weapon.damageType, 0.0), r1)
      else
        (0, 1.0, r1);
    (DamageResult(AfterResist(finalBase, soak, mult), finalBase, soak, mult, weapon.damageType), r2)
  }

  /** Without armor, the final damage is the (possibly crit-adjusted) damage clamped at zero. */
  lemma UnarmoredTakesFullDamage(attacker: Stats, weapon: Weapon, isCrit: bool, r: Rng)
    requires WeaponInputsOk(weapon, None)
    ensures var d := ApplyMeleeRanged(attacker, weapon, None, isCrit, r).0;
      d.finalDamage == Max0(d.originalDamage)
  {
    var d := ApplyMeleeRanged(attacker, weapon, None, isCrit, r).0;
    assert Max0(d.originalDamage) as real * 1.0 == Max0(d.originalDamage) as real;
  }

  lemma AfterResistMonotone(b1: int, b2: int, soak: int, mult: real)
    requires Max0(b1 - soak) <= Max0(b2 - soak) && mult >= 0.0
    ensures AfterResist(b1, soak, mult) <= AfterResist(b2, soak, mult)
  {
    var a1 := Max0(b1 - soak) as real;
    var a2 := Max0(b2 - soak) as real;
    assert a1 * mult <= a2 * mult;
    TruncMonotone(a1 * mult, a2 * mult);
  }

  /**
    With the same draws and a non-negative multiplier, a critical hit never
    deals less than the same attack without the crit.
  */
  lemma CritNeverWeaker(attacker: Stats, weapon: Weapon, armor: Option<Armor>, r: Rng)
    requires WeaponInputsOk(weapon, armor)
    requires armor.Some? ==> MapGet(armor.value.resist, weapon.damageType, 0.0) <= 1.0
    ensures ApplyMeleeRanged(attacker, weapon, armor, false, r).0.finalDamage
         <= ApplyMeleeRanged(attacker, weapon, armor, true, r).0.finalDamage
  {
    var (roll, r1) := Roll(r, weapon.damageDice, Some(AttrsOf(attacker)));
    var plain := ApplyMeleeRanged(attacker, weapon, armor, false, r).0;
    var crit := ApplyMeleeRanged(attacker, weapon, armor, true, r).0;
    var rolls := roll.breakdown.diceRolls;
    assert forall i :: 0 <= i < |rolls| ==> rolls[i] >= 0 by {
      if weapon.damageDice.dice.Some? {
        assert forall i :: 0 <= i < |rolls| ==> 1 <= rolls[i];
      }
    }
    SumNonNegative(rolls);
    assert roll.breakdown.diceTotal >= 0;
    assert plain.originalDamage == roll.total;
    assert crit.originalDamage == 2 * roll.breakdown.diceTotal + roll.breakdown.modTotal;
    assert plain.soakAmount == crit.soakAmount && plain.soakAmount >= 0;
    assert plain.resistMult == crit.resistMult && plain.resistMult >= 0.0;
    AfterResistMonotone(plain.originalDamage, crit.originalDamage, plain.soakAmount, plain.resistMult);
  }

  lemma {:induction false} SumNonNegative(s: seq<int>)
    requires forall i :: 0 <= i < |s| ==> s[i] >= 0
    ensures Sum(s) >= 0
  {
    if |s| > 0 {
      SumNonNegative(s[..|s| - 1]);
    }
  }

  /** A crit with dice 4 and modifiers 3 deals 2*4 + 3 = 11, not (4 + 3) * 2. */
  lemma CritDoublesDiceOnly(attacker: Stats, weapon: Weapon, r: Rng)
    requires WeaponInputsOk(weapon, None)
    requires Roll(r, weapon.damageDice, Some(AttrsOf(attacker))).0.breakdown.diceTotal == 4
    requires Roll(r, weapon.damageDice, Some(AttrsOf(attacker))).0.breakdown.modTotal == 3
    ensures ApplyMeleeRanged(attacker, weapon, None, true, r).0.originalDamage == 11
  {
  }

  /**
    `apply_spell`: the spell's dice (default `1d4`) with the caster's
    attributes, never soaked; the multiplier uses the armor's spell resist for
    the type when present, else its general resist, else 0.
  */
  function ApplySpell(spell: SpellData, caster: Stats, armor: Option<Armor>, r: Rng): (res: (DamageResult, Rng))
    requires Evaluable(spell.damageDice.GetOr(DefaultSpellDice()))
    ensures var dtype := spell.damageType.GetOr("Arcane");
      var (roll, r1) := Roll(r, spell.damageDice.GetOr(DefaultSpellDice()), Some(AttrsOf(caster)));
      && res.0.damageType == dtype
      && res.0.soakAmount == 0
      && res.0.originalDamage == roll.total
      && res.1 == r1
      && (armor.None? ==> res.0.resistMult == 1.0)
      && (armor.Some? && dtype in armor.value.spellResist ==> res.0.resistMult == 1.0 - armor.value.spellResist[dtype])
      && (armor.Some? && dtype !in armor.value.spellResist ==> res.0.resistMult == 1.0 - MapGet(armor.value.resist, dtype, 0.0))
      && res.0.finalDamage == SpellDamage(roll.total, res.0.resistMult)
  {
    var dice := spell.damageDice.GetOr(DefaultSpellDice());
    var dtype := spell.damageType.GetOr("Arcane");
    var (roll, r1) := Roll(r, dice, Some(AttrsOf(caster)));
    var mult :=
      if armor.None? then 1.0
      else if dtype in armor.value.spellResist then 1.0 - armor.value.spellResist[dtype]
      else 1.0 - MapGet(armor.value.resist, dtype, 0.0);
    (DamageResult(SpellDamage(roll.total, mult), roll.total, 0, mult, dtype), r1)
  }

  /** `int(base_damage * multiplier)`: spells are never soaked and not clamped before the multiplier. */
  function SpellDamage(base: int, mult: real): (d: int)
    ensures base >= 0 && mult >= 0.0 ==> d >= 0
    ensures base >= 0 && 0.0 <= mult <= 1.0 ==> d <= base
    ensures mult == 1.0 ==> d == base
  {
    var scaled := base as real * mult;
    assert base >= 0 ==> (mult >= 0.0 ==> scaled >= 0.0) && (0.0 <= mult <= 1.0 ==> scaled <= base as real) by {
      if base >= 0 {
        ScaleBounds(base as real, mult);
      }
    }
    Trunc(scaled)
  }
}

=== FILE: dice.dfy ===
/**
  The dice-expression evaluator (gameplay/rules/dice.py).

  `roll` scans the expression text with three regular expressions: the
  first `NdM` term, every signed integer constant (`[+-]\d+`), and every
  signed attribute reference (`[+-](STR|AGI|INT)(/\d+)?`). A `DiceExpr` is
  the result of that scan; the scan itself is not modelled.
*/
module Dice {
  import opened Wrappers
  import opened Random

  datatype Attr = STR | AGI | INT

  datatype Sign = Plus | Minus

  /** `NdM`: `count` dice with `sides` faces each. */
  datatype DiceTerm = DiceTerm(count: nat, sides: nat)

  /** `+STR`, `-AGI`, `+INT/2`, ... */
  datatype AttrRef = AttrRef(sign: Sign, attr: Attr, divisor: Option<nat>)

  datatype DiceExpr = DiceExpr(dice: Option<DiceTerm>, consts: seq<int>, attrRefs: seq<AttrRef>)

  /** The `breakdown` dictionary of `DiceRoller.roll`. */
  datatype Breakdown = Breakdown(diceTotal: int, modTotal: int, diceRolls: seq<int>)

  datatype RollResult = RollResult(total: int, breakdown: Breakdown)

  /** An expression with no term at all: what the empty string scans to. */
  predicate IsBlank(e: DiceExpr) {
    e.dice.None? && |e.consts| == 0 && |e.attrRefs| == 0
  }

  /**
    The expressions `roll` evaluates without raising: `randint(1, 0)`
    raises when dice are rolled with zero sides, and `// 0` raises.
  */
  ghost predicate Evaluable(e: DiceExpr) {
    && (e.dice.Some? && e.dice.value.count >= 1 ==> e.dice.value.sides >= 1)
    && forall i :: 0 <= i < |e.attrRefs| ==> e.attrRefs[i].divisor != Some(0)
  }

  function Sum(s: seq<int>): int {
    if |s| == 0 then 0 else Sum(s[..|s| - 1]) + s[|s| - 1]
  }

  lemma {:induction false} SumBounds(s: seq<int>, lo: int, hi: int)
    requires forall i :: 0 <= i < |s| ==> lo <= s[i] <= hi
    ensures |s| * lo <= Sum(s) <= |s| * hi
  {
    if |s| > 0 {
      SumBounds(s[..|s| - 1], lo, hi);
    }
  }

  /** `[rng.randint(1, sides) for _ in range(count)]`. */
  function RollDice(r: Rng, count: nat, sides: nat): (res: (seq<int>, Rng))
    requires count >= 1 ==> sides >= 1
    ensures |res.0| == count
    ensures forall i :: 0 <= i < count ==> 1 <= res.0[i] <= sides
    ensures Advanced(r, res.1, count)
    decreases count
  {
    if count == 0 then ([], r)
    else
      var (d, r1) := RandInt(r, 1, sides);
      var (more, r2) := RollDice(r1, count - 1, sides);
      ([d] + more, r2)
  }

  /** The contribution of one attribute reference; a missing attribute counts 0. */
  function AttrValue(a: AttrRef, attrs: map<Attr, int>): (v: int)
    requires a.divisor != Some(0)
    ensures a.divisor.None? ==> v == (if a.sign == Minus then -MapGet(attrs, a.attr, 0) else MapGet(attrs, a.attr, 0))
    ensures a.divisor.Some? ==>
      var q := if a.sign == Minus then -v else v;
      q * a.divisor.value <= MapGet(attrs, a.attr, 0) < q * a.divisor.value + a.divisor.value
  {
    var raw := MapGet(attrs, a.attr, 0);
    var scaled := if a.divisor.Some? then raw / a.divisor.value else raw;
    if a.sign == Minus then -scaled else scaled
  }

  function AttrTotal(refs: seq<AttrRef>, attrs: map<Attr, int>): int
    requires forall i :: 0 <= i < |refs| ==> refs[i].divisor != Some(0)
  {
    if |refs| == 0 then 0 else AttrTotal(refs[..|refs| - 1], attrs) + AttrValue(refs[|refs| - 1], attrs)
  }

  function DiceTotalOf(e: DiceExpr, r: Rng): (res: (seq<int>, Rng))
    requires Evaluable(e)
  {
    match e.dice
    case None => ([], r)
    case Some(t) => RollDice(r, t.count, t.sides)
  }

  /**
    `DiceRoller.roll(expr, attrs)`: rolls the dice term, adds every constant and
    attribute modifier, and clamps the total at zero. `attrs = None` is Python's
    omitted argument.
  */
  function Roll(r: Rng, e: DiceExpr, attrs: Option<map<Attr, int>>): (res: (RollResult, Rng))
    requires Evaluable(e)
    ensures var b := res.0.breakdown;
      && res.0.total >= 0
      && res.0.total == (if b.diceTotal + b.modTotal < 0 then 0 else b.diceTotal + b.modTotal)
      && b.diceTotal == Sum(b.diceRolls)
      && b.modTotal == Sum(e.consts) + AttrTotal(e.attrRefs, attrs.GetOr(map[]))
    ensures e.dice.None? ==> res.0.breakdown.diceRolls == [] && res.0.breakdown.diceTotal == 0 && res.1 == r
    ensures e.dice.Some? ==>
      && |res.0.breakdown.diceRolls| == e.dice.value.count
      && (forall i :: 0 <= i < e.dice.value.count ==> 1 <= res.0.breakdown.diceRolls[i] <= e.dice.value.sides)
      && Advanced(r, res.1, e.dice.value.count)
  {
    var table := attrs.GetOr(map[]);
    var (rolls, r') := DiceTotalOf(e, r);
    var diceTotal := Sum(rolls);
    var modTotal := Sum(e.consts) + AttrTotal(e.attrRefs, table);
    var total := diceTotal + modTotal;
    (RollResult(if total < 0 then 0 else total, Breakdown(diceTotal, modTotal, rolls)), r')
  }

  /** The number of draws `Roll` takes from the stream. */
  function DrawsOf(e: DiceExpr): nat {
    match e.dice
    case None => 0
    case Some(t) => t.count
  }

  lemma RollAdvances(r: Rng, e: DiceExpr, attrs: Option<map<Attr, int>>)
    requires Evaluable(e)
    ensures Advanced(r, Roll(r, e, attrs).1, DrawsOf(e))
  {
  }

  /**
    With `count` dice of `sides` faces and modifier total `m`, the total lies
    between the clamped all-ones roll and the clamped all-maximum roll
    (`2d6+3` gives 5..15).
  */
  lemma RollBounds(r: Rng, e: DiceExpr, attrs: Option<map<Attr, int>>)
    requires Evaluable(e) && e.dice.Some?
    ensures var n := e.dice.value.count;
      var m := e.dice.value.sides;
      var res := Roll(r, e, attrs).0;
      var mods := res.breakdown.modTotal;
      && (if n + mods < 0 then 0 else n + mods) <= res.total
      && res.total <= (if n * m + mods < 0 then 0 else n * m + mods)
  {
    var res := Roll(r, e, attrs).0;
    SumBounds(res.breakdown.diceRolls, 1, e.dice.value.sides);
  }

  /** An expression with no term rolls nothing and totals zero. */
  lemma BlankRollsZero(r: Rng, e: DiceExpr, attrs: Option<map<Attr, int>>)
    requires IsBlank(e)
    ensures Roll(r, e, attrs).0.total == 0
    ensures Roll(r, e, attrs).1 == r
  {
  }

  /** Omitting `attrs` is the same as passing an empty dictionary. */
  lemma NoAttrsIsEmptyAttrs(r: Rng, e: DiceExpr)
    requires Evaluable(e)
    ensures Roll(r, e, None) == Roll(r, e, Some(map[]))
  {
  }

  /** `"-5"`: one constant -5 and nothing else; the total clamps to 0. */
  lemma NegativeConstantClampsToZero(r: Rng)
    ensures Roll(r, DiceExpr(None, [-5], []), None).0.total == 0
    ensures Roll(r, DiceExpr(None, [-5], []), None).0.breakdown.modTotal == -5
  {
  }

  /** `"1d1"` always totals 1. */
  lemma OneDieOneSideIsOne(r: Rng, attrs: Option<map<Attr, int>>)
    ensures Roll(r, DiceExpr(Some(DiceTerm(1, 1)), [], []), attrs).0.total == 1
  {
    var res := Roll(r, DiceExpr(Some(DiceTerm(1, 1)), [], []), attrs).0;
    assert res.breakdown.diceRolls == [res.breakdown.diceRolls[0]];
  }

  /** `"+INT/2"` against INT = -3 contributes floor(-3 / 2) = -2, and `"-INT/2"` contributes 2. */
  lemma AttributeDivisionFloors()
    ensures AttrValue(AttrRef(Plus, INT, Some(2)), map[INT := -3]) == -2
    ensures AttrValue(AttrRef(Minus, INT, Some(2)), map[INT := -3]) == 2
    ensures AttrValue(AttrRef(Plus, STR, None), map[INT := 7]) == 0
  {
  }
}

=== FILE: events.dfy ===
/**
  The event dataclasses (core/events.py), plus the two combat events that
  gameplay/ecs/systems/combat_state_system.py declares, with their defaults.
*/
module Events {
  import opened Wrappers
  import opened Geometry
  import opened Components

  datatype Event =
    | MoveRequested(eid: Eid, toXy: Point)
    | MoveResolved(eid: Eid, fromXy: Point, toXy: Point)
    | Bump(eid: Eid, targetEid: Eid)
    | AttackRequested(attackerEid: Eid, targetEid: Eid)
    | DamageApplied(targetEid: Eid, amount: int, dtype: string, sourceEid: Option<Eid> := None)
    | EntityDied(eid: Eid, killerEid: Option<Eid> := None)
    | SpellCastRequested(casterEid: Eid, spellId: string, targetSpec: Datum)
    | ItemPicked(eid: Eid, itemEid: Eid)
    | ItemEquipped(eid: Eid, slot: string, itemEid: Eid)
    | DescendRequested(eid: Eid, stairXy: Point)
    | Message(text: string, channel: string := "log", ttlMs: int := 3000)
    | CombatStarted(participants: set<Eid>)
    | CombatEnded(participants: set<Eid>)

  /** The defaults of the optional event fields. */
  lemma EventDefaults(text: string, e: Eid, target: Eid, amount: int, dtype: string)
    ensures Message(text).channel == "log" && Message(text).ttlMs == 3000
    ensures EntityDied(e).killerEid == None
    ensures DamageApplied(target, amount, dtype).sourceEid == None
  {
  }
}

=== FILE: factories.dfy ===
/**
  Entity factories (gameplay/content/factories.py): the player from fixed
  components, monsters and items from a content catalog. The catalog is a
  parameter; `DefaultItems` and `DefaultMonsters` are the built-in content of
  gameplay/content/registries.py. A catalog component is given already built:
  its class name as written in the catalog and the value that class constructs.
*/
module Factories {
  import opened Wrappers
  import opened Geometry
  import opened Dice
  import opened Components
  import opened Ecs
  import InventorySystem

  /** One `"ClassName": data` entry of a template's `components`. */
  datatype Part = Part(className: string, value: Component)

  /** A catalog entry: `name`, `glyph`, `color` and its components, in dict order. */
  datatype Template = Template(name: string, glyph: string, color: string, parts: seq<Part>)

  type Catalog = map<string, Template>

  /** `globals().get(name)` restricted to the component classes: the kind a class name denotes. */
  function ClassOf(name: string): (k: Option<Kind>)
    ensures k.Some? ==> KindName(k.value) == name
  {
    if name == "CPosition" then Some(PositionKind)
    else if name == "CVision" then Some(VisionKind)
    else if name == "CBlocker" then Some(BlockerKind)
    else if name == "CHealth" then Some(HealthKind)
    else if name == "CStats" then Some(StatsKind)
    else if name == "CArmor" then Some(ArmorKind)
    else if name == "CWeapon" then Some(WeaponKind)
    else if name == "CInventory" then Some(InventoryKind)
    else if name == "CEquipment" then Some(EquipmentKind)
    else if name == "CSpellbook" then Some(SpellbookKind)
    else if name == "CStatus" then Some(StatusKind)
    else if name == "CAI" then Some(AIKind)
    else if name == "CInteractable" then Some(InteractableKind)
    else if name == "CDescriptor" then Some(DescriptorKind)
    else if name == "CVisible" then Some(VisibleKind)
    else None
  }

  /** Every class name is recognised, and only class names are. */
  lemma ClassOfInvertsKindName(name: string, k: Kind)
    ensures ClassOf(name) == Some(k) <==> KindName(k) == name
  {
  }

  /** The part is applied: its class name is a component class. */
  predicate Applied(p: Part) {
    ClassOf(p.className).Some?
  }

  /** The catalog loop: each part with a known class name is added, later ones overriding earlier ones. */
  function AddParts(w: World, eid: Eid, parts: seq<Part>): (w': World)
    requires Wf(w)
    ensures Wf(w') && w'.live == w.live && w'.nextId == w.nextId && w'.queue == w.queue
    ensures forall k, e :: e != eid ==> Get(w', e, k) == Get(w, e, k)
    ensures forall k :: (forall i :: 0 <= i < |parts| && Applied(parts[i]) ==> KindOf(parts[i].value) != k) ==>
      Table(w', k) == Table(w, k)
    ensures |parts| > 0 && Applied(parts[|parts| - 1]) ==>
      Get(w', eid, KindOf(parts[|parts| - 1].value)) == Some(parts[|parts| - 1].value)
    decreases |parts|
  {
    if |parts| == 0 then w
    else
      var init := parts[..|parts| - 1];
      var last := parts[|parts| - 1];
      var w1 := AddParts(w, eid, init);
      assert forall i :: 0 <= i < |init| ==> init[i] == parts[i];
      if Applied(last) then Add(w1, eid, last.value) else w1
  }

  /** Parts whose class names are unknown change nothing. */
  lemma {:induction false} UnknownPartsSkipped(w: World, eid: Eid, parts: seq<Part>)
    requires Wf(w) && forall i :: 0 <= i < |parts| ==> !Applied(parts[i])
    ensures AddParts(w, eid, parts) == w
    decreases |parts|
  {
    if |parts| > 0 {
      UnknownPartsSkipped(w, eid, parts[..|parts| - 1]);
    }
  }

  /** The player's stat block. */
  function PlayerStats(): Stats {
    Stats(strength := 12, agility := 14, intellect := 10, accuracy := 5, evasion := 3, critChance := 10.0, critMult := 2.0)
  }

  /** `w'` is `w` with one new entity `eid`, and nothing else about the existing ones changed. */
  ghost predicate Spawned(w: World, w': World, eid: Eid)
    requires Wf(w)
  {
    && Wf(w') && eid == w.nextId && eid !in w.live
    && w'.live == w.live + {eid} && w'.nextId == w.nextId + 1 && w'.queue == w.queue
    && forall k, e :: e != eid ==> Get(w', e, k) == Get(w, e, k)
  }

  /** Adding to the new entity keeps it the only change. */
  lemma AddToSpawned(w: World, w1: World, eid: Eid, c: Component)
    requires Wf(w) && Spawned(w, w1, eid)
    ensures Spawned(w, Add(w1, eid, c), eid)
    ensures Get(Add(w1, eid, c), eid, KindOf(c)) == Some(c)
    ensures forall k :: k != KindOf(c) ==> Get(Add(w1, eid, c), eid, k) == Get(w1, eid, k)
  {
    forall k, e | e != eid ensures Get(Add(w1, eid, c), e, k) == Get(w1, e, k) {
      AddThenGet(w1, eid, c, e, k);
    }
    forall k | k != KindOf(c) ensures Get(Add(w1, eid, c), eid, k) == Get(w1, eid, k) {
      AddThenGet(w1, eid, c, eid, k);
    }
    AddThenGet(w1, eid, c, eid, KindOf(c));
  }

  /** A just-created entity is the only change. */
  lemma CreateSpawns(w: World)
    requires Wf(w)
    ensures Spawned(w, CreateEntity(w).0, CreateEntity(w).1)
  {
  }

  /** One `add_component` on the new entity: the added kind reads back, every other kind is untouched. */
  function AddOne(w: World, w0: World, eid: Eid, c: Component): (w': World)
    requires Wf(w) && Spawned(w, w0, eid)
    ensures Spawned(w, w', eid)
    ensures Get(w', eid, KindOf(c)) == Some(c)
    ensures forall k :: k != KindOf(c) ==> Get(w', eid, k) == Get(w0, eid, k)
  {
    AddToSpawned(w, w0, eid, c);
    Add(w0, eid, c)
  }

  /** A fresh entity with the player's body: Position, Health, Stats and Vision. */
  function PlayerBody(w: World, xy: Point): (res: (World, Eid))
    requires Wf(w)
    ensures Spawned(w, res.0, res.1)
    ensures Get(res.0, res.1, PositionKind) == Some(CPosition(Position(xy.x, xy.y)))
    ensures Get(res.0, res.1, HealthKind) == Some(CHealth(Health(100, 100, false)))
    ensures Get(res.0, res.1, StatsKind) == Some(CStats(PlayerStats()))
    ensures Get(res.0, res.1, VisionKind) == Some(CVision(Vision(5)))
  {
    var (w0, eid) := CreateEntity(w);
    CreateSpawns(w);
    var w1 := AddOne(w, w0, eid, CPosition(Position(xy.x, xy.y)));
    var w2 := AddOne(w, w1, eid, CHealth(Health(100, 100)));
    var w3 := AddOne(w, w2, eid, CStats(PlayerStats()));
    (AddOne(w, w3, eid, CVision(Vision(5))), eid)
  }

  /** The player's Inventory, Equipment and Spellbook, added on top of its body. */
  function PlayerKit(w: World, w0: World, eid: Eid): (w': World)
    requires Wf(w) && Spawned(w, w0, eid)
    ensures Spawned(w, w', eid)
    ensures Get(w', eid, InventoryKind) == Some(CInventory(Inventory(20, [])))
    ensures Get(w', eid, EquipmentKind) == Some(CEquipment(Equipment()))
    ensures Get(w', eid, SpellbookKind) == Some(CSpellbook(Spellbook(["firebolt"])))
    ensures forall k :: k != InventoryKind && k != EquipmentKind && k != SpellbookKind ==> Get(w', eid, k) == Get(w0, eid, k)
  {
    var w1 := AddOne(w, w0, eid, CInventory(Inventory(20)));
    var w2 := AddOne(w, w1, eid, CEquipment(Equipment()));
    AddOne(w, w2, eid, CSpellbook(Spellbook(["firebolt"])))
  }

  /** The player's Blocker and Descriptor, last. */
  function PlayerLook(w: World, w0: World, eid: Eid): (w': World)
    requires Wf(w) && Spawned(w, w0, eid)
    ensures Spawned(w, w', eid)
    ensures Get(w', eid, BlockerKind) == Some(CBlocker(Blocker(false)))
    ensures Get(w', eid, DescriptorKind) == Some(CDescriptor(Descriptor("Hero", "@", "blue")))
    ensures forall k :: k != BlockerKind && k != DescriptorKind ==> Get(w', eid, k) == Get(w0, eid, k)
  {
    var w1 := AddOne(w, w0, eid, CBlocker(Blocker(false)));
    AddOne(w, w1, eid, CDescriptor(Descriptor("Hero", "@", "blue")))
  }

  /**
    `spawn_player`: a fresh id with Position, 100/100 Health, Vision 5, an
    empty 20-slot Inventory, empty Equipment, a Spellbook with "firebolt",
    and a Blocker that is not passable.
  */
  function SpawnPlayer(w: World, xy: Point): (res: (World, Eid))
    requires Wf(w)
    ensures Spawned(w, res.0, res.1)
  {
    var (w1, eid) := PlayerBody(w, xy);
    var w2 := PlayerKit(w, w1, eid);
    (PlayerLook(w, w2, eid), eid)
  }

  /** The spawned player's body: Position at `xy`, 100/100 Health, the player's stats, Vision 5. */
  lemma SpawnedPlayerBody(w: World, xy: Point)
    requires Wf(w)
    ensures var (w', p) := SpawnPlayer(w, xy);
      && GetPosition(w', p) == Some(Position(xy.x, xy.y))
      && GetHealth(w', p) == Some(Health(100, 100, false))
      && GetStats(w', p) == Some(PlayerStats())
      && GetVision(w', p) == Some(Vision(5))
  {
    var (w1, eid) := PlayerBody(w, xy);
    var w2 := PlayerKit(w, w1, eid);
    BodyThrough(w, w1, w2, PlayerLook(w, w2, eid), eid, xy);
  }

  /** The body components survive the player's Inventory, Equipment and Spellbook and the look. */
  lemma BodyThrough(w: World, w1: World, w2: World, w': World, eid: Eid, xy: Point)
    requires Wf(w) && Wf(w1) && Wf(w2) && Wf(w')
    requires Get(w1, eid, PositionKind) == Some(CPosition(Position(xy.x, xy.y)))
    requires Get(w1, eid, HealthKind) == Some(CHealth(Health(100, 100, false)))
    requires Get(w1, eid, StatsKind) == Some(CStats(PlayerStats()))
    requires Get(w1, eid, VisionKind) == Some(CVision(Vision(5)))
    requires forall k :: k != InventoryKind && k != EquipmentKind && k != SpellbookKind ==> Get(w2, eid, k) == Get(w1, eid, k)
    requires forall k :: k != BlockerKind && k != DescriptorKind ==> Get(w', eid, k) == Get(w2, eid, k)
    ensures GetPosition(w', eid) == Some(Position(xy.x, xy.y))
    ensures GetHealth(w', eid) == Some(Health(100, 100, false))
    ensures GetStats(w', eid) == Some(PlayerStats())
    ensures GetVision(w', eid) == Some(Vision(5))
  {
    ReadsBack(w', eid, CPosition(Position(xy.x, xy.y)));
    ReadsBack(w', eid, CHealth(Health(100, 100, false)));
    ReadsBack(w', eid, CStats(PlayerStats()));
    ReadsBack(w', eid, CVision(Vision(5)));
  }

  /**
    The spawned player's kit: an empty 20-slot Inventory, empty Equipment, a
    Spellbook with "firebolt", a Blocker that is not passable, and the "Hero"
    descriptor.
  */
  lemma SpawnedPlayerKit(w: World, xy: Point)
    requires Wf(w)
    ensures var (w', p) := SpawnPlayer(w, xy);
      && GetInventory(w', p) == Some(Inventory(20, []))
      && Get(w', p, EquipmentKind) == Some(CEquipment(Equipment()))
      && Get(w', p, SpellbookKind) == Some(CSpellbook(Spellbook(["firebolt"])))
      && GetBlocker(w', p) == Some(Blocker(false))
      && GetDescriptor(w', p) == Some(Descriptor("Hero", "@", "blue"))
  {
    var (w1, eid) := PlayerBody(w, xy);
    var w2 := PlayerKit(w, w1, eid);
    KitThrough(w2, PlayerLook(w, w2, eid), eid);
  }

  /** The player's Inventory, Equipment and Spellbook survive the look, and the look reads back. */
  lemma KitThrough(w2: World, w': World, eid: Eid)
    requires Wf(w2) && Wf(w')
    requires Get(w2, eid, InventoryKind) == Some(CInventory(Inventory(20, [])))
    requires Get(w2, eid, EquipmentKind) == Some(CEquipment(Equipment()))
    requires Get(w2, eid, SpellbookKind) == Some(CSpellbook(Spellbook(["firebolt"])))
    requires Get(w', eid, BlockerKind) == Some(CBlocker(Blocker(false)))
    requires Get(w', eid, DescriptorKind) == Some(CDescriptor(Descriptor("Hero", "@", "blue")))
    requires forall k :: k != BlockerKind && k != DescriptorKind ==> Get(w', eid, k) == Get(w2, eid, k)
    ensures GetInventory(w', eid) == Some(Inventory(20, []))
    ensures Get(w', eid, EquipmentKind) == Some(CEquipment(Equipment()))
    ensures Get(w', eid, SpellbookKind) == Some(CSpellbook(Spellbook(["firebolt"])))
    ensures GetBlocker(w', eid) == Some(Blocker(false))
    ensures GetDescriptor(w', eid) == Some(Descriptor("Hero", "@", "blue"))
  {
    ReadsBack(w', eid, CInventory(Inventory(20, [])));
    ReadsBack(w', eid, CBlocker(Blocker(false)));
    ReadsBack(w', eid, CDescriptor(Descriptor("Hero", "@", "blue")));
  }

  /** The player is a living obstacle on its own cell: its Blocker is not passable. */
  lemma PlayerIsLivingObstacle(w: World, xy: Point)
    requires Wf(w)
    ensures var (w', p) := SpawnPlayer(w, xy); Living(w', p) && Obstacle(w', p)
  {
    SpawnedPlayerBody(w, xy);
    SpawnedPlayerKit(w, xy);
  }

  /** A fresh entity with the components every monster gets before its catalog components. */
  function MonsterBase(w: World, xy: Point, t: Template): (res: (World, Eid))
    requires Wf(w)
    ensures Spawned(w, res.0, res.1)
    ensures Get(res.0, res.1, PositionKind) == Some(CPosition(Position(xy.x, xy.y)))
    ensures Get(res.0, res.1, BlockerKind) == Some(CBlocker(Blocker(false)))
    ensures Get(res.0, res.1, DescriptorKind) == Some(CDescriptor(Descriptor(t.name, t.glyph, t.color)))
    ensures Get(res.0, res.1, VisionKind) == Some(CVision(Vision(4)))
  {
    var (w0, eid) := CreateEntity(w);
    CreateSpawns(w);
    var w1 := AddOne(w, w0, eid, CPosition(Position(xy.x, xy.y)));
    var w2 := AddOne(w, w1, eid, CBlocker(Blocker(false)));
    var w3 := AddOne(w, w2, eid, CDescriptor(Descriptor(t.name, t.glyph, t.color)));
    (AddOne(w, w3, eid, CVision(Vision(4))), eid)
  }

  /** A fresh entity with the components every item gets before its catalog components. */
  function ItemBase(w: World, xy: Point, t: Template): (res: (World, Eid))
    requires Wf(w)
    ensures Spawned(w, res.0, res.1)
    ensures Get(res.0, res.1, PositionKind) == Some(CPosition(Position(xy.x, xy.y)))
    ensures Get(res.0, res.1, DescriptorKind) == Some(CDescriptor(Descriptor(t.name, t.glyph, t.color)))
    ensures Get(res.0, res.1, BlockerKind) == Some(CBlocker(Blocker(true)))
  {
    var (w0, eid) := CreateEntity(w);
    CreateSpawns(w);
    var w1 := AddOne(w, w0, eid, CPosition(Position(xy.x, xy.y)));
    var w2 := AddOne(w, w1, eid, CDescriptor(Descriptor(t.name, t.glyph, t.color)));
    (AddOne(w, w2, eid, CBlocker(Blocker(true))), eid)
  }

  /** The catalog parts on top of a freshly spawned entity keep it freshly spawned. */
  lemma PartsKeepSpawned(w: World, base: (World, Eid), parts: seq<Part>)
    requires Wf(w) && Spawned(w, base.0, base.1)
    ensures Spawned(w, AddParts(base.0, base.1, parts), base.1)
  {
  }

  /**
    `spawn_monster`: an unknown id fails before anything is created; otherwise
    a fresh entity at `xy` with the catalog's components.
  */
  function SpawnMonster(w: World, catalog: Catalog, monsterId: string, xy: Point): (res: Result<(World, Eid), string>)
    requires Wf(w)
    ensures monsterId !in catalog <==> res.Failure?
    ensures res.Failure? ==> res.error == "Unknown monster: " + monsterId
    ensures res.Success? ==> Spawned(w, res.value.0, res.value.1)
  {
    if monsterId !in catalog then Failure("Unknown monster: " + monsterId)
    else
      var t := catalog[monsterId];
      var base := MonsterBase(w, xy, t);
      PartsKeepSpawned(w, base, t.parts);
      Success((AddParts(base.0, base.1, t.parts), base.1))
  }

  /** `spawn_item`: like a monster, with a passable Blocker and no Vision. */
  function SpawnItem(w: World, catalog: Catalog, itemId: string, xy: Point): (res: Result<(World, Eid), string>)
    requires Wf(w)
    ensures itemId !in catalog <==> res.Failure?
    ensures res.Failure? ==> res.error == "Unknown item: " + itemId
    ensures res.Success? ==> Spawned(w, res.value.0, res.value.1)
  {
    if itemId !in catalog then Failure("Unknown item: " + itemId)
    else
      var t := catalog[itemId];
      var base := ItemBase(w, xy, t);
      PartsKeepSpawned(w, base, t.parts);
      Success((AddParts(base.0, base.1, t.parts), base.1))
  }

  /** A template that overrides none of the base kinds keeps the base components. */
  lemma MonsterKeepsBase(w: World, catalog: Catalog, monsterId: string, xy: Point)
    requires Wf(w) && monsterId in catalog
    requires forall j :: 0 <= j < |catalog[monsterId].parts| && Applied(catalog[monsterId].parts[j]) ==>
      KindOf(catalog[monsterId].parts[j].value) !in {PositionKind, BlockerKind, DescriptorKind, VisionKind}
    ensures SpawnMonster(w, catalog, monsterId, xy).Success?
    ensures var (w', eid) := SpawnMonster(w, catalog, monsterId, xy).value;
      var t := catalog[monsterId];
      && GetPosition(w', eid) == Some(Position(xy.x, xy.y))
      && GetBlocker(w', eid) == Some(Blocker(false))
      && GetDescriptor(w', eid) == Some(Descriptor(t.name, t.glyph, t.color))
      && GetVision(w', eid) == Some(Vision(4))
  {
    var t := catalog[monsterId];
    var base := MonsterBase(w, xy, t);
    var w' := AddParts(base.0, base.1, t.parts);
    assert Table(w', PositionKind) == Table(base.0, PositionKind);
    assert Table(w', BlockerKind) == Table(base.0, BlockerKind);
    assert Table(w', DescriptorKind) == Table(base.0, DescriptorKind);
    assert Table(w', VisionKind) == Table(base.0, VisionKind);
  }

  /** Items are passable: an item never blocks the cell it lies on. */
  lemma ItemIsPassable(w: World, catalog: Catalog, itemId: string, xy: Point)
    requires Wf(w) && itemId in catalog
    requires forall j :: 0 <= j < |catalog[itemId].parts| && Applied(catalog[itemId].parts[j]) ==>
      KindOf(catalog[itemId].parts[j].value) !in {PositionKind, BlockerKind, DescriptorKind}
    ensures SpawnItem(w, catalog, itemId, xy).Success?
    ensures var (w', eid) := SpawnItem(w, catalog, itemId, xy).value;
      var t := catalog[itemId];
      && GetPosition(w', eid) == Some(Position(xy.x, xy.y))
      && GetDescriptor(w', eid) == Some(Descriptor(t.name, t.glyph, t.color))
      && GetBlocker(w', eid) == Some(Blocker(true)) && !Obstacle(w', eid)
  {
    var t := catalog[itemId];
    var base := ItemBase(w, xy, t);
    var w' := AddParts(base.0, base.1, t.parts);
    assert Table(w', PositionKind) == Table(base.0, PositionKind);
    assert Table(w', BlockerKind) == Table(base.0, BlockerKind);
    assert Table(w', DescriptorKind) == Table(base.0, DescriptorKind);
  }

  /** The built-in items: an iron sword and leather armor. */
  function DefaultItems(): Catalog {
    map[
      "sword" := Template("Iron Sword", "/", "gray",
        [Part("CWeapon", CWeapon(Weapon(DiceExpr(Some(DiceTerm(1, 6)), [], [AttrRef(Plus, STR, None)]), "Physical", 1)))]),
      "leather_armor" := Template("Leather Armor", "[", "brown",
        [Part("CArmor", CArmor(Armor(DiceExpr(Some(DiceTerm(1, 2)), [], []), map["Physical" := 0.1])))])
    ]
  }

  /** The built-in monster: the green slime, a 15 hp chaser. */
  function DefaultMonsters(): Catalog {
    map["slime" := SlimeTemplate()]
  }

  function SlimeHealth(): Component { CHealth(Health(15, 15)) }
  function SlimeStats(): Component { CStats(Stats(8, 6, 2, 5, 2, 5.0, 2.0)) }
  function SlimeAI(): Component { CAI(AI("chase")) }

  function SlimeTemplate(): Template {
    Template("Green Slime", "s", "green", [Part("CHealth", SlimeHealth()), Part("CStats", SlimeStats()), Part("CAI", SlimeAI())])
  }

  /** The slime's catalog components, added in order. */
  lemma SlimeParts(w: World, e: Eid)
    requires Wf(w)
    ensures AddParts(w, e, SlimeTemplate().parts) == Add(Add(Add(w, e, SlimeHealth()), e, SlimeStats()), e, SlimeAI())
  {
    var p := SlimeTemplate().parts;
    assert Applied(p[0]) && Applied(p[1]) && Applied(p[2]);
    assert p[..1][..0] == p[..0] && p[..2][..1] == p[..1] && p[..3] == p;
    assert AddParts(w, e, p[..1]) == Add(w, e, SlimeHealth());
    assert AddParts(w, e, p[..2]) == Add(AddParts(w, e, p[..1]), e, SlimeStats());
  }

  /** The slime's components on top of any entity: its Health and AI, with Blocker and Vision untouched. */
  lemma SlimeOnTop(w: World, e: Eid)
    requires Wf(w)
    ensures var w' := Add(Add(Add(w, e, SlimeHealth()), e, SlimeStats()), e, SlimeAI());
      && GetHealth(w', e) == Some(Health(15, 15))
      && GetAI(w', e) == Some(AI("chase"))
      && GetVision(w', e) == GetVision(w, e)
      && GetBlocker(w', e) == GetBlocker(w, e)
  {
    var w1 := Add(w, e, SlimeHealth());
    var w2 := Add(w1, e, SlimeStats());
    var w3 := Add(w2, e, SlimeAI());
    AddThenGet(w, e, SlimeHealth(), e, HealthKind);
    AddThenGet(w1, e, SlimeStats(), e, HealthKind);
    AddThenGet(w2, e, SlimeAI(), e, HealthKind);
    AddThenGet(w2, e, SlimeAI(), e, AIKind);
    forall k | k == VisionKind || k == BlockerKind
      ensures Get(w3, e, k) == Get(w, e, k)
    {
      AddThenGet(w, e, SlimeHealth(), e, k);
      AddThenGet(w1, e, SlimeStats(), e, k);
      AddThenGet(w2, e, SlimeAI(), e, k);
    }
    SlimeReads(w, w3, e);
  }

  /** The slime's components read back; Vision and Blocker read as before. */
  lemma SlimeReads(w: World, w': World, e: Eid)
    requires Wf(w) && Wf(w')
    requires Get(w', e, HealthKind) == Some(SlimeHealth()) && Get(w', e, AIKind) == Some(SlimeAI())
    requires Get(w', e, VisionKind) == Get(w, e, VisionKind) && Get(w', e, BlockerKind) == Get(w, e, BlockerKind)
    ensures GetHealth(w', e) == Some(Health(15, 15)) && GetAI(w', e) == Some(AI("chase"))
    ensures GetVision(w', e) == GetVision(w, e) && GetBlocker(w', e) == GetBlocker(w, e)
  {
    ReadsBack(w', e, SlimeHealth());
    ReadsBack(w', e, SlimeAI());
    ReadsSame(w, w', e, VisionKind);
    ReadsSame(w, w', e, BlockerKind);
  }

  /** A slime from the built-in catalog: a living, blocking chaser with 15 hp and Vision 4. */
  lemma DefaultSlime(w: World, xy: Point)
    requires Wf(w)
    ensures SpawnMonster(w, DefaultMonsters(), "slime", xy).Success?
    ensures var (w', eid) := SpawnMonster(w, DefaultMonsters(), "slime", xy).value;
      && GetHealth(w', eid) == Some(Health(15, 15))
      && GetAI(w', eid) == Some(AI("chase"))
      && GetVision(w', eid) == Some(Vision(4))
      && Living(w', eid) && Obstacle(w', eid)
  {
    var t := SlimeTemplate();
    assert DefaultMonsters()["slime"] == t;
    var base := MonsterBase(w, xy, t);
    SlimeParts(base.0, base.1);
    SlimeOnTop(base.0, base.1);
  }

  /**
    Neither built-in item glyph contains "item", so the pickup scan never
    treats a spawned built-in item as something to pick up.
  */
  lemma DefaultItemsAreNeverPickedUp(w: World, itemId: string, xy: Point, to: Point)
    requires Wf(w) && itemId in DefaultItems()
    ensures var (w', eid) := SpawnItem(w, DefaultItems(), itemId, xy).value;
      !InventorySystem.ItemAt(w', eid, to)
  {
    ItemIsPassable(w, DefaultItems(), itemId, xy);
    var t := DefaultItems()[itemId];
    assert t.glyph == "/" || t.glyph == "[";
    assert !InventorySystem.ItemGlyph(t.glyph);
  }
}

=== FILE: fov.dfy ===
/**
  The field-of-view system (gameplay/ecs/systems/fov_system.py): every entity
  with Vision and a Position gets its visible set recomputed and added to the
  cumulative set of tiles it has ever seen.

  The raycast `compute_visible` (floating-point trigonometry) is not modelled:
  it is the parameter `see`, called as `see(grid, x, y, radius)`.
*/
module FovSystem {
  import opened Wrappers
  import opened Geometry
  import opened Tiles
  import opened Components
  import opened Ecs

  /** `compute_visible(grid, origin_x, origin_y, radius)`. */
  type See = (Grid, int, int, int) -> set<Point>

  /** The raycaster's own first step: the origin is always visible. */
  ghost predicate SeesOrigin(see: See) {
    forall g, x, y, r :: Point(x, y) in see(g, x, y, r)
  }

  /** The tiles `e` has seen so far; none before its first update. */
  function SeenSoFar(w: World, e: Eid): set<Point>
    requires Wf(w)
  {
    match GetVisible(w, e)
    case Some(v) => v.seenTiles
    case None => {}
  }

  /** Every FOV cache holds its visible tiles among its seen ones. */
  ghost predicate Coherent(w: World)
    requires Wf(w)
  {
    forall e :: GetVisible(w, e).Some? ==> GetVisible(w, e).value.visibleTiles <= GetVisible(w, e).value.seenTiles
  }

  /** From `w` to `w'` no cache is lost and no seen tile is forgotten. */
  ghost predicate SeenGrows(w: World, w': World)
    requires Wf(w) && Wf(w')
  {
    forall e :: GetVisible(w, e).Some? ==>
      GetVisible(w', e).Some? && GetVisible(w, e).value.seenTiles <= GetVisible(w', e).value.seenTiles
  }

  /** Only the Visible table may differ. */
  ghost predicate OnlyCachesChange(w: World, w': World) {
    && w'.live == w.live && w'.nextId == w.nextId && w'.queue == w.queue
    && forall k :: k != VisibleKind ==> Table(w', k) == Table(w, k)
  }

  /**
    `_update_fov`: with no Position, no Vision or an empty grid nothing
    happens; otherwise the visible set becomes the raycast from the entity's
    cell, the seen set gains it, and a missing cache is created.
  */
  function UpdateFov(w: World, grid: Grid, see: See, eid: Eid): (w': World)
    requires Wf(w)
    ensures Wf(w') && OnlyCachesChange(w, w')
    ensures forall e :: e != eid ==> GetVisible(w', e) == GetVisible(w, e)
    ensures GetPosition(w, eid).None? || GetVision(w, eid).None? || |grid| == 0 ==> w' == w
    ensures GetPosition(w, eid).Some? && GetVision(w, eid).Some? && |grid| > 0 ==>
      var p := GetPosition(w, eid).value;
      var now := see(grid, p.x, p.y, GetVision(w, eid).value.radius);
      && GetVisible(w', eid).Some?
      && GetVisible(w', eid).value.visibleTiles == now
      && GetVisible(w', eid).value.seenTiles == SeenSoFar(w, eid) + now
  {
    match (GetPosition(w, eid), GetVision(w, eid))
    case (Some(p), Some(v)) =>
      if |grid| == 0 then w
      else
        var now := see(grid, p.x, p.y, v.radius);
        var cache := Visible(now, SeenSoFar(w, eid) + now);
        var w' := Add(w, eid, CVisible(cache));
        CacheStored(w, w', eid, cache);
        w'
    case _ => w
  }

  /** Storing `cache` for `eid` changes no other entity's cache and reads back. */
  lemma CacheStored(w: World, w': World, eid: Eid, cache: Visible)
    requires Wf(w) && Wf(w') && Table(w', VisibleKind) == Table(w, VisibleKind)[eid := CVisible(cache)]
    ensures GetVisible(w', eid) == Some(cache)
    ensures forall e :: e != eid ==> GetVisible(w', e) == GetVisible(w, e)
  {
    ReadsBack(w', eid, CVisible(cache));
    forall e | e != eid
      ensures GetVisible(w', e) == GetVisible(w, e)
    {
      ReadsSame(w, w', e, VisibleKind);
    }
  }

  /** An update keeps every cache coherent and forgets nothing. */
  lemma UpdateKeepsCoherent(w: World, grid: Grid, see: See, eid: Eid)
    requires Wf(w) && Coherent(w)
    ensures var w' := UpdateFov(w, grid, see, eid); Coherent(w') && SeenGrows(w, w')
  {
  }

  /** With a raycaster that sees its origin, the updated entity sees its own cell. */
  lemma UpdateSeesOwnCell(w: World, grid: Grid, see: See, eid: Eid)
    requires Wf(w) && SeesOrigin(see) && |grid| > 0
    requires GetPosition(w, eid).Some? && GetVision(w, eid).Some?
    ensures var w' := UpdateFov(w, grid, see, eid);
      GetPosition(w, eid).value.Xy() in GetVisible(w', eid).value.visibleTiles
  {
    var p := GetPosition(w, eid).value;
    assert Point(p.x, p.y) in see(grid, p.x, p.y, GetVision(w, eid).value.radius);
  }

  /** The updates of `es` in order. */
  function UpdateAll(w: World, grid: Grid, see: See, es: seq<Eid>): (w': World)
    requires Wf(w)
    ensures Wf(w') && OnlyCachesChange(w, w')
    ensures forall e :: e !in es ==> GetVisible(w', e) == GetVisible(w, e)
    ensures Coherent(w) ==> Coherent(w') && SeenGrows(w, w')
    decreases |es|
  {
    if |es| == 0 then w
    else
      var w1 := UpdateFov(w, grid, see, es[0]);
      assert Coherent(w) ==> Coherent(w1) && SeenGrows(w, w1) by {
        if Coherent(w) {
          UpdateKeepsCoherent(w, grid, see, es[0]);
        }
      }
      var w' := UpdateAll(w1, grid, see, es[1..]);
      assert forall e :: e !in es ==> e != es[0] && e !in es[1..];
      w'
  }

  /** Updating `e` once more repeats its raycast: Positions and Visions do not move. */
  lemma {:induction false} UpdateAllRefreshes(w: World, grid: Grid, see: See, es: seq<Eid>, e: Eid)
    requires Wf(w) && e in es && |grid| > 0
    requires GetPosition(w, e).Some? && GetVision(w, e).Some?
    ensures var w' := UpdateAll(w, grid, see, es);
      var p := GetPosition(w, e).value;
      && GetVisible(w', e).Some?
      && GetVisible(w', e).value.visibleTiles == see(grid, p.x, p.y, GetVision(w, e).value.radius)
    decreases |es|
  {
    var w1 := UpdateFov(w, grid, see, es[0]);
    assert GetPosition(w1, e) == GetPosition(w, e) && GetVision(w1, e) == GetVision(w, e);
    if e in es[1..] {
      UpdateAllRefreshes(w1, grid, see, es[1..], e);
    } else {
      assert e == es[0];
    }
  }

  /** The entities `process` visits: Vision and Position, ascending ids. */
  function Viewers(w: World): (es: seq<Eid>)
    requires Wf(w)
    ensures forall e :: e in es <==> e in w.live && e in Table(w, VisionKind) && e in Table(w, PositionKind)
  {
    var ks := [VisionKind, PositionKind];
    var es := EntitiesWithOrdered(w, ks);
    assert ks[0] == VisionKind && ks[1] == PositionKind;
    es
  }

  /**
    `process`: every live viewer's visible set is its fresh raycast, caches
    stay coherent, and no seen tile is forgotten.
  */
  function Process(w: World, grid: Grid, see: See): (w': World)
    requires Wf(w)
    ensures Wf(w') && OnlyCachesChange(w, w')
    ensures Coherent(w) ==> Coherent(w') && SeenGrows(w, w')
    ensures forall e :: (e !in w.live || GetPosition(w, e).None? || GetVision(w, e).None?) ==> GetVisible(w', e) == GetVisible(w, e)
  {
    UpdateAll(w, grid, see, Viewers(w))
  }

  /** After `process` every live viewer sees exactly its raycast, its own cell included. */
  lemma ProcessRefreshesViewers(w: World, grid: Grid, see: See, e: Eid)
    requires Wf(w) && |grid| > 0 && e in w.live
    requires GetPosition(w, e).Some? && GetVision(w, e).Some?
    ensures var w' := Process(w, grid, see);
      var p := GetPosition(w, e).value;
      && GetVisible(w', e).Some?
      && GetVisible(w', e).value.visibleTiles == see(grid, p.x, p.y, GetVision(w, e).value.radius)
      && (SeesOrigin(see) ==> p.Xy() in GetVisible(w', e).value.visibleTiles)
  {
    UpdateAllRefreshes(w, grid, see, Viewers(w), e);
    var p := GetPosition(w, e).value;
    if SeesOrigin(see) {
      assert Point(p.x, p.y) in see(grid, p.x, p.y, GetVision(w, e).value.radius);
    }
  }
}

=== FILE: generator.dfy ===
/**
  The room-and-corridor dungeon generator (gameplay/dungeon/generator.py):
  place non-overlapping rooms at random, carve them, join them with L-shaped
  corridors, then put the down stairs in the last room and pick treasure
  spots in up to three rooms.
*/
module Generator {
  import opened Geometry
  import opened Tiles
  import opened Random
  import opened Carving

  /** `max_room_attempts`, `min_room_size`, `max_room_size`, `max_rooms`. */
  datatype Params = Params(maxAttempts: int, minSize: int, maxSize: int, maxRooms: int)

  /** The values `_generate_rooms` uses for missing parameters. */
  const DefaultParams: Params := Params(50, 4, 8, 8)

  /** The `placements` dictionary, one list per key. */
  datatype Placements = Placements(stairsDown: seq<Point>, treasures: seq<Point>, springs: seq<Point>, magicCircles: seq<Point>)

  /** The dictionary `generate` returns. */
  datatype Dungeon = Dungeon(grid: Grid, rooms: seq<Rect>, placements: Placements)

  /** `[[Tile.wall() for _ in range(width)] for _ in range(height)]`. */
  function AllWalls(width: nat, height: nat): (g: Grid)
    ensures Rectangular(g) && Height(g) == height && (height > 0 ==> Width(g) == width)
    ensures forall p :: InBounds(g, p) ==> At(g, p) == WallTile()
  {
    seq(height, _ => seq(width, _ => WallTile()))
  }

  // ---------------------------------------------------------------------
  // Rooms.

  /** `room` has sizes within the bounds and leaves the outer ring of a `width` x `height` map free. */
  ghost predicate Placed(room: Rect, p: Params, width: int, height: int) {
    && p.minSize <= room.width <= p.maxSize
    && p.minSize <= room.height <= p.maxSize
    && 1 <= room.x && room.x + room.width <= width - 1
    && 1 <= room.y && room.y + room.height <= height - 1
  }

  /** No two rooms of the list intersect (in the buffered sense of `Rect.intersects`). */
  ghost predicate Separate(rooms: seq<Rect>) {
    forall i, j :: 0 <= i < |rooms| && 0 <= j < |rooms| && i != j ==> !rooms[i].Intersects(rooms[j])
  }

  /** No room holds two of the spots `ts`: each spot lies in a room of its own. */
  ghost predicate OnePerRoom(rooms: seq<Rect>, ts: seq<Point>) {
    forall i, j, k :: 0 <= i < j < |ts| && 0 <= k < |rooms| && rooms[k].Contains(ts[i]) ==> !rooms[k].Contains(ts[j])
  }

  /** Among separate rooms, a cell lies in at most one. */
  lemma RoomOfCell(rooms: seq<Rect>, k: nat, a: nat, p: Point)
    requires Separate(rooms) && k < |rooms| && a < |rooms|
    requires rooms[k].Contains(p) && rooms[a].Contains(p)
    ensures k == a
  {
    if k != a {
      OverlapIntersects(rooms[k], rooms[a], p);
    }
  }

  /** The `for _ in range(max_attempts)` loop, with `attempts` iterations left. */
  function PlaceRooms(r: Rng, width: int, height: int, p: Params, attempts: int, rooms: seq<Rect>): (res: (seq<Rect>, Rng))
    requires p.minSize <= p.maxSize
    requires forall k :: 0 <= k < |rooms| ==> Placed(rooms[k], p, width, height)
    requires Separate(rooms)
    ensures |rooms| <= |res.0| <= |rooms| + (if attempts < 0 then 0 else attempts)
    ensures |res.0| > |rooms| ==> |res.0| <= p.maxRooms
    ensures res.0[..|rooms|] == rooms
    ensures forall k :: 0 <= k < |res.0| ==> Placed(res.0[k], p, width, height)
    ensures Separate(res.0)
    decreases attempts
  {
    if attempts <= 0 || |rooms| >= p.maxRooms then (rooms, r)
    else
      var (w, r1) := RandInt(r, p.minSize, p.maxSize);
      var (h, r2) := RandInt(r1, p.minSize, p.maxSize);
      if w >= width - 2 || h >= height - 2 then
        PlaceRooms(r2, width, height, p, attempts - 1, rooms)
      else
        var (x, r3) := RandInt(r2, 1, Max(1, width - w - 1));
        var (y, r4) := RandInt(r3, 1, Max(1, height - h - 1));
        var room := Rect(x, y, w, h);
        if forall k | 0 <= k < |rooms| :: !room.Intersects(rooms[k]) then
          var more := rooms + [room];
          assert forall k :: 0 <= k < |rooms| ==> more[k] == rooms[k];
          assert Separate(more) by {
            forall k | 0 <= k < |rooms| ensures !rooms[k].Intersects(room) {
              IntersectsSymmetric(rooms[k], room);
            }
          }
          var res := PlaceRooms(r4, width, height, p, attempts - 1, more);
          assert res.0[..|rooms|] == res.0[..|more|][..|rooms|];
          res
        else
          PlaceRooms(r4, width, height, p, attempts - 1, rooms)
  }

  /** `_generate_rooms`. */
  function GenerateRooms(r: Rng, width: int, height: int, p: Params): (res: (seq<Rect>, Rng))
    requires p.minSize <= p.maxSize
    ensures |res.0| <= (if p.maxRooms < 0 then 0 else p.maxRooms)
    ensures |res.0| <= (if p.maxAttempts < 0 then 0 else p.maxAttempts)
    ensures forall k :: 0 <= k < |res.0| ==> Placed(res.0[k], p, width, height)
    ensures Separate(res.0)
  {
    PlaceRooms(r, width, height, p, p.maxAttempts, [])
  }

  /** A room inside the grid, clear of its outer ring. */
  ghost predicate InsideGrid(g: Grid, room: Rect) {
    && room.width >= 1 && room.height >= 1
    && 1 <= room.x && room.x + room.width <= Width(g) - 1
    && 1 <= room.y && room.y + room.height <= Height(g) - 1
  }

  lemma InsideGridCells(g: Grid, room: Rect)
    requires InsideGrid(g, room)
    ensures Interior(g, room.Center())
    ensures forall q :: room.Contains(q) ==> Interior(g, q) && InBounds(g, q)
  {
  }

  /** One room carved, then the rest: the facts of the rest extend to all of `rooms`. */
  lemma CarveRoomsStep(g: Grid, rooms: seq<Rect>, g1: Grid, g': Grid)
    requires Rectangular(g) && |rooms| > 0
    requires CarvedFrom(g, g1)
    requires forall q :: InBounds(g, q) && rooms[0].Contains(q) ==> At(g1, q) == FloorTile()
    requires forall q :: InBounds(g, q) && !rooms[0].Contains(q) ==> At(g1, q) == At(g, q)
    requires CarvedFrom(g1, g')
    requires forall k, q :: 0 <= k < |rooms[1..]| && InBounds(g1, q) && rooms[1..][k].Contains(q) ==> At(g', q) == FloorTile()
    requires (forall k :: 0 <= k < |rooms[1..]| ==> InsideGrid(g1, rooms[1..][k])) ==> BorderKept(g1, g')
    ensures CarvedFrom(g, g')
    ensures forall k, q :: 0 <= k < |rooms| && InBounds(g, q) && rooms[k].Contains(q) ==> At(g', q) == FloorTile()
    ensures (forall k :: 0 <= k < |rooms| ==> InsideGrid(g, rooms[k])) ==> BorderKept(g, g')
  {
    CarvedFromTrans(g, g1, g');
    assert forall k :: 1 <= k < |rooms| ==> rooms[k] == rooms[1..][k - 1];
    assert forall q :: InBounds(g, q) && rooms[0].Contains(q) ==> At(g', q) == FloorTile() by {
      forall q | InBounds(g, q) && rooms[0].Contains(q)
        ensures At(g', q) == FloorTile()
      {
        assert InBounds(g1, q);
      }
    }
    if forall k :: 0 <= k < |rooms| ==> InsideGrid(g, rooms[k]) {
      InsideGridCells(g, rooms[0]);
      assert BorderKept(g, g1);
      BorderKeptTrans(g, g1, g');
    }
  }

  /** The room-carving loops of `generate`. */
  function CarveRooms(g: Grid, rooms: seq<Rect>): (g': Grid)
    requires Rectangular(g)
    ensures CarvedFrom(g, g')
    ensures forall k, q :: 0 <= k < |rooms| && InBounds(g, q) && rooms[k].Contains(q) ==> At(g', q) == FloorTile()
    ensures (forall k :: 0 <= k < |rooms| ==> InsideGrid(g, rooms[k])) ==> BorderKept(g, g')
    decreases |rooms|
  {
    if |rooms| == 0 then g
    else
      var g1 := CarveRoom(g, rooms[0]);
      var g' := CarveRooms(g1, rooms[1..]);
      CarveRoomsStep(g, rooms, g1, g');
      g'
  }

  // ---------------------------------------------------------------------
  // Corridors.

  /** The two legs of an L-shaped corridor from `a` to `b`. */
  function CarveL(g: Grid, a: Point, b: Point, horizontalFirst: bool): (g': Grid)
    requires Rectangular(g)
    ensures CarvedFrom(g, g')
  {
    if horizontalFirst then
      var g1 := CarveHorizontal(g, a.x, b.x, a.y);
      var g2 := CarveVertical(g1, b.x, a.y, b.y);
      CarvedFromTrans(g, g1, g2);
      g2
    else
      var g1 := CarveVertical(g, a.x, a.y, b.y);
      var g2 := CarveHorizontal(g1, a.x, b.x, b.y);
      CarvedFromTrans(g, g1, g2);
      g2
  }

  lemma CarveLKeepsBorder(g: Grid, a: Point, b: Point, horizontalFirst: bool)
    requires Rectangular(g) && Interior(g, a) && Interior(g, b)
    ensures BorderKept(g, CarveL(g, a, b, horizontalFirst))
  {
    if horizontalFirst {
      var g1 := CarveHorizontal(g, a.x, b.x, a.y);
      HorizontalKeepsBorder(g, a.x, b.x, a.y);
      VerticalKeepsBorder(g1, b.x, a.y, b.y);
      BorderKeptTrans(g, g1, CarveVertical(g1, b.x, a.y, b.y));
    } else {
      var g1 := CarveVertical(g, a.x, a.y, b.y);
      VerticalKeepsBorder(g, a.x, a.y, b.y);
      HorizontalKeepsBorder(g1, a.x, b.x, b.y);
      BorderKeptTrans(g, g1, CarveHorizontal(g1, a.x, b.x, b.y));
    }
  }

  /** After a horizontal leg, its cells are walkable. */
  lemma RowLegWalkable(g: Grid, x1: int, x2: int, y: int)
    requires Rectangular(g) && Interior(g, Point(x1, y)) && Interior(g, Point(x2, y))
    ensures forall q: Point :: q.y == y && Min(x1, x2) <= q.x <= Max(x1, x2) ==> WalkableAt(CarveHorizontal(g, x1, x2, y), q)
  {
    var g' := CarveHorizontal(g, x1, x2, y);
    forall q: Point | q.y == y && Min(x1, x2) <= q.x <= Max(x1, x2)
      ensures WalkableAt(g', q)
    {
      assert InBounds(g, q);
    }
  }

  /** After a vertical leg, its cells are walkable. */
  lemma ColumnLegWalkable(g: Grid, x: int, y1: int, y2: int)
    requires Rectangular(g) && Interior(g, Point(x, y1)) && Interior(g, Point(x, y2))
    ensures forall q: Point :: q.x == x && Min(y1, y2) <= q.y <= Max(y1, y2) ==> WalkableAt(CarveVertical(g, x, y1, y2), q)
  {
    var g' := CarveVertical(g, x, y1, y2);
    forall q: Point | q.x == x && Min(y1, y2) <= q.y <= Max(y1, y2)
      ensures WalkableAt(g', q)
    {
      assert InBounds(g, q);
    }
  }

  lemma CarveLLinksHorizontalFirst(g: Grid, a: Point, b: Point)
    requires Rectangular(g) && Interior(g, a) && Interior(g, b)
    ensures Linked(CarveL(g, a, b, true), a, b)
  {
    var g1 := CarveHorizontal(g, a.x, b.x, a.y);
    var g2 := CarveVertical(g1, b.x, a.y, b.y);
    assert g2 == CarveL(g, a, b, true);
    RowLegWalkable(g, a.x, b.x, a.y);
    ColumnLegWalkable(g1, b.x, a.y, b.y);
    CarvedKeepsWalkable(g1, g2);
    RowLinked(g2, a.x, b.x, a.y);
    ColumnLinked(g2, b.x, a.y, b.y);
    LinkedJoin(g2, a, Point(b.x, a.y), b);
  }

  lemma CarveLLinksVerticalFirst(g: Grid, a: Point, b: Point)
    requires Rectangular(g) && Interior(g, a) && Interior(g, b)
    ensures Linked(CarveL(g, a, b, false), a, b)
  {
    var g1 := CarveVertical(g, a.x, a.y, b.y);
    var g2 := CarveHorizontal(g1, a.x, b.x, b.y);
    assert g2 == CarveL(g, a, b, false);
    ColumnLegWalkable(g, a.x, a.y, b.y);
    RowLegWalkable(g1, a.x, b.x, b.y);
    CarvedKeepsWalkable(g1, g2);
    ColumnLinked(g2, a.x, a.y, b.y);
    RowLinked(g2, a.x, b.x, b.y);
    LinkedJoin(g2, a, Point(a.x, b.y), b);
  }

  lemma CarveLLinks(g: Grid, a: Point, b: Point, horizontalFirst: bool)
    requires Rectangular(g) && Interior(g, a) && Interior(g, b)
    ensures Linked(CarveL(g, a, b, horizontalFirst), a, b)
  {
    if horizontalFirst {
      CarveLLinksHorizontalFirst(g, a, b);
    } else {
      CarveLLinksVerticalFirst(g, a, b);
    }
  }

  /** `_carve_corridor`: an L-shaped corridor between the rooms' centres; one draw picks its orientation. */
  function CarveCorridor(r: Rng, g: Grid, room1: Rect, room2: Rect): (res: (Grid, Rng))
    requires Rectangular(g)
    ensures CarvedFrom(g, res.0)
    ensures Advanced(r, res.1, 1)
    ensures Interior(g, room1.Center()) && Interior(g, room2.Center()) ==>
      BorderKept(g, res.0) && Linked(res.0, room1.Center(), room2.Center())
  {
    var (pick, r1) := RandBelow(r, 2);
    var a := room1.Center();
    var b := room2.Center();
    var g' := CarveL(g, a, b, pick == 0);
    assert Interior(g, a) && Interior(g, b) ==> BorderKept(g, g') && Linked(g', a, b) by {
      if Interior(g, a) && Interior(g, b) {
        CarveLKeepsBorder(g, a, b, pick == 0);
        CarveLLinks(g, a, b, pick == 0);
      }
    }
    (g', r1)
  }

  ghost predicate CentresInside(g: Grid, rooms: seq<Rect>) {
    forall k :: 0 <= k < |rooms| ==> Interior(g, rooms[k].Center())
  }

  lemma CentresKept(g: Grid, g': Grid, rooms: seq<Rect>)
    requires SameShape(g, g') && CentresInside(g, rooms)
    ensures CentresInside(g', rooms)
  {
    forall k | 0 <= k < |rooms|
      ensures Interior(g', rooms[k].Center())
    {
      assert Interior(g, rooms[k].Center());
    }
  }

  /** `for i in range(len(rooms) - 1)`: corridors between consecutive rooms from `i` on. */
  function ChainRooms(r: Rng, g: Grid, rooms: seq<Rect>, i: nat): (res: (Grid, Rng))
    requires Rectangular(g) && CentresInside(g, rooms)
    ensures CarvedFrom(g, res.0) && BorderKept(g, res.0)
    ensures forall k :: i <= k < |rooms| - 1 ==> Linked(res.0, rooms[k].Center(), rooms[k + 1].Center())
    decreases |rooms| - i
  {
    if i + 1 >= |rooms| then
      assert BorderKept(g, g);
      (g, r)
    else
      var (g1, r1) := CarveCorridor(r, g, rooms[i], rooms[i + 1]);
      CentresKept(g, g1, rooms);
      var (g2, r2) := ChainRooms(r1, g1, rooms, i + 1);
      ChainStep(g, g1, g2, rooms, i);
      (g2, r2)
  }

  lemma ChainStep(g: Grid, g1: Grid, g2: Grid, rooms: seq<Rect>, i: nat)
    requires i + 1 < |rooms| && CentresInside(g, rooms)
    requires CarvedFrom(g, g1) && BorderKept(g, g1) && Linked(g1, rooms[i].Center(), rooms[i + 1].Center())
    requires CarvedFrom(g1, g2) && BorderKept(g1, g2)
    requires forall k :: i + 1 <= k < |rooms| - 1 ==> Linked(g2, rooms[k].Center(), rooms[k + 1].Center())
    ensures CarvedFrom(g, g2) && BorderKept(g, g2)
    ensures forall k :: i <= k < |rooms| - 1 ==> Linked(g2, rooms[k].Center(), rooms[k + 1].Center())
  {
    CarvedFromTrans(g, g1, g2);
    BorderKeptTrans(g, g1, g2);
    CarvedKeepsWalkable(g1, g2);
    LinkedKept(g1, g2, rooms[i].Center(), rooms[i + 1].Center());
  }

  /** The extra-connections loop: each round picks two rooms and joins them when they differ. */
  function ExtraLinks(r: Rng, g: Grid, rooms: seq<Rect>, rounds: int): (res: (Grid, Rng))
    requires Rectangular(g) && CentresInside(g, rooms) && |rooms| >= 1
    ensures CarvedFrom(g, res.0) && BorderKept(g, res.0)
    decreases rounds
  {
    if rounds <= 0 then
      assert BorderKept(g, g);
      (g, r)
    else
      var (i, r1) := RandBelow(r, |rooms|);
      var (j, r2) := RandBelow(r1, |rooms|);
      if i != j then
        var (g1, r3) := CarveCorridor(r2, g, rooms[i], rooms[j]);
        CentresKept(g, g1, rooms);
        var (g2, r4) := ExtraLinks(r3, g1, rooms, rounds - 1);
        CarvedFromTrans(g, g1, g2);
        BorderKeptTrans(g, g1, g2);
        (g2, r4)
      else
        ExtraLinks(r2, g, rooms, rounds - 1)
  }

  /** `_connect_rooms`: every room is joined to the next one, the last to the first when there are three or more. */
  function ConnectRooms(r: Rng, g: Grid, rooms: seq<Rect>): (res: (Grid, Rng))
    requires Rectangular(g) && CentresInside(g, rooms)
    ensures CarvedFrom(g, res.0) && BorderKept(g, res.0)
    ensures forall k :: 0 <= k < |rooms| - 1 ==> Linked(res.0, rooms[k].Center(), rooms[k + 1].Center())
    ensures |rooms| > 2 ==> Linked(res.0, rooms[|rooms| - 1].Center(), rooms[0].Center())
  {
    if |rooms| < 2 then
      assert BorderKept(g, g);
      (g, r)
    else
      var (g1, r1) := ChainRooms(r, g, rooms, 0);
      CentresKept(g, g1, rooms);
      var (g2, r2) := if |rooms| > 2 then CarveCorridor(r1, g1, rooms[|rooms| - 1], rooms[0]) else (g1, r1);
      CentresKept(g1, g2, rooms);
      var (g3, r3) := ExtraLinks(r2, g2, rooms, |rooms| / 3);
      assert CarvedFrom(g1, g2) && BorderKept(g1, g2) by {
        if |rooms| <= 2 { assert BorderKept(g1, g1); }
      }
      CarvedFromTrans(g, g1, g2);
      CarvedFromTrans(g, g2, g3);
      BorderKeptTrans(g, g1, g2);
      BorderKeptTrans(g, g2, g3);
      CarvedKeepsWalkable(g1, g2);
      CarvedKeepsWalkable(g2, g3);
      WalkableKeptTrans(g1, g2, g3);
      assert forall k :: 0 <= k < |rooms| - 1 ==> Linked(g3, rooms[k].Center(), rooms[k + 1].Center()) by {
        forall k | 0 <= k < |rooms| - 1
          ensures Linked(g3, rooms[k].Center(), rooms[k + 1].Center())
        {
          LinkedKept(g1, g3, rooms[k].Center(), rooms[k + 1].Center());
        }
      }
      assert |rooms| > 2 ==> Linked(g3, rooms[|rooms| - 1].Center(), rooms[0].Center()) by {
        if |rooms| > 2 {
          LinkedKept(g2, g3, rooms[|rooms| - 1].Center(), rooms[0].Center());
        }
      }
      (g3, r3)
  }

  // ---------------------------------------------------------------------
  // Features.

  /** One random cell of each room, in order. */
  function PlaceTreasures(r: Rng, chosen: seq<Rect>): (res: (seq<Point>, Rng))
    requires forall k :: 0 <= k < |chosen| ==> chosen[k].width >= 1 && chosen[k].height >= 1
    ensures |res.0| == |chosen|
    ensures forall k :: 0 <= k < |chosen| ==> chosen[k].Contains(res.0[k])
    ensures Advanced(r, res.1, 2 * |chosen|)
    decreases |chosen|
  {
    if |chosen| == 0 then ([], r)
    else
      var room := chosen[0];
      var (x, r1) := RandInt(r, room.x, room.x + room.width - 1);
      var (y, r2) := RandInt(r1, room.y, room.y + room.height - 1);
      var (rest, r3) := PlaceTreasures(r2, chosen[1..]);
      assert forall k :: 1 <= k < |chosen| ==> chosen[k] == chosen[1..][k - 1];
      ([Point(x, y)] + rest, r3)
  }

  /** Tiles of a freshly carved map: walls and floors only. */
  ghost predicate WallsAndFloors(g: Grid) {
    Rectangular(g) && forall q :: InBounds(g, q) ==> At(g, q) == WallTile() || At(g, q) == FloorTile()
  }

  /** The stairs step of `_place_features`: a random cell of `last` becomes the down stairs. */
  function PlaceStairs(r: Rng, g: Grid, last: Rect): (res: (Point, Grid, Rng))
    requires Rectangular(g) && InsideGrid(g, last)
    ensures last.Contains(res.0) && InBounds(g, res.0)
    ensures SameShape(g, res.1) && WalkableKept(g, res.1) && BorderKept(g, res.1)
    ensures At(res.1, res.0) == StairsDownTile()
    ensures forall q :: InBounds(g, q) && q != res.0 ==> At(res.1, q) == At(g, q)
    ensures Advanced(r, res.2, 2)
  {
    var (sx, r1) := RandInt(r, last.x, last.x + last.width - 1);
    var (sy, r2) := RandInt(r1, last.y, last.y + last.height - 1);
    var stairs := Point(sx, sy);
    InsideGridCells(g, last);
    var g' := SetTile(g, stairs, StairsDownTile());
    assert WalkableKept(g, g') by {
      forall q | WalkableAt(g, q) ensures WalkableAt(g', q) {
        assert InBounds(g', q);
      }
    }
    (stairs, g', r2)
  }

  lemma ChosenNonEmpty(g: Grid, rooms: seq<Rect>, chosen: seq<Rect>)
    requires forall k :: 0 <= k < |rooms| ==> InsideGrid(g, rooms[k])
    requires forall c :: c in chosen ==> c in rooms
    ensures forall k :: 0 <= k < |chosen| ==> chosen[k].width >= 1 && chosen[k].height >= 1
  {
    forall k | 0 <= k < |chosen| ensures chosen[k].width >= 1 && chosen[k].height >= 1 {
      assert chosen[k] in rooms;
      var j :| 0 <= j < |rooms| && rooms[j] == chosen[k];
      assert InsideGrid(g, rooms[j]);
    }
  }

  /** `_place_features`: stairs at a random cell of the last room, treasure spots in up to three distinct rooms. */
  function PlaceFeatures(r: Rng, g: Grid, rooms: seq<Rect>): (res: (Placements, Grid, Rng))
    requires Rectangular(g)
    requires forall k :: 0 <= k < |rooms| ==> InsideGrid(g, rooms[k])
    ensures SameShape(g, res.1) && WalkableKept(g, res.1) && BorderKept(g, res.1)
    ensures res.0.springs == [] && res.0.magicCircles == []
    ensures |rooms| == 0 ==> res.0.stairsDown == [] && res.0.treasures == [] && res.1 == g
    ensures |rooms| > 0 ==>
      && |res.0.stairsDown| == 1
      && rooms[|rooms| - 1].Contains(res.0.stairsDown[0])
      && InBounds(res.1, res.0.stairsDown[0])
      && At(res.1, res.0.stairsDown[0]) == StairsDownTile()
      && (forall q :: InBounds(g, q) && q != res.0.stairsDown[0] ==> At(res.1, q) == At(g, q))
    ensures |res.0.treasures| == Min(3, |rooms|)
    ensures forall t :: t in res.0.treasures ==> exists k :: 0 <= k < |rooms| && rooms[k].Contains(t)
    ensures Separate(rooms) ==> Distinct(res.0.treasures) && OnePerRoom(rooms, res.0.treasures)
  {
    if |rooms| == 0 then
      assert BorderKept(g, g);
      (Placements([], [], [], []), g, r)
    else
      assert InsideGrid(g, rooms[|rooms| - 1]);
      var (stairs, g', r1) := PlaceStairs(r, g, rooms[|rooms| - 1]);
      var (chosen, r2) := Sample(r1, rooms, Min(3, |rooms|));
      ChosenNonEmpty(g, rooms, chosen);
      var (treasures, r3) := PlaceTreasures(r2, chosen);
      TreasuresInRooms(rooms, chosen, treasures);
      assert forall q :: InBounds(g, q) && q != stairs ==> At(g', q) == At(g, q);
      (Placements([stairs], treasures, [], []), g', r3)
  }

  lemma TreasuresInRooms(rooms: seq<Rect>, chosen: seq<Rect>, treasures: seq<Point>)
    requires forall k :: 0 <= k < |rooms| ==> rooms[k].width >= 1 && rooms[k].height >= 1
    requires forall c :: c in chosen ==> c in rooms
    requires Distinct(rooms) ==> Distinct(chosen)
    requires |treasures| == |chosen|
    requires forall k :: 0 <= k < |chosen| ==> chosen[k].Contains(treasures[k])
    ensures forall t :: t in treasures ==> exists k :: 0 <= k < |rooms| && rooms[k].Contains(t)
    ensures Separate(rooms) ==> Distinct(treasures) && OnePerRoom(rooms, treasures)
  {
    forall t | t in treasures
      ensures exists k :: 0 <= k < |rooms| && rooms[k].Contains(t)
    {
      var i :| 0 <= i < |treasures| && treasures[i] == t;
      assert chosen[i] in rooms;
      var k :| 0 <= k < |rooms| && rooms[k] == chosen[i];
    }
    if Separate(rooms) {
      assert Distinct(rooms) by {
        forall i, j | 0 <= i < j < |rooms|
          ensures rooms[i] != rooms[j]
        {
          IntersectsSelf(rooms[i]);
        }
      }
      forall i, j | 0 <= i < j < |treasures|
        ensures treasures[i] != treasures[j]
      {
        assert chosen[i] in rooms && chosen[j] in rooms;
        var a :| 0 <= a < |rooms| && rooms[a] == chosen[i];
        var b :| 0 <= b < |rooms| && rooms[b] == chosen[j];
        assert a != b;
        if treasures[i] == treasures[j] {
          OverlapIntersects(rooms[a], rooms[b], treasures[i]);
        }
      }
      forall i, j, k | 0 <= i < j < |treasures| && 0 <= k < |rooms| && rooms[k].Contains(treasures[i])
        ensures !rooms[k].Contains(treasures[j])
      {
        assert chosen[i] in rooms && chosen[j] in rooms;
        var a :| 0 <= a < |rooms| && rooms[a] == chosen[i];
        var b :| 0 <= b < |rooms| && rooms[b] == chosen[j];
        assert a != b;
        RoomOfCell(rooms, k, a, treasures[i]);
        if rooms[k].Contains(treasures[j]) {
          RoomOfCell(rooms, k, b, treasures[j]);
        }
      }
    }
  }

  // ---------------------------------------------------------------------
  // The whole generator.

  lemma PlacedInside(g: Grid, rooms: seq<Rect>, p: Params, width: nat, height: nat)
    requires Rectangular(g) && Height(g) == height && (height > 0 ==> Width(g) == width)
    requires p.minSize >= 1
    requires forall k :: 0 <= k < |rooms| ==> Placed(rooms[k], p, width, height)
    ensures forall k :: 0 <= k < |rooms| ==> InsideGrid(g, rooms[k])
  {
  }

  lemma InsideKept(g: Grid, g': Grid, rooms: seq<Rect>)
    requires SameShape(g, g')
    requires forall k :: 0 <= k < |rooms| ==> InsideGrid(g, rooms[k])
    ensures forall k :: 0 <= k < |rooms| ==> InsideGrid(g', rooms[k])
    ensures CentresInside(g', rooms)
  {
    forall k | 0 <= k < |rooms|
      ensures InsideGrid(g', rooms[k]) && Interior(g', rooms[k].Center())
    {
      InsideGridCells(g, rooms[k]);
    }
  }

  lemma CarvedKeepsWallsAndFloors(g: Grid, g': Grid)
    requires WallsAndFloors(g) && CarvedFrom(g, g')
    ensures WallsAndFloors(g')
  {
    forall q | InBounds(g', q)
      ensures At(g', q) == WallTile() || At(g', q) == FloorTile()
    {
      assert InBounds(g, q);
    }
  }

  /** Every cell of every room is walkable. */
  ghost predicate RoomsOpen(g: Grid, rooms: seq<Rect>)
    requires Rectangular(g)
  {
    forall k, q :: 0 <= k < |rooms| && rooms[k].Contains(q) ==> WalkableAt(g, q)
  }

  lemma RoomsOpenKept(g: Grid, g': Grid, rooms: seq<Rect>)
    requires Rectangular(g) && RoomsOpen(g, rooms) && WalkableKept(g, g')
    ensures RoomsOpen(g', rooms)
  {
  }

  /** The outer ring of the map is wall. */
  ghost predicate Enclosed(g: Grid)
    requires Rectangular(g)
  {
    forall q :: InBounds(g, q) && !Interior(g, q) ==> At(g, q) == WallTile()
  }

  /** The promises of `generate` about the dungeon `d` built for these parameters. */
  ghost predicate WellBuilt(d: Dungeon, p: Params, width: nat, height: nat) {
    && Rectangular(d.grid) && Height(d.grid) == height && (height > 0 ==> Width(d.grid) == width)
    && |d.rooms| <= (if p.maxRooms < 0 then 0 else p.maxRooms)
    && (forall k :: 0 <= k < |d.rooms| ==> Placed(d.rooms[k], p, width, height))
    && Separate(d.rooms)
    && RoomsOpen(d.grid, d.rooms)
    && Enclosed(d.grid)
    && (forall k :: 0 <= k < |d.rooms| - 1 ==> Linked(d.grid, d.rooms[k].Center(), d.rooms[k + 1].Center()))
    && (forall q :: InBounds(d.grid, q) ==>
          At(d.grid, q) == WallTile() || At(d.grid, q) == FloorTile() || At(d.grid, q) == StairsDownTile())
    && (forall q :: InBounds(d.grid, q) && At(d.grid, q).tileType == StairsDown ==> q in d.placements.stairsDown)
    && (|d.rooms| == 0 ==> d.placements.stairsDown == [])
    && (|d.rooms| > 0 ==>
          |d.placements.stairsDown| == 1 && d.rooms[|d.rooms| - 1].Contains(d.placements.stairsDown[0]) &&
          InBounds(d.grid, d.placements.stairsDown[0]) && At(d.grid, d.placements.stairsDown[0]) == StairsDownTile())
    && |d.placements.treasures| == Min(3, |d.rooms|)
    && (forall t :: t in d.placements.treasures ==> exists k :: 0 <= k < |d.rooms| && d.rooms[k].Contains(t))
    && Distinct(d.placements.treasures)
    && OnePerRoom(d.rooms, d.placements.treasures)
    && d.placements.springs == [] && d.placements.magicCircles == []
  }

  /** The map once the rooms are carved and joined, before any feature is placed. */
  ghost predicate Laid(g: Grid, rooms: seq<Rect>, p: Params, width: nat, height: nat) {
    && Rectangular(g) && Height(g) == height && (height > 0 ==> Width(g) == width)
    && |rooms| <= (if p.maxRooms < 0 then 0 else p.maxRooms)
    && (forall k :: 0 <= k < |rooms| ==> Placed(rooms[k], p, width, height))
    && Separate(rooms)
    && (forall k :: 0 <= k < |rooms| ==> InsideGrid(g, rooms[k]))
    && RoomsOpen(g, rooms)
    && Enclosed(g)
    && WallsAndFloors(g)
    && (forall k :: 0 <= k < |rooms| - 1 ==> Linked(g, rooms[k].Center(), rooms[k + 1].Center()))
  }

  /**
    The first steps of `generate`: rooms are placed, carved out of solid
    wall and joined by corridors.
  */
  function LayOut(r: Rng, width: nat, height: nat, p: Params): (res: (seq<Rect>, Grid, Rng))
    requires 1 <= p.minSize <= p.maxSize
    ensures Laid(res.1, res.0, p, width, height)
  {
    var g0 := AllWalls(width, height);
    var (rooms, r1) := GenerateRooms(r, width, height, p);
    PlacedInside(g0, rooms, p, width, height);
    var g1 := CarveRooms(g0, rooms);
    InsideKept(g0, g1, rooms);
    var (g2, r2) := ConnectRooms(r1, g1, rooms);
    InsideKept(g1, g2, rooms);
    CarvedFacts(g0, g1, g2, rooms);
    (rooms, g2, r2)
  }

  /**
    `generate(width, height, params)`. The map is `height` rows of `width`
    tiles, walled all round; the rooms keep to the size bounds, to the
    interior and apart from one another, and are all floor; consecutive rooms
    are joined on foot; the only stairs tile is the one recorded, inside the
    last room; treasure spots fall in `min(3, len(rooms))` distinct rooms.
  */
  function Generate(r: Rng, width: nat, height: nat, p: Params): (res: (Dungeon, Rng))
    requires 1 <= p.minSize <= p.maxSize
    ensures WellBuilt(res.0, p, width, height)
  {
    var (rooms, g, r1) := LayOut(r, width, height, p);
    FurnishedWell(r1, g, rooms, p, width, height);
    var (placements, g', r2) := PlaceFeatures(r1, g, rooms);
    (Dungeon(g', rooms, placements), r2)
  }

  lemma LinksKept(g: Grid, g': Grid, rooms: seq<Rect>)
    requires WalkableKept(g, g')
    requires forall k :: 0 <= k < |rooms| - 1 ==> Linked(g, rooms[k].Center(), rooms[k + 1].Center())
    ensures forall k :: 0 <= k < |rooms| - 1 ==> Linked(g', rooms[k].Center(), rooms[k + 1].Center())
  {
    forall k | 0 <= k < |rooms| - 1
      ensures Linked(g', rooms[k].Center(), rooms[k + 1].Center())
    {
      LinkedKept(g, g', rooms[k].Center(), rooms[k + 1].Center());
    }
  }

  /** Placing the features on a laid-out map gives a dungeon with every promise of `generate`. */
  lemma FurnishedWell(r: Rng, g: Grid, rooms: seq<Rect>, p: Params, width: nat, height: nat)
    requires Laid(g, rooms, p, width, height)
    ensures var (pl, g', _) := PlaceFeatures(r, g, rooms); WellBuilt(Dungeon(g', rooms, pl), p, width, height)
  {
    var (pl, g', _) := PlaceFeatures(r, g, rooms);
    RoomsOpenKept(g, g', rooms);
    LinksKept(g, g', rooms);
    forall q | InBounds(g', q)
      ensures At(g', q) == WallTile() || At(g', q) == FloorTile() || At(g', q) == StairsDownTile()
      ensures At(g', q).tileType == StairsDown ==> q in pl.stairsDown
      ensures !Interior(g', q) ==> At(g', q) == WallTile()
    {
      assert InBounds(g, q);
    }
  }

  /** The carved and joined map is walled all round, all wall or floor, and open in every room. */
  lemma CarvedFacts(g0: Grid, g1: Grid, g2: Grid, rooms: seq<Rect>)
    requires Rectangular(g0) && (forall q :: InBounds(g0, q) ==> At(g0, q) == WallTile())
    requires forall k :: 0 <= k < |rooms| ==> InsideGrid(g0, rooms[k])
    requires CarvedFrom(g0, g1) && BorderKept(g0, g1)
    requires forall k, q :: 0 <= k < |rooms| && InBounds(g0, q) && rooms[k].Contains(q) ==> At(g1, q) == FloorTile()
    requires CarvedFrom(g1, g2) && BorderKept(g1, g2)
    ensures SameShape(g0, g2) && RoomsOpen(g2, rooms) && Enclosed(g2) && WallsAndFloors(g2)
  {
    assert WallsAndFloors(g0);
    CarvedKeepsWallsAndFloors(g0, g1);
    CarvedKeepsWallsAndFloors(g1, g2);
    assert RoomsOpen(g1, rooms) by {
      forall k, q | 0 <= k < |rooms| && rooms[k].Contains(q)
        ensures WalkableAt(g1, q)
      {
        InsideGridCells(g0, rooms[k]);
      }
    }
    CarvedKeepsWalkable(g1, g2);
    RoomsOpenKept(g1, g2, rooms);
    BorderKeptTrans(g0, g1, g2);
    forall q | InBounds(g2, q) && !Interior(g2, q)
      ensures At(g2, q) == WallTile()
    {
      assert InBounds(g0, q);
    }
  }

  /** A room that is all floor links any two of its cells. */
  lemma InsideRoomLinked(g: Grid, room: Rect, a: Point, b: Point)
    requires Rectangular(g)
    requires forall q :: room.Contains(q) ==> WalkableAt(g, q)
    requires room.Contains(a) && room.Contains(b)
    ensures Linked(g, a, b)
  {
    RowLinked(g, a.x, b.x, a.y);
    ColumnLinked(g, b.x, a.y, b.y);
    LinkedJoin(g, a, Point(b.x, a.y), b);
  }

  /** Every room centre, and the stairs, can be reached on foot from the centre of the first room. */
  lemma GeneratedDungeonConnected(r: Rng, width: nat, height: nat, p: Params)
    requires 1 <= p.minSize <= p.maxSize
    ensures var d := Generate(r, width, height, p).0;
      && (forall k :: 0 <= k < |d.rooms| ==> Linked(d.grid, d.rooms[0].Center(), d.rooms[k].Center()))
      && (|d.rooms| > 0 ==> Linked(d.grid, d.rooms[0].Center(), d.placements.stairsDown[0]))
  {
    var d := Generate(r, width, height, p).0;
    if |d.rooms| > 0 {
      ChainLinked(d.grid, d.rooms, p, width, height, |d.rooms| - 1);
      forall k | 0 <= k < |d.rooms|
        ensures Linked(d.grid, d.rooms[0].Center(), d.rooms[k].Center())
      {
        ChainLinked(d.grid, d.rooms, p, width, height, k);
      }
      var last := d.rooms[|d.rooms| - 1];
      assert Placed(last, p, width, height);
      InsideRoomLinked(d.grid, last, last.Center(), d.placements.stairsDown[0]);
      LinkedJoin(d.grid, d.rooms[0].Center(), last.Center(), d.placements.stairsDown[0]);
    }
  }

  lemma {:induction false} ChainLinked(g: Grid, rooms: seq<Rect>, p: Params, width: nat, height: nat, k: nat)
    requires Rectangular(g) && k < |rooms| && p.minSize >= 1
    requires forall j :: 0 <= j < |rooms| ==> Placed(rooms[j], p, width, height)
    requires RoomsOpen(g, rooms)
    requires forall j :: 0 <= j < |rooms| - 1 ==> Linked(g, rooms[j].Center(), rooms[j + 1].Center())
    ensures Linked(g, rooms[0].Center(), rooms[k].Center())
  {
    if k == 0 {
      assert Placed(rooms[0], p, width, height);
      LinkedSelf(g, rooms[0].Center());
    } else {
      ChainLinked(g, rooms, p, width, height, k - 1);
      LinkedJoin(g, rooms[0].Center(), rooms[k - 1].Center(), rooms[k].Center());
    }
  }
}

=== FILE: geometry.dfy ===
/** Points, directions and rectangles (core/types.py). */
module Geometry {

  /** Python's `Point = Tuple[int, int]`, as (x, y). */
  datatype Point = Point(x: int, y: int)

  function Abs(n: int): nat {
    if n < 0 then -n else n
  }

  function Manhattan(a: Point, b: Point): nat {
    Abs(a.x - b.x) + Abs(a.y - b.y)
  }

  function Chebyshev(a: Point, b: Point): nat {
    var dx := Abs(a.x - b.x);
    var dy := Abs(a.y - b.y);
    if dx >= dy then dx else dy
  }

  /** One 4-way step (no diagonals) separates `a` and `b`. */
  predicate Adjacent4(a: Point, b: Point) {
    Manhattan(a, b) == 1
  }

  function Translate(p: Point, d: Point): Point {
    Point(p.x + d.x, p.y + d.y)
  }

  /** The four movement directions of the `Direction` enum. */
  datatype Direction = Up | Down | Left | Right

  /** The (dx, dy) value of each `Direction` member. */
  function Delta(d: Direction): (v: Point)
    ensures Abs(v.x) + Abs(v.y) == 1
    ensures d == Up || d == Down <==> v.x == 0
    ensures d == Down || d == Right <==> v.x + v.y == 1
  {
    match d
    case Up => Point(0, -1)
    case Down => Point(0, 1)
    case Left => Point(-1, 0)
    case Right => Point(1, 0)
  }

  /** Stepping in any direction lands on a 4-neighbour, and the four directions reach four distinct cells. */
  lemma DirectionStepsAreNeighbours(p: Point)
    ensures forall d :: Adjacent4(p, Translate(p, Delta(d)))
    ensures forall d, e :: d != e ==> Translate(p, Delta(d)) != Translate(p, Delta(e))
  {
  }

  /** An axis-aligned room `Rect(x, y, width, height)`. */
  datatype Rect = Rect(x: int, y: int, width: int, height: int) {

    /** `x + width // 2`: the floor of the horizontal midpoint offset. */
    function CenterX(): (c: int)
      ensures 2 * (c - x) <= width < 2 * (c - x) + 2
    {
      x + width / 2
    }

    /** `y + height // 2`: the floor of the vertical midpoint offset. */
    function CenterY(): (c: int)
      ensures 2 * (c - y) <= height < 2 * (c - y) + 2
    {
      y + height / 2
    }

    function Center(): Point {
      Point(CenterX(), CenterY())
    }

    /** The cell `p` is one of the rectangle's own cells. */
    predicate Contains(p: Point) {
      x <= p.x < x + width && y <= p.y < y + height
    }

    /**
      The intersection test with a one-cell buffer used by the dungeon
      generator: rectangles "intersect" unless a gap of at least two cells
      separates them on some axis.
    */
    predicate Intersects(other: Rect) {
      !(x + width + 1 < other.x ||
        other.x + other.width + 1 < x ||
        y + height + 1 < other.y ||
        other.y + other.height + 1 < y)
    }
  }

  lemma IntersectsSymmetric(a: Rect, b: Rect)
    ensures a.Intersects(b) <==> b.Intersects(a)
  {
  }

  lemma IntersectsSelf(a: Rect)
    requires a.width >= 0 && a.height >= 0
    ensures a.Intersects(a)
  {
  }

  /** Two rectangles sharing a cell intersect. */
  lemma OverlapIntersects(a: Rect, b: Rect, p: Point)
    requires a.Contains(p) && b.Contains(p)
    ensures a.Intersects(b)
  {
  }

  /**
    Rectangles that do not intersect leave at least two free columns or two
    free rows between them: no cell within distance 2 of one lies in the other
    on the separating axis.
  */
  lemma NonIntersectingAreSeparated(a: Rect, b: Rect)
    requires !a.Intersects(b)
    ensures a.x + a.width + 2 <= b.x || b.x + b.width + 2 <= a.x ||
            a.y + a.height + 2 <= b.y || b.y + b.height + 2 <= a.y
  {
  }

  /** Cells of non-intersecting rectangles are never 8-adjacent or shared. */
  lemma NonIntersectingCellsApart(a: Rect, b: Rect, p: Point, q: Point)
    requires !a.Intersects(b) && a.Contains(p) && b.Contains(q)
    ensures Chebyshev(p, q) >= 3
  {
  }
}

=== FILE: hud.dfy ===
/**
  The HUD's damage-flash timer (ui/hud.py, `update` only): a drop in the
  player's hp since the last update restarts a 1.5 s flash showing the amount
  lost, and the flash runs down with elapsed game time, never below zero.
*/
module Hud {
  import opened Wrappers
  import opened Components
  import opened Ecs

  /** How long the flash lasts, in milliseconds. */
  const FlashMs: real := 1500.0

  datatype HudState = HudState(lastHp: Option<int>, flashRemainingMs: real, damageAmount: int)

  /** A fresh HUD: no hp seen yet, no flash. */
  function NewHud(): (h: HudState)
    ensures h.lastHp.None? && h.flashRemainingMs == 0.0 && h.damageAmount == 0
  {
    HudState(None, 0.0, 0)
  }

  /** `max(0.0, flash - elapsed)`, applied only while the flash is running. */
  function RunDown(flash: real, elapsedMs: real): (f: real)
    ensures flash > 0.0 && flash - elapsedMs > 0.0 ==> f == flash - elapsedMs
    ensures flash > 0.0 && flash - elapsedMs <= 0.0 ==> f == 0.0
    ensures flash <= 0.0 ==> f == flash
    ensures elapsedMs <= 0.0 ==> f >= flash
    ensures elapsedMs >= 0.0 ==> f <= flash
  {
    if flash > 0.0 then (if flash - elapsedMs > 0.0 then flash - elapsedMs else 0.0) else flash
  }

  /** `update`: without player Health nothing changes; otherwise detect damage, remember hp, run the flash down. */
  function Update(h: HudState, elapsedMs: real, w: World, player: Eid): (h': HudState)
    requires Wf(w)
    ensures GetHealth(w, player).None? ==> h' == h
    ensures GetHealth(w, player).Some? ==> h'.lastHp == Some(GetHealth(w, player).value.hp)
    ensures GetHealth(w, player).Some? && h.lastHp.Some? && GetHealth(w, player).value.hp < h.lastHp.value ==>
      h'.damageAmount == h.lastHp.value - GetHealth(w, player).value.hp && h'.damageAmount > 0
      && h'.flashRemainingMs == RunDown(FlashMs, elapsedMs)
    ensures GetHealth(w, player).Some? && !(h.lastHp.Some? && GetHealth(w, player).value.hp < h.lastHp.value) ==>
      h'.damageAmount == h.damageAmount && h'.flashRemainingMs == RunDown(h.flashRemainingMs, elapsedMs)
  {
    match GetHealth(w, player)
    case None => h
    case Some(health) =>
      var hurt := h.lastHp.Some? && health.hp < h.lastHp.value;
      var amount := if hurt then h.lastHp.value - health.hp else h.damageAmount;
      var flash := if hurt then FlashMs else h.flashRemainingMs;
      HudState(Some(health.hp), RunDown(flash, elapsedMs), amount)
  }

  /** The flash stays within [0, 1500] when elapsed time is not negative. */
  lemma FlashStaysInRange(h: HudState, elapsedMs: real, w: World, player: Eid)
    requires Wf(w) && elapsedMs >= 0.0 && 0.0 <= h.flashRemainingMs <= FlashMs
    ensures 0.0 <= Update(h, elapsedMs, w, player).flashRemainingMs <= FlashMs
  {
  }

  /** With time frozen the flash never fades; it can only restart. */
  lemma FrozenFlashNeverFades(h: HudState, w: World, player: Eid)
    requires Wf(w)
    ensures Update(h, 0.0, w, player).flashRemainingMs >= h.flashRemainingMs
      || Update(h, 0.0, w, player).flashRemainingMs == FlashMs
  {
  }

  /** A second update with no new damage only runs the flash further down. */
  lemma NoNewDamageOnlyFades(h: HudState, a: real, b: real, w: World, player: Eid)
    requires Wf(w) && a >= 0.0 && b >= 0.0
    ensures var h1 := Update(h, a, w, player);
      var h2 := Update(h1, b, w, player);
      h2.flashRemainingMs <= h1.flashRemainingMs && h2.damageAmount == h1.damageAmount
  {
  }
}

=== FILE: input.dfy ===
/**
  Keybind lookup (core/input.py): a key maps to the first action whose key
  list contains it, and the four movement actions map to their `Direction`.
  The keybind table is a parameter: loading it from `config/keybinds.toml` is
  I/O, and only the built-in fallback table is a constant here.
*/
module InputHandler {
  import opened Wrappers
  import opened Geometry

  /** The keybind dict as its items in insertion order: (action, keys). */
  type Keybinds = seq<(string, seq<string>)>

  /** `get_action`: the first action, in dict order, whose key list holds `key`. */
  function GetAction(kb: Keybinds, key: string): (r: Option<string>)
    ensures r.None? <==> forall i :: 0 <= i < |kb| ==> key !in kb[i].1
    ensures r.Some? ==> exists i :: 0 <= i < |kb| && kb[i].0 == r.value && key in kb[i].1
  {
    if |kb| == 0 then None
    else if key in kb[0].1 then Some(kb[0].0)
    else
      var r := GetAction(kb[1..], key);
      assert forall i :: 1 <= i < |kb| ==> kb[i] == kb[1..][i - 1];
      r
  }

  /** The action of the first binding of `key` is the one returned. */
  lemma {:induction false} GetActionIsFirst(kb: Keybinds, key: string, i: nat)
    requires i < |kb| && key in kb[i].1
    requires forall j :: 0 <= j < i ==> key !in kb[j].1
    ensures GetAction(kb, key) == Some(kb[i].0)
    decreases i
  {
    if i > 0 {
      assert key !in kb[0].1;
      GetActionIsFirst(kb[1..], key, i - 1);
    }
  }

  /**
    The table used when `config/keybinds.toml` is missing: it binds each of
    the ten actions, in that order, to at least one key.
  */
  function DefaultKeybinds(): (kb: Keybinds)
    ensures |kb| == |Actions()|
    ensures forall i :: 0 <= i < |kb| ==> kb[i].0 == Actions()[i] && |kb[i].1| >= 1
  {
    [ ("up", ["w", "up"]),
      ("down", ["s", "down"]),
      ("left", ["a", "left"]),
      ("right", ["d", "right"]),
      ("wait", ["space"]),
      ("inventory", ["i"]),
      ("spellbook", ["c"]),
      ("descend", ["period"]),
      ("restart", ["r"]),
      ("pause", ["escape"]) ]
  }

  /** The ten actions the game knows. */
  function Actions(): seq<string> {
    ["up", "down", "left", "right", "wait", "inventory", "spellbook", "descend", "restart", "pause"]
  }

  /**
    No key is bound twice in the fallback table, so every bound key leads
    back to its own action.
  */
  lemma DefaultBindsEveryAction()
    ensures forall i, k :: 0 <= i < 10 && k in DefaultKeybinds()[i].1 ==> GetAction(DefaultKeybinds(), k) == Some(Actions()[i])
  {
    var kb := DefaultKeybinds();
    forall i, k | 0 <= i < 10 && k in kb[i].1 ensures GetAction(kb, k) == Some(Actions()[i]) {
      forall j | 0 <= j < i ensures k !in kb[j].1 {
        assert kb[j].1[0] != k;
        if |kb[j].1| > 1 {
          assert kb[j].1[1] != k;
        }
      }
      GetActionIsFirst(kb, k, i);
    }
  }

  /** `get_direction`: the four movement actions and nothing else. */
  function GetDirection(action: string): (r: Option<Direction>)
    ensures r.Some? <==> action in {"up", "down", "left", "right"}
  {
    if action == "up" then Some(Up)
    else if action == "down" then Some(Down)
    else if action == "left" then Some(Left)
    else if action == "right" then Some(Right)
    else None
  }

  /** The action that names each direction. */
  function DirectionAction(d: Direction): string {
    match d
    case Up => "up"
    case Down => "down"
    case Left => "left"
    case Right => "right"
  }

  /** `get_direction` is the inverse of naming a direction. */
  lemma GetDirectionInvertsNaming(action: string, d: Direction)
    ensures GetDirection(action) == Some(d) <==> action == DirectionAction(d)
  {
  }
}

=== FILE: input_system.dfy ===
/**
  Player input to events (gameplay/ecs/systems/input_system.py): an action
  name, and for movement a direction, becomes at most one posted event.
*/
module InputSystem {
  import opened Wrappers
  import opened Geometry
  import opened Components
  import opened Events
  import opened Ecs
  import InputHandler

  /** The action names the movement branch accepts. */
  predicate MoveAction(action: string) {
    action in {"up", "down", "left", "right"}
  }

  /** `_handle_movement`: request the cell one step from the player, if it has a Position. */
  function HandleMovement(w: World, player: Eid, d: Direction): (w': World)
    requires Wf(w)
    ensures w'.tables == w.tables && w'.live == w.live && w'.nextId == w.nextId
    ensures GetPosition(w, player).None? ==> w' == w
    ensures GetPosition(w, player).Some? ==>
      |w'.queue| == |w.queue| + 1 && w'.queue[..|w.queue|] == w.queue
      && w'.queue[|w.queue|].MoveRequested? && w'.queue[|w.queue|].eid == player
      && Adjacent4(GetPosition(w, player).value.Xy(), w'.queue[|w.queue|].toXy)
  {
    match GetPosition(w, player)
    case None => w
    case Some(p) =>
      DirectionStepsAreNeighbours(p.Xy());
      Post(w, MoveRequested(player, Translate(p.Xy(), Delta(d))))
  }

  /** `_handle_descend`: ask to descend at the player's cell, if it has a Position. */
  function HandleDescend(w: World, player: Eid): (w': World)
    requires Wf(w)
    ensures w'.tables == w.tables && w'.live == w.live && w'.nextId == w.nextId
    ensures GetPosition(w, player).None? ==> w' == w
    ensures GetPosition(w, player).Some? ==>
      w'.queue == w.queue + [DescendRequested(player, GetPosition(w, player).value.Xy())]
  {
    match GetPosition(w, player)
    case None => w
    case Some(p) => Post(w, DescendRequested(player, p.Xy()))
  }

  /** `handle_action`: the branch is chosen by the action name; unknown names do nothing. */
  function HandleAction(w: World, player: Eid, action: string, direction: Option<Direction>): (w': World)
    requires Wf(w)
    ensures w'.tables == w.tables && w'.live == w.live && w'.nextId == w.nextId
    ensures |w.queue| <= |w'.queue| <= |w.queue| + 1 && w'.queue[..|w.queue|] == w.queue
    ensures !(MoveAction(action) && direction.Some?) && action !in {"wait", "descend", "inventory", "spellbook"} ==> w' == w
    ensures |w'.queue| > |w.queue| ==> !w'.queue[|w.queue|].AttackRequested?
  {
    if MoveAction(action) && direction.Some? then HandleMovement(w, player, direction.value)
    else if action == "wait" then Post(w, Message("You wait."))
    else if action == "descend" then HandleDescend(w, player)
    else if action == "inventory" then Post(w, Message("Inventory not implemented yet"))
    else if action == "spellbook" then Post(w, Message("Spellbook not implemented yet"))
    else w
  }

  /**
    A movement key, through `get_direction`, requests exactly the player's
    neighbour in the key's direction, or nothing without a Position.
  */
  lemma MovementKeyRequestsNeighbour(w: World, player: Eid, d: Direction)
    requires Wf(w)
    ensures var w' := HandleAction(w, player, InputHandler.DirectionAction(d), InputHandler.GetDirection(InputHandler.DirectionAction(d)));
      && (GetPosition(w, player).None? ==> w' == w)
      && (GetPosition(w, player).Some? ==>
            w'.queue == w.queue + [MoveRequested(player, Translate(GetPosition(w, player).value.Xy(), Delta(d)))])
  {
    InputHandler.GetDirectionInvertsNaming(InputHandler.DirectionAction(d), d);
  }

  /** A non-movement action never requests a move, whatever direction comes with it. */
  lemma OnlyMovementActionsMove(w: World, player: Eid, action: string, direction: Option<Direction>)
    requires Wf(w) && !MoveAction(action)
    ensures var w' := HandleAction(w, player, action, direction);
      forall i :: |w.queue| <= i < |w'.queue| ==> !w'.queue[i].MoveRequested?
  {
  }

  /** "wait", "inventory" and "spellbook" only post one message, and "descend" only its request. */
  lemma OtherActionsOnlyAnnounce(w: World, player: Eid, action: string, direction: Option<Direction>)
    requires Wf(w) && action in {"wait", "inventory", "spellbook", "descend"}
    ensures var w' := HandleAction(w, player, action, direction);
      && w'.tables == w.tables
      && (action != "descend" ==> |w'.queue| == |w.queue| + 1 && w'.queue[|w.queue|].Message?)
      && (action == "descend" && GetPosition(w, player).Some? ==>
            w'.queue == w.queue + [DescendRequested(player, GetPosition(w, player).value.Xy())])
  {
  }

  /** A movement action without a direction falls through every branch and does nothing. */
  lemma MoveWithoutDirectionIgnored(w: World, player: Eid, action: string)
    requires Wf(w) && MoveAction(action)
    ensures HandleAction(w, player, action, None) == w
  {
  }
}

=== FILE: inventory.dfy ===
/**
  Item pickup (gameplay/ecs/systems/inventory_system.py): an entity with an
  Inventory that has just moved picks up, in ascending id order, the items on
  its new cell until the inventory is full.
*/
module InventorySystem {
  import opened Wrappers
  import opened Geometry
  import opened Strings
  import opened Components
  import opened Events
  import opened Ecs

  /** The glyph contains "item" in any letter case, scanned from the left. */
  predicate ItemGlyph(glyph: string)
    decreases |glyph|
  {
    if |glyph| < 4 then false
    else
      (LowerChar(glyph[0]) == 'i' && LowerChar(glyph[1]) == 't' && LowerChar(glyph[2]) == 'e' && LowerChar(glyph[3]) == 'm')
      || ItemGlyph(glyph[1..])
  }

  /** The scan agrees with `_check_item_pickup`'s test `"item" in descriptor.glyph.lower()`. */
  lemma {:induction false} ItemGlyphIsLowerContains(glyph: string)
    ensures ItemGlyph(glyph) <==> Contains(ToLower(glyph), "item")
    decreases |glyph|
  {
    var low := ToLower(glyph);
    if |glyph| >= 4 {
      ItemGlyphIsLowerContains(glyph[1..]);
      assert low[1..] == ToLower(glyph[1..]);
      assert (low[..4] == "item") <==>
        (LowerChar(glyph[0]) == 'i' && LowerChar(glyph[1]) == 't' && LowerChar(glyph[2]) == 'e' && LowerChar(glyph[3]) == 'm');
    }
  }

  /** `e` has a Position at `to` and a Descriptor whose glyph marks it as an item. */
  predicate ItemAt(w: World, e: Eid, to: Point)
    requires Wf(w)
  {
    GetPosition(w, e).Some? && GetPosition(w, e).value.Xy() == to
    && GetDescriptor(w, e).Some? && ItemGlyph(GetDescriptor(w, e).value.glyph)
  }

  /** The entries of `es` that are items at `to`, in their original order. */
  function ItemsAmong(w: World, es: seq<Eid>, to: Point): (r: seq<Eid>)
    requires Wf(w)
    ensures forall e :: e in r <==> e in es && ItemAt(w, e, to)
  {
    if |es| == 0 then []
    else
      var rest := ItemsAmong(w, es[1..], to);
      assert forall e :: e in es[1..] ==> e in es;
      if ItemAt(w, es[0], to) then [es[0]] + rest else rest
  }

  /** Strictly ascending ids. */
  predicate Increasing(s: seq<Eid>) {
    forall i, j :: 0 <= i < j < |s| ==> s[i] < s[j]
  }

  /** Filtering keeps ascending order. */
  lemma {:induction false} ItemsAmongAscending(w: World, es: seq<Eid>, to: Point)
    requires Wf(w)
    requires Increasing(es)
    ensures Increasing(ItemsAmong(w, es, to))
  {
    if |es| > 0 {
      ItemsAmongAscending(w, es[1..], to);
      var rest := ItemsAmong(w, es[1..], to);
      var r := ItemsAmong(w, es, to);
      assert forall e :: e in es[1..] ==> es[0] < e by {
        forall e | e in es[1..] ensures es[0] < e {
          var k :| 0 <= k < |es[1..]| && es[1..][k] == e;
          assert es[k + 1] == e;
        }
      }
      if ItemAt(w, es[0], to) {
        assert r == [es[0]] + rest;
        forall i, j | 0 <= i < j < |r| ensures r[i] < r[j] {
          assert 0 <= j - 1 < |rest|;
          if i == 0 {
            assert r[j] == rest[j - 1];
            assert rest[j - 1] in rest;
          } else {
            assert r[i] == rest[i - 1] && r[j] == rest[j - 1];
          }
        }
      } else {
        assert r == rest;
      }
    }
  }

  /** `items_here`: the live items at `to`, in ascending id order. */
  function ItemsHere(w: World, to: Point): (r: seq<Eid>)
    requires Wf(w)
    ensures forall e :: e in r <==> e in w.live && ItemAt(w, e, to)
    ensures forall i, j :: 0 <= i < j < |r| ==> r[i] < r[j]
  {
    var ks := [PositionKind, DescriptorKind];
    var es := EntitiesWithOrdered(w, ks);
    assert forall e :: e in es <==> e in w.live && e in Table(w, PositionKind) && e in Table(w, DescriptorKind) by {
      forall e ensures e in es <==> e in w.live && e in Table(w, PositionKind) && e in Table(w, DescriptorKind) {
        assert ks[0] == PositionKind && ks[1] == DescriptorKind;
      }
    }
    ItemsAmongAscending(w, es, to);
    ItemsAmong(w, es, to)
  }

  function Min(a: int, b: int): int {
    if a <= b then a else b
  }

  /** How many more items fit: `capacity - len(items)`, never negative. */
  function Room(inv: Inventory): (n: nat)
    ensures n == 0 <==> |inv.items| >= inv.capacity
  {
    if inv.capacity > |inv.items| then inv.capacity - |inv.items| else 0
  }

  /** Holding no more than the capacity allows. */
  predicate WithinCapacity(inv: Inventory) {
    |inv.items| <= inv.capacity
  }

  /** The events pickup posts. */
  ghost predicate PickupOutcome(ev: Event) {
    ev.ItemPicked? || ev.Message?
  }

  /** `descriptor.name if descriptor else "item"`. */
  function ItemName(w: World, item: Eid): string
    requires Wf(w)
  {
    match GetDescriptor(w, item)
    case Some(d) => d.name
    case None => "item"
  }

  /** The elements of `s` as a set. */
  ghost function Elems(s: seq<Eid>): set<Eid> {
    set x | x in s
  }

  /** One item into the bag: its Position goes, and `ItemPicked` and "Picked up ..." are posted. */
  function TakeOne(w: World, eid: Eid, item: Eid): (w': World)
    requires Wf(w)
    ensures Wf(w')
    ensures Table(w', PositionKind) == Table(w, PositionKind) - {item}
    ensures forall k :: k != PositionKind ==> Table(w', k) == Table(w, k)
    ensures w'.live == w.live && w'.nextId == w.nextId
    ensures w'.queue == w.queue + [ItemPicked(eid, item), Message("Picked up " + ItemName(Remove(w, item, PositionKind), item))]
  {
    var w1 := Remove(w, item, PositionKind);
    PostAll(w1, [ItemPicked(eid, item), Message("Picked up " + ItemName(w1, item))])
  }

  /** What taking the items `taken` posts: for each, `ItemPicked` then "Picked up <name>". */
  function Announce(w: World, eid: Eid, taken: seq<Eid>): (evs: seq<Event>)
    requires Wf(w)
    ensures |evs| == 2 * |taken|
    ensures forall i :: 0 <= i < |evs| ==> PickupOutcome(evs[i])
    ensures forall i :: 0 <= i < |evs| && evs[i].ItemPicked? ==> evs[i].eid == eid && evs[i].itemEid in taken
    ensures forall i :: 0 <= i < |evs| && evs[i].Message? ==> |evs[i].text| >= 10 && evs[i].text[..10] == "Picked up "
  {
    if |taken| == 0 then []
    else
      var rest := Announce(w, eid, taken[1..]);
      var evs := [ItemPicked(eid, taken[0]), Message("Picked up " + ItemName(w, taken[0]))] + rest;
      assert forall i :: 2 <= i < |evs| ==> evs[i] == rest[i - 2];
      evs
  }

  /** Announcements depend only on the Descriptor table. */
  lemma {:induction false} AnnounceReadsDescriptors(w: World, w': World, eid: Eid, taken: seq<Eid>)
    requires Wf(w) && Wf(w') && Table(w', DescriptorKind) == Table(w, DescriptorKind)
    ensures Announce(w', eid, taken) == Announce(w, eid, taken)
    decreases |taken|
  {
    if |taken| > 0 {
      AnnounceReadsDescriptors(w, w', eid, taken[1..]);
      assert GetDescriptor(w', taken[0]) == GetDescriptor(w, taken[0]);
    }
  }

  /**
    The pickup loop: take items in order while there is room, removing each
    one's Position; stop with "Inventory full!" at the first that does not fit.
  */
  function PickUp(w: World, eid: Eid, inv: Inventory, items: seq<Eid>): (res: (World, Inventory))
    requires Wf(w)
    ensures Wf(res.0) && OnlyPositionsChange(w, res.0)
    ensures res.1 == inv.(items := inv.items + items[..Min(|items|, Room(inv))])
    ensures Table(res.0, PositionKind) == Table(w, PositionKind) - Elems(items[..Min(|items|, Room(inv))])
    ensures res.0.queue == w.queue + Announce(w, eid, items[..Min(|items|, Room(inv))]) + FullNotice(|items| > Room(inv))
    decreases |items|
  {
    if |items| == 0 then (w, inv)
    else if |inv.items| >= inv.capacity then
      assert Elems(items[..0]) == {};
      (Post(w, Message("Inventory full!")), inv)
    else
      var item := items[0];
      var inv1 := inv.(items := inv.items + [item]);
      var w2 := TakeOne(w, eid, item);
      var res := PickUp(w2, eid, inv1, items[1..]);
      PickUpStep(w, w2, eid, inv, inv1, items, res);
      res
  }

  /** Splitting a queue at the length of its prefix. */
  lemma Regroup(q: seq<Event>, q2: seq<Event>, a: seq<Event>, t: seq<Event>)
    requires |q| <= |q2| && q2[..|q|] == q
    ensures q2 + a + t == q + (q2[|q|..] + a) + t
  {
    assert q2 == q + q2[|q|..];
  }

  /** Announcing picked items never says the inventory is full. */
  lemma AnnounceNeverFull(w: World, eid: Eid, taken: seq<Eid>)
    requires Wf(w)
    ensures Message("Inventory full!") !in Announce(w, eid, taken)
  {
    var evs := Announce(w, eid, taken);
    forall i | 0 <= i < |evs| && evs[i].Message? ensures evs[i].text != "Inventory full!" {
      assert evs[i].text[..10][0] == 'P';
    }
  }

  /** "Inventory full!" when some item did not fit, nothing otherwise. */
  function FullNotice(full: bool): (evs: seq<Event>)
    ensures |evs| <= 1 && (full <==> Message("Inventory full!") in evs)
  {
    if full then [Message("Inventory full!")] else []
  }

  /** Only the Position table and the queue may differ. */
  ghost predicate OnlyPositionsChange(w: World, w': World) {
    && w'.live == w.live && w'.nextId == w.nextId
    && forall k :: k != PositionKind ==> Table(w', k) == Table(w, k)
  }

  /** One step of `PickUp`: taking the first item, then the rest, is taking the first `n`. */
  lemma PickUpStep(w: World, w2: World, eid: Eid, inv: Inventory, inv1: Inventory, items: seq<Eid>, res: (World, Inventory))
    requires Wf(w) && |items| > 0 && |inv.items| < inv.capacity
    requires inv1 == inv.(items := inv.items + [items[0]])
    requires w2 == TakeOne(w, eid, items[0])
    requires var m := Min(|items[1..]|, Room(inv1));
      && Wf(res.0) && OnlyPositionsChange(w2, res.0)
      && res.1 == inv1.(items := inv1.items + items[1..][..m])
      && Table(res.0, PositionKind) == Table(w2, PositionKind) - Elems(items[1..][..m])
      && res.0.queue == w2.queue + Announce(w2, eid, items[1..][..m]) + FullNotice(|items[1..]| > Room(inv1))
    ensures var n := Min(|items|, Room(inv));
      && OnlyPositionsChange(w, res.0)
      && res.1 == inv.(items := inv.items + items[..n])
      && Table(res.0, PositionKind) == Table(w, PositionKind) - Elems(items[..n])
      && res.0.queue == w.queue + Announce(w, eid, items[..n]) + FullNotice(|items| > Room(inv))
  {
    var item := items[0];
    var n := Min(|items|, Room(inv));
    var rest := items[1..][..n - 1];
    StepCounts(inv, inv1, items);
    StepTable(Table(w, PositionKind), Table(w2, PositionKind), Table(res.0, PositionKind), item, rest, items[..n]);
    StepQueue(w, w2, eid, item, rest, items[..n]);
    Regroup(w.queue, w2.queue, Announce(w2, eid, rest), FullNotice(|items| > Room(inv)));
  }

  /** The counts of one step: one slot used, one item fewer to look at. */
  lemma StepCounts(inv: Inventory, inv1: Inventory, items: seq<Eid>)
    requires |items| > 0 && |inv.items| < inv.capacity
    requires inv1 == inv.(items := inv.items + [items[0]])
    ensures var n := Min(|items|, Room(inv));
      && n >= 1 && Min(|items[1..]|, Room(inv1)) == n - 1
      && items[..n] == [items[0]] + items[1..][..n - 1]
      && inv.items + items[..n] == inv1.items + items[1..][..n - 1]
      && (|items| > Room(inv) <==> |items[1..]| > Room(inv1))
  {
    var n := Min(|items|, Room(inv));
    assert items[..n] == [items[0]] + items[1..][..n - 1];
  }

  /** Removing one item's Position, then the rest's, removes them all. */
  lemma StepTable(t: map<Eid, Component>, t2: map<Eid, Component>, t': map<Eid, Component>, item: Eid, rest: seq<Eid>, taken: seq<Eid>)
    requires taken == [item] + rest
    requires t2 == t - {item} && t' == t2 - Elems(rest)
    ensures t' == t - Elems(taken)
  {
    assert Elems(taken) == {item} + Elems(rest);
  }

  /** Announcing the first item, then the rest on the world after taking it, announces them all. */
  lemma StepQueue(w: World, w2: World, eid: Eid, item: Eid, rest: seq<Eid>, taken: seq<Eid>)
    requires Wf(w) && taken == [item] + rest
    requires w2 == TakeOne(w, eid, item)
    ensures |w2.queue| >= |w.queue| && w2.queue[..|w.queue|] == w.queue
    ensures Announce(w, eid, taken) == w2.queue[|w.queue|..] + Announce(w2, eid, rest)
  {
    AnnounceReadsDescriptors(w, w2, eid, rest);
    assert GetDescriptor(Remove(w, item, PositionKind), item) == GetDescriptor(w, item);
    assert taken[1..] == rest;
  }

  /** `_check_item_pickup`: only a mover with an Inventory picks anything up. */
  function CheckItemPickup(w: World, eid: Eid, to: Point): (w': World)
    requires Wf(w)
    ensures Wf(w')
    ensures GetInventory(w, eid).None? ==> w' == w
    ensures GetInventory(w, eid).Some? ==>
      var inv := GetInventory(w, eid).value;
      var here := ItemsHere(w, to);
      var n := Min(|here|, Room(inv));
      && GetInventory(w', eid) == Some(inv.(items := inv.items + here[..n]))
      && Table(w', PositionKind) == Table(w, PositionKind) - Elems(here[..n])
      && w'.queue == w.queue + Announce(w, eid, here[..n]) + FullNotice(|here| > Room(inv))
    ensures forall e :: e != eid ==> GetInventory(w', e) == GetInventory(w, e)
    ensures forall k :: k != PositionKind && k != InventoryKind ==> Table(w', k) == Table(w, k)
    ensures w'.live == w.live && w'.nextId == w.nextId
    ensures |w'.queue| >= |w.queue| && w'.queue[..|w.queue|] == w.queue
    ensures forall i :: |w.queue| <= i < |w'.queue| ==> PickupOutcome(w'.queue[i])
    ensures forall i :: |w.queue| <= i < |w'.queue| && w'.queue[i].ItemPicked? ==>
      w'.queue[i].eid == eid && w'.queue[i].itemEid in w.live && ItemAt(w, w'.queue[i].itemEid, to)
      && w'.queue[i].itemEid !in Table(w', PositionKind)
  {
    match GetInventory(w, eid)
    case None => w
    case Some(inv) =>
      var here := ItemsHere(w, to);
      var n := Min(|here|, Room(inv));
      var res := PickUp(w, eid, inv, here);
      var w' := Add(res.0, eid, CInventory(res.1));
      PickupStore(w, eid, inv, here[..n], res, w');
      PickupQueue(w, eid, to, here, here[..n], w'.queue, Table(w', PositionKind), FullNotice(|here| > Room(inv)));
      w'
  }

  /** The store after a pickup: the grown inventory, the taken items' Positions gone, nothing else. */
  lemma PickupStore(w: World, eid: Eid, inv: Inventory, taken: seq<Eid>, res: (World, Inventory), w': World)
    requires Wf(w) && Wf(res.0) && Wf(w') && OnlyPositionsChange(w, res.0)
    requires Table(res.0, PositionKind) == Table(w, PositionKind) - Elems(taken)
    requires Table(w', InventoryKind) == Table(res.0, InventoryKind)[eid := CInventory(res.1)]
    requires forall k :: k != InventoryKind ==> Table(w', k) == Table(res.0, k)
    requires w'.live == res.0.live && w'.nextId == res.0.nextId
    ensures GetInventory(w', eid) == Some(res.1)
    ensures Table(w', PositionKind) == Table(w, PositionKind) - Elems(taken)
    ensures forall e :: e != eid ==> GetInventory(w', e) == GetInventory(w, e)
    ensures forall k :: k != PositionKind && k != InventoryKind ==> Table(w', k) == Table(w, k)
    ensures w'.live == w.live && w'.nextId == w.nextId
  {
    ReadsBack(w', eid, CInventory(res.1));
    forall e | e != eid
      ensures GetInventory(w', e) == GetInventory(w, e)
    {
      ReadsSame(w, w', e, InventoryKind);
    }
  }

  /** The queue after a pickup: the announcements of `taken` and the notice, each naming an item that was here. */
  lemma PickupQueue(w: World, eid: Eid, to: Point, here: seq<Eid>, taken: seq<Eid>, q': seq<Event>, pos: map<Eid, Component>, notice: seq<Event>)
    requires Wf(w)
    requires forall e :: e in here <==> e in w.live && ItemAt(w, e, to)
    requires |taken| <= |here| && taken == here[..|taken|]
    requires pos == Table(w, PositionKind) - Elems(taken)
    requires q' == w.queue + Announce(w, eid, taken) + notice
    requires |notice| <= 1 && forall ev :: ev in notice ==> ev == Message("Inventory full!")
    ensures |q'| >= |w.queue| && q'[..|w.queue|] == w.queue
    ensures forall i :: |w.queue| <= i < |q'| ==> PickupOutcome(q'[i])
    ensures forall i :: |w.queue| <= i < |q'| && q'[i].ItemPicked? ==>
      q'[i].eid == eid && q'[i].itemEid in w.live && ItemAt(w, q'[i].itemEid, to) && q'[i].itemEid !in pos
  {
    var evs := Announce(w, eid, taken);
    forall i | |w.queue| <= i < |q'|
      ensures PickupOutcome(q'[i])
      ensures q'[i].ItemPicked? ==> q'[i].eid == eid && q'[i].itemEid in w.live && ItemAt(w, q'[i].itemEid, to) && q'[i].itemEid !in pos
    {
      if i < |w.queue| + |evs| {
        assert q'[i] == evs[i - |w.queue|];
        if q'[i].ItemPicked? {
          var x := q'[i].itemEid;
          assert x in taken;
          var j :| 0 <= j < |taken| && taken[j] == x;
          assert here[j] == x;
          assert x in Elems(taken);
        }
      } else {
        assert q'[i] in notice;
      }
    }
  }

  /** Pickup never overfills an inventory that was not already overfull. */
  lemma PickupKeepsCapacity(w: World, eid: Eid, to: Point)
    requires Wf(w) && GetInventory(w, eid).Some? && WithinCapacity(GetInventory(w, eid).value)
    ensures WithinCapacity(GetInventory(CheckItemPickup(w, eid, to), eid).value)
  {
  }

  /** "Inventory full!" is posted exactly when some item on the cell did not fit. */
  lemma FullNoticeIffNoRoom(w: World, eid: Eid, to: Point)
    requires Wf(w) && GetInventory(w, eid).Some?
    ensures var w' := CheckItemPickup(w, eid, to);
      Message("Inventory full!") in w'.queue[|w.queue|..] <==> |ItemsHere(w, to)| > Room(GetInventory(w, eid).value)
  {
    var here := ItemsHere(w, to);
    var inv := GetInventory(w, eid).value;
    var n := Min(|here|, Room(inv));
    AnnounceNeverFull(w, eid, here[..n]);
    NoticeIff(w.queue, CheckItemPickup(w, eid, to).queue, Announce(w, eid, here[..n]), |here| > Room(inv));
  }

  /** The notice is in what was posted after `q` exactly when it was due. */
  lemma NoticeIff(q: seq<Event>, q': seq<Event>, evs: seq<Event>, full: bool)
    requires q' == q + evs + FullNotice(full) && Message("Inventory full!") !in evs
    ensures Message("Inventory full!") in q'[|q|..] <==> full
  {
    assert q'[|q|..] == evs + FullNotice(full);
  }

  /** Every inventory in the store is within its capacity. */
  ghost predicate AllWithinCapacity(w: World)
    requires Wf(w)
  {
    forall e :: GetInventory(w, e).Some? ==> WithinCapacity(GetInventory(w, e).value)
  }

  /** Picked items are off the map: no `ItemPicked` in the queue names an item that still has a Position. */
  ghost predicate PickedAreOffMap(w: World)
    requires Wf(w)
  {
    forall i :: 0 <= i < |w.queue| && w.queue[i].ItemPicked? ==> w.queue[i].itemEid !in Table(w, PositionKind)
  }

  /**
    What a pickup pass may do to the store: only Positions disappear and
    Inventories change, the queue only grows and only with pickup outcomes,
    capacities stay respected and picked items stay off the map.
  */
  ghost predicate Grows(w: World, w': World)
    requires Wf(w) && Wf(w')
  {
    && (forall k :: k != PositionKind && k != InventoryKind ==> Table(w', k) == Table(w, k))
    && (forall e :: e in Table(w', PositionKind) ==> e in Table(w, PositionKind) && Table(w', PositionKind)[e] == Table(w, PositionKind)[e])
    && w'.live == w.live && w'.nextId == w.nextId
    && |w'.queue| >= |w.queue| && w'.queue[..|w.queue|] == w.queue
    && (forall i :: |w.queue| <= i < |w'.queue| ==> PickupOutcome(w'.queue[i]))
    && (AllWithinCapacity(w) ==> AllWithinCapacity(w'))
    && (PickedAreOffMap(w) ==> PickedAreOffMap(w'))
  }

  /** One drained event: `MoveResolved` triggers a pickup check; every other event is dropped. */
  function HandleOne(w: World, ev: Event): (w': World)
    requires Wf(w)
    ensures Wf(w') && Grows(w, w')
  {
    if ev.MoveResolved? then
      var w' := CheckItemPickup(w, ev.eid, ev.toXy);
      assert AllWithinCapacity(w) ==> AllWithinCapacity(w') by {
        if AllWithinCapacity(w) && GetInventory(w, ev.eid).Some? {
          PickupKeepsCapacity(w, ev.eid, ev.toXy);
        }
      }
      assert PickedAreOffMap(w) ==> PickedAreOffMap(w') by {
        if PickedAreOffMap(w) {
          forall i | 0 <= i < |w'.queue| && w'.queue[i].ItemPicked? ensures w'.queue[i].itemEid !in Table(w', PositionKind) {
            if i < |w.queue| {
              assert w'.queue[i] == w.queue[i];
            }
          }
        }
      }
      w'
    else w
  }

  /** Two passes that each only grow the store grow it together. */
  lemma GrowsTrans(w: World, w1: World, w': World)
    requires Wf(w) && Wf(w1) && Wf(w') && Grows(w, w1) && Grows(w1, w')
    ensures Grows(w, w')
  {
    assert w'.queue[..|w.queue|] == w'.queue[..|w1.queue|][..|w.queue|];
    forall i | |w.queue| <= i < |w'.queue|
      ensures PickupOutcome(w'.queue[i])
    {
      if i < |w1.queue| {
        assert w'.queue[i] == w1.queue[i];
      }
    }
  }

  /** The loop of `process` over the drained events, in order. */
  function HandleAll(w: World, evs: seq<Event>): (w': World)
    requires Wf(w)
    ensures Wf(w')
    ensures forall k :: k != PositionKind && k != InventoryKind ==> Table(w', k) == Table(w, k)
    ensures forall e :: e in Table(w', PositionKind) ==> e in Table(w, PositionKind) && Table(w', PositionKind)[e] == Table(w, PositionKind)[e]
    ensures w'.live == w.live && w'.nextId == w.nextId
    ensures |w'.queue| >= |w.queue| && w'.queue[..|w.queue|] == w.queue
    ensures forall i :: |w.queue| <= i < |w'.queue| ==> PickupOutcome(w'.queue[i])
    ensures AllWithinCapacity(w) ==> AllWithinCapacity(w')
    ensures PickedAreOffMap(w) ==> PickedAreOffMap(w')
    decreases |evs|
  {
    if |evs| == 0 then w
    else
      var w1 := HandleOne(w, evs[0]);
      var w' := HandleAll(w1, evs[1..]);
      GrowsTrans(w, w1, w');
      w'
  }

  /** A drained batch with no `MoveResolved` picks nothing up and posts nothing. */
  lemma {:induction false} HandleAllWithoutMoves(w: World, evs: seq<Event>)
    requires Wf(w)
    requires forall ev :: ev in evs ==> !ev.MoveResolved?
    ensures HandleAll(w, evs) == w
    decreases |evs|
  {
    if |evs| > 0 {
      assert evs[0] in evs;
      assert forall ev :: ev in evs[1..] ==> ev in evs;
      HandleAllWithoutMoves(w, evs[1..]);
    }
  }

  /** Without a `MoveResolved` queued, `process` only empties the queue. */
  lemma ProcessWithoutMoves(w: World)
    requires Wf(w)
    requires forall ev :: ev in w.queue ==> !ev.MoveResolved?
    ensures Process(w) == w.(queue := [])
  {
    HandleAllWithoutMoves(w.(queue := []), w.queue);
  }

  /**
    `process`: drain, check pickups for every `MoveResolved`, drop the rest.
    Capacities are respected, Positions only disappear, and every item named
    by an `ItemPicked` is off the map.
  */
  function Process(w: World): (w': World)
    requires Wf(w)
    ensures Wf(w')
    ensures forall ev :: ev in w'.queue ==> PickupOutcome(ev)
    ensures forall k :: k != PositionKind && k != InventoryKind ==> Table(w', k) == Table(w, k)
    ensures forall e :: e in Table(w', PositionKind) ==> e in Table(w, PositionKind) && Table(w', PositionKind)[e] == Table(w, PositionKind)[e]
    ensures AllWithinCapacity(w) ==> AllWithinCapacity(w')
    ensures PickedAreOffMap(w')
  {
    var (w0, evs) := DrainEvents(w);
    assert AllWithinCapacity(w) ==> AllWithinCapacity(w0) by {
      assert forall e :: GetInventory(w0, e) == GetInventory(w, e);
    }
    var w' := HandleAll(w0, evs);
    assert forall ev :: ev in w'.queue ==> PickupOutcome(ev) by {
      forall ev | ev in w'.queue ensures PickupOutcome(ev) {
        var i :| 0 <= i < |w'.queue| && w'.queue[i] == ev;
      }
    }
    w'
  }
}

=== FILE: message_log.dfy ===
/**
  The message log's bookkeeping (ui/message_log.py): entries carry their
  remaining lifetime, `add_message` appends and trims to the newest
  `max_messages`, and `update` ages every entry and drops the expired ones.
  Times are exact reals here, not IEEE doubles.
*/
module MessageLog {
  /** One `(text, remaining_ms, priority)` tuple. */
  datatype Entry = Entry(text: string, remainingMs: real, priority: string)

  datatype Log = Log(maxMessages: int, messages: seq<Entry>)

  /** `MessageLog()` with its default bound of 15. */
  function NewLog(): (l: Log)
    ensures l.maxMessages == 15 && l.messages == []
  {
    Log(15, [])
  }

  /** `r` is what remains of `s` after dropping some of its oldest entries. */
  predicate IsSuffix(r: seq<Entry>, s: seq<Entry>) {
    |r| <= |s| && r == s[|s| - |r|..]
  }

  /** Python's `s[-m:]`: a negative start counts from the end, `-0` is `0`. */
  function PySuffix(s: seq<Entry>, m: int): (r: seq<Entry>)
    ensures m == 0 ==> r == s
    ensures m > 0 ==> |r| == if m < |s| then m else |s|
    ensures IsSuffix(r, s)
  {
    if m > 0 then (if m >= |s| then s else s[|s| - m..])
    else if -m >= |s| then s[|s|..]
    else s[-m..]
  }

  /** `add_message` exactly as written: append, then keep `messages[-max_messages:]` when over the bound. */
  function AddMessageAsWritten(l: Log, text: string, ttlMs: int, priority: string): (l': Log)
    ensures l'.maxMessages == l.maxMessages
    ensures IsSuffix(l'.messages, l.messages + [Entry(text, ttlMs as real, priority)])
    ensures |l.messages| < l.maxMessages ==> l'.messages == l.messages + [Entry(text, ttlMs as real, priority)]
  {
    var ms := l.messages + [Entry(text, ttlMs as real, priority)];
    Log(l.maxMessages, if |ms| > l.maxMessages then PySuffix(ms, l.maxMessages) else ms)
  }

  /** With a bound of zero the slice `[-0:]` keeps everything, so the log outgrows its bound. */
  lemma ZeroBoundKeepsEverything()
    ensures |AddMessageAsWritten(Log(0, []), "You wait.", 4000, "normal").messages| == 1
  {
  }

  /**
    `add_message` trimming to the newest `max_messages` entries (none when the
    bound is zero or negative): only the oldest are discarded, the new entry
    is last when there is room for one, and the bound is never exceeded.
  */
  function AddMessage(l: Log, text: string, ttlMs: int, priority: string): (l': Log)
    ensures l'.maxMessages == l.maxMessages
    ensures IsSuffix(l'.messages, l.messages + [Entry(text, ttlMs as real, priority)])
    ensures |l'.messages| == |l.messages| + 1 || |l'.messages| == Cap(l.maxMessages)
    ensures |l.messages| < l.maxMessages ==> l'.messages == l.messages + [Entry(text, ttlMs as real, priority)]
  {
    var ms := l.messages + [Entry(text, ttlMs as real, priority)];
    Log(l.maxMessages, if |ms| > l.maxMessages then ms[|ms| - Cap(l.maxMessages)..] else ms)
  }

  /** The number of entries the log may hold: the bound, or none for a non-positive bound. */
  function Cap(m: int): nat {
    if m > 0 then m else 0
  }

  /** A log within its bound stays within it after `add_message`, and the newest entry is kept when the bound allows any. */
  lemma AddMessageKeepsBound(l: Log, text: string, ttlMs: int, priority: string)
    requires |l.messages| <= Cap(l.maxMessages)
    ensures var l' := AddMessage(l, text, ttlMs, priority);
      && |l'.messages| <= Cap(l.maxMessages)
      && (l.maxMessages >= 1 ==> l'.messages[|l'.messages| - 1] == Entry(text, ttlMs as real, priority))
  {
  }

  /** For every positive bound the corrected trim agrees with the code as written. */
  lemma PositiveBoundAgrees(l: Log, text: string, ttlMs: int, priority: string)
    requires l.maxMessages >= 1
    ensures AddMessage(l, text, ttlMs, priority) == AddMessageAsWritten(l, text, ttlMs, priority)
  {
  }

  /** Age each entry by `elapsedMs` and keep those still positive, in order. */
  function Age(ms: seq<Entry>, elapsedMs: real): (r: seq<Entry>)
    ensures |r| <= |ms|
    ensures forall i :: 0 <= i < |r| ==> r[i].remainingMs > 0.0
    decreases |ms|
  {
    if |ms| == 0 then []
    else
      var rest := Age(ms[1..], elapsedMs);
      var left := ms[0].remainingMs - elapsedMs;
      if left > 0.0 then [ms[0].(remainingMs := left)] + rest else rest
  }

  /** `update`: nothing to do on an empty log; otherwise age and drop the expired. */
  function Update(l: Log, elapsedMs: real): (l': Log)
    ensures l'.maxMessages == l.maxMessages
    ensures |l'.messages| <= |l.messages|
    ensures forall i :: 0 <= i < |l'.messages| ==> l'.messages[i].remainingMs > 0.0
    ensures l.messages == [] ==> l' == l
  {
    if |l.messages| == 0 then l else l.(messages := Age(l.messages, elapsedMs))
  }

  /** Ageing works entry by entry: the survivors of a concatenation are the survivors of each part, in order. */
  lemma {:induction false} AgeDistributes(a: seq<Entry>, b: seq<Entry>, elapsedMs: real)
    ensures Age(a + b, elapsedMs) == Age(a, elapsedMs) + Age(b, elapsedMs)
    decreases |a|
  {
    if |a| > 0 {
      assert (a + b)[0] == a[0] && (a + b)[1..] == a[1..] + b;
      AgeDistributes(a[1..], b, elapsedMs);
    } else {
      assert a + b == b;
    }
  }

  /** A single entry survives, aged, exactly when its remaining time exceeds the elapsed time. */
  lemma AgeOne(e: Entry, elapsedMs: real)
    ensures e.remainingMs > elapsedMs ==> Age([e], elapsedMs) == [e.(remainingMs := e.remainingMs - elapsedMs)]
    ensures e.remainingMs <= elapsedMs ==> Age([e], elapsedMs) == []
  {
  }

  /** With time frozen every live entry is kept unchanged. */
  lemma {:induction false} FrozenTimeKeepsLog(l: Log)
    requires forall i :: 0 <= i < |l.messages| ==> l.messages[i].remainingMs > 0.0
    ensures Update(l, 0.0) == l
  {
    AgeZero(l.messages);
  }

  lemma {:induction false} AgeZero(ms: seq<Entry>)
    requires forall i :: 0 <= i < |ms| ==> ms[i].remainingMs > 0.0
    ensures Age(ms, 0.0) == ms
    decreases |ms|
  {
    if |ms| > 0 {
      AgeZero(ms[1..]);
      assert ms[0].(remainingMs := ms[0].remainingMs - 0.0) == ms[0];
      assert ms == [ms[0]] + ms[1..];
    }
  }

  /** Two updates by non-negative amounts are one update by their sum. */
  lemma {:induction false} AgeComposes(ms: seq<Entry>, a: real, b: real)
    requires a >= 0.0 && b >= 0.0
    ensures Age(Age(ms, a), b) == Age(ms, a + b)
    decreases |ms|
  {
    if |ms| > 0 {
      AgeComposes(ms[1..], a, b);
      var rest := Age(ms[1..], a);
      if ms[0].remainingMs - a > 0.0 {
        var e := ms[0].(remainingMs := ms[0].remainingMs - a);
        assert Age([e] + rest, b) == Age([e], b) + Age(rest, b) by {
          AgeDistributes([e], rest, b);
        }
        AgeOne(e, b);
        AgeOne(ms[0], a + b);
        AgeDistributes([ms[0]], ms[1..], a + b);
        assert [ms[0]] + ms[1..] == ms;
      }
    }
  }

  /** `update(a)` then `update(b)` is `update(a + b)` for non-negative elapsed times. */
  lemma UpdateComposes(l: Log, a: real, b: real)
    requires a >= 0.0 && b >= 0.0
    ensures Update(Update(l, a), b) == Update(l, a + b)
  {
    if |l.messages| > 0 {
      AgeComposes(l.messages, a, b);
    }
  }
}

=== FILE: movement.dfy ===
/**
  The movement system (gameplay/ecs/systems/movement_system.py): move
  requests are checked against the combat lock, the map and whoever stands
  on the target cell, and either move the entity, start a fight or do nothing.
*/
module Movement {
  import opened Wrappers
  import opened Geometry
  import opened Tiles
  import opened Components
  import opened Events
  import opened Ecs
  import opened CombatStateSystem

  /** What the scan of the target cell found first. */
  datatype Collision = Clear | Collide(target: Eid) | Obstructed

  /** `_adjacent4`: one orthogonal step apart. */
  function Adjacent4Positions(a: Position, b: Position): (r: bool)
    ensures r <==> Abs(a.x - b.x) + Abs(a.y - b.y) == 1
  {
    Adjacent4(a.Xy(), b.Xy())
  }

  /**
    The loop over `entities_at(to)`: skip the mover, stop at the first living
    entity (a fight) or the first impassable blocker (nothing happens).
  */
  function ScanTargets(w: World, es: seq<Eid>, mover: Eid): (r: Collision)
    requires Wf(w)
    ensures r.Clear? <==> forall i :: 0 <= i < |es| && es[i] != mover ==> !Living(w, es[i]) && !Obstacle(w, es[i])
    ensures r.Collide? ==> r.target in es && r.target != mover && Living(w, r.target)
    ensures r.Obstructed? ==> exists i :: 0 <= i < |es| && es[i] != mover && Obstacle(w, es[i]) && !Living(w, es[i])
  {
    if |es| == 0 then Clear
    else
      var rest := ScanTargets(w, es[1..], mover);
      assert forall i :: 1 <= i < |es| ==> es[i] == es[1..][i - 1];
      assert rest.Obstructed? ==> exists i :: 0 <= i < |es| && es[i] != mover && Obstacle(w, es[i]) && !Living(w, es[i]) by {
        if rest.Obstructed? {
          var i :| 0 <= i < |es[1..]| && es[1..][i] != mover && Obstacle(w, es[1..][i]) && !Living(w, es[1..][i]);
          assert es[i + 1] == es[1..][i];
        }
      }
      if es[0] == mover then rest
      else if Living(w, es[0]) then Collide(es[0])
      else if Obstacle(w, es[0]) then Obstructed
      else rest
  }

  /**
    The conditions under which a move request succeeds, stated without the
    scan: the mover has a Position, the combat lock lets it go, the target is
    on a walkable tile of a non-empty grid, and nobody else on the target cell
    is alive or blocks.
  */
  ghost predicate MayMove(w: World, grid: Grid, cs: Option<CombatState>, eid: Eid, to: Point)
    requires Wf(w) && Rectangular(grid)
  {
    && GetPosition(w, eid).Some?
    && (cs.Some? ==> CanMoveFreely(cs.value, eid, GetPosition(w, eid).value.Xy(), to))
    && (|grid| > 0 ==> InBounds(grid, to) && At(grid, to).walkable)
    && forall e :: e != eid && PositionedAt(w, e, to.x, to.y) ==> !Living(w, e) && !Obstacle(w, e)
  }

  /** The events a move request can post. */
  ghost predicate MovementOutcome(ev: Event) {
    ev.Message? || ev.Bump? || ev.AttackRequested? || ev.MoveResolved?
  }

  /** Nothing but the mover's Position may change, and the queue only grows. */
  ghost predicate MovesOnly(w: World, w': World, movers: set<Eid>)
  {
    && w'.live == w.live && w'.nextId == w.nextId
    && (forall k :: k != PositionKind ==> Table(w', k) == Table(w, k))
    && (forall e :: e !in movers ==>
          (e in Table(w', PositionKind) <==> e in Table(w, PositionKind))
          && (e in Table(w, PositionKind) ==> Table(w', PositionKind)[e] == Table(w, PositionKind)[e]))
    && |w'.queue| >= |w.queue| && w'.queue[..|w.queue|] == w.queue
  }

  /** Which branch of `_handle_move_request` a request takes. */
  datatype Verdict = NoPosition | Locked | OffMap | Unwalkable | Fight(target: Eid) | Stopped | Moves

  /** The checks of `_handle_move_request`, in the order it makes them. */
  function Judge(w: World, grid: Grid, cs: Option<CombatState>, eid: Eid, to: Point): (v: Verdict)
    requires Wf(w) && Rectangular(grid)
    ensures v.Moves? <==> MayMove(w, grid, cs, eid, to)
    ensures v.NoPosition? <==> GetPosition(w, eid).None?
    ensures v.Locked? ==> cs.Some? && IsInCombat(cs.value, eid)
    ensures v.Fight? ==> v.target != eid && Living(w, v.target) && PositionedAt(w, v.target, to.x, to.y)
  {
    match GetPosition(w, eid)
    case None => NoPosition
    case Some(pos) =>
      if cs.Some? && !CanMoveFreely(cs.value, eid, pos.Xy(), to) then Locked
      else if |grid| > 0 && !InBounds(grid, to) then OffMap
      else if |grid| > 0 && !At(grid, to).walkable then Unwalkable
      else
        var here := EntitiesAt(w, to.x, to.y, []);
        match ScanTargets(w, here, eid)
        case Collide(t) =>
          assert !MayMove(w, grid, cs, eid, to) by {
            assert PositionedAt(w, t, to.x, to.y);
          }
          Fight(t)
        case Obstructed =>
          assert !MayMove(w, grid, cs, eid, to) by {
            var i :| 0 <= i < |here| && here[i] != eid && Obstacle(w, here[i]) && !Living(w, here[i]);
            assert PositionedAt(w, here[i], to.x, to.y);
          }
          Stopped
        case Clear =>
          assert MayMove(w, grid, cs, eid, to) by {
            forall e | e != eid && PositionedAt(w, e, to.x, to.y) ensures !Living(w, e) && !Obstacle(w, e) {
              assert e in here;
              var i :| 0 <= i < |here| && here[i] == e;
            }
          }
          Moves
  }

  /** A non-player mover that ends 4-adjacent to the positioned player attacks it. */
  ghost predicate AttacksAfterMove(w: World, player: Option<Eid>, eid: Eid, to: Point)
    requires Wf(w)
  {
    player.Some? && player.value != eid && GetPosition(w, player.value).Some?
    && Adjacent4(to, GetPosition(w, player.value).value.Xy())
  }

  /**
    The successful end of `_handle_move_request`: update the Position in place,
    announce the move, and let a non-player that ends next to the player attack it.
  */
  function CompleteMove(w: World, player: Option<Eid>, eid: Eid, to: Point): (w': World)
    requires Wf(w) && GetPosition(w, eid).Some?
    ensures Wf(w')
    ensures MovesOnly(w, w', {eid})
    ensures GetPosition(w', eid) == Some(GetPosition(w, eid).value.(x := to.x, y := to.y))
    ensures |w'.queue| > |w.queue| && w'.queue[|w.queue|] == MoveResolved(eid, GetPosition(w, eid).value.Xy(), to)
    ensures forall i :: |w.queue| < i < |w'.queue| ==>
      player.Some? && w'.queue[i] == AttackRequested(eid, player.value) && player.value != eid
      && GetPosition(w, player.value).Some? && Adjacent4(to, GetPosition(w, player.value).value.Xy())
    ensures AttacksAfterMove(w, player, eid, to) ==>
      w'.queue == w.queue + [MoveResolved(eid, GetPosition(w, eid).value.Xy(), to), AttackRequested(eid, player.value)]
    ensures !AttacksAfterMove(w, player, eid, to) ==>
      w'.queue == w.queue + [MoveResolved(eid, GetPosition(w, eid).value.Xy(), to)]
  {
    var pos := GetPosition(w, eid).value;
    var moved := pos.(x := to.x, y := to.y);
    var w1 := Post(Add(w, eid, CPosition(moved)), MoveResolved(eid, pos.Xy(), to));
    if player.Some? && player.value != eid then
      match GetPosition(w1, player.value)
      case Some(pp) =>
        if Adjacent4Positions(moved, pp) then Post(w1, AttackRequested(eid, player.value)) else w1
      case None => w1
    else w1
  }

  /** The branches of `_handle_move_request` that leave every Position as it was. */
  function Refuse(w: World, v: Verdict, eid: Eid): (w': World)
    requires !v.Moves?
    requires Wf(w) && (v.Fight? ==> v.target != eid && Living(w, v.target))
    ensures w'.tables == w.tables && w'.live == w.live && w'.nextId == w.nextId
    ensures |w'.queue| >= |w.queue| && w'.queue[..|w.queue|] == w.queue
    ensures forall i :: |w.queue| <= i < |w'.queue| ==>
      (w'.queue[i].Message? || w'.queue[i].Bump? ||
       (w'.queue[i].AttackRequested? && v.Fight? && w'.queue[i] == AttackRequested(eid, v.target)))
  {
    match v
    case Locked => Post(w, Message("Cannot flee from combat!"))
    case OffMap => Post(w, Message("Can't go that way!"))
    case Fight(t) => PostAll(w, [Bump(eid, t), AttackRequested(eid, t)])
    case _ => w
  }

  /** `_handle_move_request`. */
  function HandleMoveRequest(w: World, grid: Grid, cs: Option<CombatState>, player: Option<Eid>, eid: Eid, to: Point): (w': World)
    requires Wf(w) && Rectangular(grid)
    ensures Wf(w')
    ensures MovesOnly(w, w', {eid})
    ensures forall i :: |w.queue| <= i < |w'.queue| ==> MovementOutcome(w'.queue[i])
    ensures MayMove(w, grid, cs, eid, to) ==>
      GetPosition(w', eid) == Some(GetPosition(w, eid).value.(x := to.x, y := to.y))
      && |w'.queue| > |w.queue| && w'.queue[|w.queue|] == MoveResolved(eid, GetPosition(w, eid).value.Xy(), to)
    ensures MayMove(w, grid, cs, eid, to) && AttacksAfterMove(w, player, eid, to) ==>
      w'.queue == w.queue + [MoveResolved(eid, GetPosition(w, eid).value.Xy(), to), AttackRequested(eid, player.value)]
    ensures MayMove(w, grid, cs, eid, to) && !AttacksAfterMove(w, player, eid, to) ==>
      w'.queue == w.queue + [MoveResolved(eid, GetPosition(w, eid).value.Xy(), to)]
    ensures !MayMove(w, grid, cs, eid, to) ==>
      Table(w', PositionKind) == Table(w, PositionKind)
      && forall i :: |w.queue| <= i < |w'.queue| ==> !w'.queue[i].MoveResolved?
    ensures forall i :: |w.queue| <= i < |w'.queue| && w'.queue[i].AttackRequested? ==>
      w'.queue[i].attackerEid == eid && w'.queue[i].targetEid != eid
      && (Living(w, w'.queue[i].targetEid) || Some(w'.queue[i].targetEid) == player)
  {
    var v := Judge(w, grid, cs, eid, to);
    if v.Moves? then CompleteMove(w, player, eid, to)
    else
      var w' := Refuse(w, v, eid);
      RefusedKeepsPositions(w, w', v, eid, player);
      w'
  }

  /** A refused request moves nobody, posts no `MoveResolved`, and attacks only a living target. */
  lemma RefusedKeepsPositions(w: World, w': World, v: Verdict, eid: Eid, player: Option<Eid>)
    requires Wf(w) && Wf(w') && !v.Moves? && (v.Fight? ==> v.target != eid && Living(w, v.target))
    requires w'.tables == w.tables && w'.live == w.live && w'.nextId == w.nextId
    requires |w'.queue| >= |w.queue| && w'.queue[..|w.queue|] == w.queue
    requires forall i :: |w.queue| <= i < |w'.queue| ==>
      (w'.queue[i].Message? || w'.queue[i].Bump? ||
       (w'.queue[i].AttackRequested? && v.Fight? && w'.queue[i] == AttackRequested(eid, v.target)))
    ensures MovesOnly(w, w', {eid})
    ensures forall i :: |w.queue| <= i < |w'.queue| ==> MovementOutcome(w'.queue[i])
    ensures Table(w', PositionKind) == Table(w, PositionKind)
    ensures forall i :: |w.queue| <= i < |w'.queue| ==> !w'.queue[i].MoveResolved?
    ensures forall i :: |w.queue| <= i < |w'.queue| && w'.queue[i].AttackRequested? ==>
      w'.queue[i].attackerEid == eid && w'.queue[i].targetEid != eid
      && (Living(w, w'.queue[i].targetEid) || Some(w'.queue[i].targetEid) == player)
  {
  }

  /** A combatant trying to move more than one step is refused with "Cannot flee from combat!" and nothing else. */
  lemma LockedMoveRefused(w: World, grid: Grid, cs: CombatState, player: Option<Eid>, eid: Eid, to: Point)
    requires Wf(w) && Rectangular(grid) && GetPosition(w, eid).Some?
    requires !CanMoveFreely(cs, eid, GetPosition(w, eid).value.Xy(), to)
    ensures var w' := HandleMoveRequest(w, grid, Some(cs), player, eid, to);
      w'.tables == w.tables && w'.queue == w.queue + [Message("Cannot flee from combat!")]
  {
  }

  /** A free mover aiming off a non-empty map is refused with "Can't go that way!"; a wall or door refuses silently. */
  lemma OffMapOrWallRefused(w: World, grid: Grid, cs: Option<CombatState>, player: Option<Eid>, eid: Eid, to: Point)
    requires Wf(w) && Rectangular(grid) && |grid| > 0 && GetPosition(w, eid).Some?
    requires cs.Some? ==> CanMoveFreely(cs.value, eid, GetPosition(w, eid).value.Xy(), to)
    requires !InBounds(grid, to) || !At(grid, to).walkable
    ensures var w' := HandleMoveRequest(w, grid, cs, player, eid, to);
      && (!InBounds(grid, to) ==> w'.tables == w.tables && w'.queue == w.queue + [Message("Can't go that way!")])
      && (InBounds(grid, to) ==> w' == w)
  {
  }

  /** A move onto a living entity is answered by `Bump` and an attack on it, in that order, and moves nobody. */
  lemma BumpThenAttack(w: World, grid: Grid, cs: Option<CombatState>, player: Option<Eid>, eid: Eid, to: Point)
    requires Wf(w) && Rectangular(grid)
    ensures var j := Judge(w, grid, cs, eid, to);
      var w' := HandleMoveRequest(w, grid, cs, player, eid, to);
      j.Fight? ==> w'.tables == w.tables && w'.queue == w.queue + [Bump(eid, j.target), AttackRequested(eid, j.target)]
  {
  }

  /** A combatant's successful move never takes it more than one step from where it stood. */
  lemma CannotFleeCombat(w: World, grid: Grid, cs: CombatState, player: Option<Eid>, eid: Eid, to: Point)
    requires Wf(w) && Rectangular(grid)
    requires IsInCombat(cs, eid) && GetPosition(w, eid).Some?
    requires GetPosition(HandleMoveRequest(w, grid, Some(cs), player, eid, to), eid) != GetPosition(w, eid)
    ensures Chebyshev(GetPosition(w, eid).value.Xy(), to) <= 1
  {
  }

  /** A move onto the player's own cell, where the player is alive, is a bump attack, never a move. */
  lemma BumpingIntoTheLiving(w: World, grid: Grid, cs: Option<CombatState>, player: Option<Eid>, eid: Eid, target: Eid)
    requires Wf(w) && Rectangular(grid)
    requires target != eid && target in w.live && Living(w, target) && GetPosition(w, target).Some?
    ensures Table(HandleMoveRequest(w, grid, cs, player, eid, GetPosition(w, target).value.Xy()), PositionKind) == Table(w, PositionKind)
  {
    var to := GetPosition(w, target).value.Xy();
    assert PositionedAt(w, target, to.x, to.y);
    assert !MayMove(w, grid, cs, eid, to);
  }

  /** The events of `evs` that are not move requests, in order. */
  ghost function Reposted(evs: seq<Event>): seq<Event> {
    if |evs| == 0 then []
    else if evs[0].MoveRequested? then Reposted(evs[1..])
    else [evs[0]] + Reposted(evs[1..])
  }

  /** No event of `evs` is a move request. */
  predicate NoMoveRequests(evs: seq<Event>) {
    forall i :: 0 <= i < |evs| ==> !evs[i].MoveRequested?
  }

  /** `xs` occurs within `ys` in order, each element of `xs` matched by its own position of `ys`. */
  ghost predicate InOrder(xs: seq<Event>, ys: seq<Event>)
    decreases |ys|
  {
    |xs| == 0 || (|ys| > 0 && ((xs[0] == ys[0] && InOrder(xs[1..], ys[1..])) || InOrder(xs, ys[1..])))
  }

  /** Events put in front do not disturb an embedding. */
  lemma {:induction false} InOrderAfter(zs: seq<Event>, xs: seq<Event>, ys: seq<Event>)
    requires InOrder(xs, ys)
    ensures InOrder(xs, zs + ys)
    decreases |zs|
  {
    if |zs| == 0 {
      assert zs + ys == ys;
    } else if |xs| > 0 {
      InOrderAfter(zs[1..], xs, ys);
      assert (zs + ys)[1..] == zs[1..] + ys;
      assert InOrder(xs, (zs + ys)[1..]);
    }
  }

  /** An embedding keeps multiplicities: every event occurs in `ys` at least as often as in `xs`. */
  lemma {:induction false} InOrderCounts(xs: seq<Event>, ys: seq<Event>)
    requires InOrder(xs, ys)
    ensures multiset(xs) <= multiset(ys)
    decreases |ys|
  {
    if |xs| > 0 {
      assert ys == [ys[0]] + ys[1..];
      if xs[0] == ys[0] && InOrder(xs[1..], ys[1..]) {
        InOrderCounts(xs[1..], ys[1..]);
        assert xs == [xs[0]] + xs[1..];
      } else {
        InOrderCounts(xs, ys[1..]);
      }
    }
  }

  /** The entities that `evs` asks to move. */
  ghost function Movers(evs: seq<Event>): set<Eid> {
    set i | 0 <= i < |evs| && evs[i].MoveRequested? :: evs[i].eid
  }

  lemma MoversCons(evs: seq<Event>)
    requires |evs| > 0
    ensures Movers(evs) == (if evs[0].MoveRequested? then {evs[0].eid} else {}) + Movers(evs[1..])
  {
    forall e | e in Movers(evs[1..]) ensures e in Movers(evs) {
      var i :| 0 <= i < |evs[1..]| && evs[1..][i].MoveRequested? && evs[1..][i].eid == e;
      assert evs[i + 1] == evs[1..][i];
    }
    forall e | e in Movers(evs) ensures e in (if evs[0].MoveRequested? then {evs[0].eid} else {}) + Movers(evs[1..]) {
      var i :| 0 <= i < |evs| && evs[i].MoveRequested? && evs[i].eid == e;
      if i > 0 {
        assert evs[1..][i - 1] == evs[i];
      }
    }
  }

  lemma MovesOnlyTrans(w0: World, w1: World, w2: World, m1: set<Eid>, m2: set<Eid>)
    requires MovesOnly(w0, w1, m1) && MovesOnly(w1, w2, m2)
    ensures MovesOnly(w0, w2, m1 + m2)
  {
    assert w2.queue[..|w0.queue|] == w2.queue[..|w1.queue|][..|w0.queue|];
  }

  /** One step of the loop of `process`. */
  function DispatchOne(w: World, grid: Grid, cs: Option<CombatState>, player: Option<Eid>, ev: Event): (w': World)
    requires Wf(w) && Rectangular(grid)
    ensures Wf(w')
    ensures MovesOnly(w, w', if ev.MoveRequested? then {ev.eid} else {})
    ensures forall i :: |w.queue| <= i < |w'.queue| ==> !w'.queue[i].MoveRequested?
    ensures !ev.MoveRequested? ==> w'.queue == w.queue + [ev]
  {
    if ev.MoveRequested? then HandleMoveRequest(w, grid, cs, player, ev.eid, ev.toXy)
    else
      var w' := Post(w, ev);
      assert w'.queue[..|w.queue|] == w.queue;
      w'
  }

  /** The loop of `process`: move requests are handled, every other event is re-posted, in queue order. */
  function Dispatch(w: World, grid: Grid, cs: Option<CombatState>, player: Option<Eid>, evs: seq<Event>): (w': World)
    requires Wf(w) && Rectangular(grid)
    ensures Wf(w')
    ensures MovesOnly(w, w', Movers(evs))
    ensures forall i :: |w.queue| <= i < |w'.queue| ==> !w'.queue[i].MoveRequested?
    ensures forall ev :: ev in evs && !ev.MoveRequested? ==> ev in w'.queue[|w.queue|..]
    ensures InOrder(Reposted(evs), w'.queue[|w.queue|..])
    ensures NoMoveRequests(evs) ==> w'.queue == w.queue + evs
    decreases |evs|
  {
    if |evs| == 0 then w
    else
      var w1 := DispatchOne(w, grid, cs, player, evs[0]);
      var w' := Dispatch(w1, grid, cs, player, evs[1..]);
      DispatchKeepsOrder(w, w1, w', evs);
      DispatchRepostsAll(w, w1, w', evs);
      MoversCons(evs);
      MovesOnlyTrans(w, w1, w', if evs[0].MoveRequested? then {evs[0].eid} else {}, Movers(evs[1..]));
      assert forall i :: |w.queue| <= i < |w'.queue| ==> !w'.queue[i].MoveRequested? by {
        forall i | |w.queue| <= i < |w'.queue| ensures !w'.queue[i].MoveRequested? {
          if i < |w1.queue| {
            assert w'.queue[i] == w1.queue[i];
          }
        }
      }
      assert forall ev :: ev in evs && !ev.MoveRequested? ==> ev in w'.queue[|w.queue|..] by {
        forall ev | ev in evs && !ev.MoveRequested? ensures ev in w'.queue[|w.queue|..] {
          if ev == evs[0] {
            assert w'.queue[|w.queue|] == w1.queue[|w.queue|];
            assert w'.queue[|w.queue|..][0] == ev;
          } else {
            assert ev in evs[1..];
            var j :| 0 <= j < |w'.queue[|w1.queue|..]| && w'.queue[|w1.queue|..][j] == ev;
            assert w'.queue[|w.queue|..][|w1.queue| - |w.queue| + j] == ev;
          }
        }
      }
      w'
  }

  /** The re-posts of the first event and of the rest line up one after the other. */
  lemma DispatchKeepsOrder(w: World, w1: World, w': World, evs: seq<Event>)
    requires |evs| > 0 && |w.queue| <= |w1.queue| <= |w'.queue|
    requires w1.queue[..|w.queue|] == w.queue && w'.queue[..|w1.queue|] == w1.queue
    requires !evs[0].MoveRequested? ==> w1.queue == w.queue + [evs[0]]
    requires InOrder(Reposted(evs[1..]), w'.queue[|w1.queue|..])
    ensures InOrder(Reposted(evs), w'.queue[|w.queue|..])
  {
    var seg1 := w1.queue[|w.queue|..];
    var seg2 := w'.queue[|w1.queue|..];
    assert w'.queue[|w.queue|..] == seg1 + seg2;
    if evs[0].MoveRequested? {
      InOrderAfter(seg1, Reposted(evs[1..]), seg2);
    } else {
      assert seg1 == [evs[0]];
      assert ([evs[0]] + Reposted(evs[1..]))[1..] == Reposted(evs[1..]);
      assert ([evs[0]] + seg2)[1..] == seg2;
    }
  }

  /** With no move request among `evs`, each step re-posts its event and nothing else. */
  lemma DispatchRepostsAll(w: World, w1: World, w': World, evs: seq<Event>)
    requires |evs| > 0
    requires !evs[0].MoveRequested? ==> w1.queue == w.queue + [evs[0]]
    requires NoMoveRequests(evs[1..]) ==> w'.queue == w1.queue + evs[1..]
    ensures NoMoveRequests(evs) ==> w'.queue == w.queue + evs
  {
    if NoMoveRequests(evs) {
      assert NoMoveRequests(evs[1..]) by {
        forall i | 0 <= i < |evs[1..]| ensures !evs[1..][i].MoveRequested? {
          assert evs[1..][i] == evs[i + 1];
        }
      }
      assert evs == [evs[0]] + evs[1..];
    }
  }

  /**
    `process`: drain the queue and dispatch it. Afterwards no move request is
    left, every other drained event is back in the queue, and only entities
    that asked to move can have a different Position.
  */
  function Process(w: World, grid: Grid, cs: Option<CombatState>, player: Option<Eid>): (w': World)
    requires Wf(w) && Rectangular(grid)
    ensures Wf(w')
    ensures forall ev :: ev in w'.queue ==> !ev.MoveRequested?
    ensures forall ev :: ev in w.queue && !ev.MoveRequested? ==> ev in w'.queue
    ensures InOrder(Reposted(w.queue), w'.queue)
    ensures NoMoveRequests(w.queue) ==> w'.queue == w.queue
    ensures MovesOnly(w.(queue := []), w', Movers(w.queue))
  {
    var (w0, evs) := DrainEvents(w);
    var w' := Dispatch(w0, grid, cs, player, evs);
    assert w'.queue[|w0.queue|..] == w'.queue;
    w'
  }

  /** Every drained event that is not a move request is back in the queue as often as it was drained. */
  lemma RepostedCounted(w: World, grid: Grid, cs: Option<CombatState>, player: Option<Eid>)
    requires Wf(w) && Rectangular(grid)
    ensures multiset(Reposted(w.queue)) <= multiset(Process(w, grid, cs, player).queue)
  {
    InOrderCounts(Reposted(w.queue), Process(w, grid, cs, player).queue);
  }

  /** An entity that asked for nothing stays where it is. */
  lemma StillWithoutRequest(w: World, grid: Grid, cs: Option<CombatState>, player: Option<Eid>, e: Eid)
    requires Wf(w) && Rectangular(grid)
    requires forall ev :: ev in w.queue ==> !(ev.MoveRequested? && ev.eid == e)
    ensures GetPosition(Process(w, grid, cs, player), e) == GetPosition(w, e)
  {
    assert forall i :: 0 <= i < |w.queue| ==> w.queue[i] in w.queue;
  }
}

=== FILE: pathfinding.dfy ===
/**
  A* search on the tile grid (util/pathfinding.py): 4-way moves of unit cost,
  Manhattan heuristic, and a cell is expandable when it is inside the grid,
  its tile can be walked on, and the world does not report it blocked.

  The open list is a sequence popped at its least `(f, x, y)` entry, which is
  the element Python's `heapq` pops from `(f_score, (x, y))` tuples. As in the
  source, popped cells are not marked closed and a cell is pushed again each
  time its g-score improves.
*/
module Pathfinding {
  import opened Wrappers
  import opened Geometry
  import opened Tiles
  import opened Ecs

  datatype Problem = Problem(world: World, grid: Grid, start: Point, goal: Point)

  ghost predicate Valid(pr: Problem) {
    Wf(pr.world) && Rectangular(pr.grid)
  }

  /** `in_bounds(p) and passable(p)`. */
  predicate Passable(pr: Problem, p: Point)
    requires Valid(pr)
  {
    InBounds(pr.grid, p) && At(pr.grid, p).walkable && !IsBlocked(pr.world, pr.grid, p.x, p.y)
  }

  /**
    A walk the search may take: from `start` to `goal` by 4-way steps, every
    cell after the start passable. The start cell itself is never checked.
  */
  ghost predicate IsPath(pr: Problem, path: seq<Point>)
    requires Valid(pr)
  {
    && |path| >= 1
    && path[0] == pr.start
    && path[|path| - 1] == pr.goal
    && (forall i :: 0 <= i < |path| - 1 ==> Adjacent4(path[i], path[i + 1]))
    && (forall i :: 1 <= i < |path| ==> Passable(pr, path[i]))
  }

  /** `heuristic(a, b)`. */
  function H(a: Point, b: Point): nat {
    Manhattan(a, b)
  }

  /** One `(f_score, node)` item of the open heap. */
  datatype Entry = Entry(f: int, p: Point)

  /** Python's tuple order on `(f, (x, y))`. */
  predicate EntryLess(a: Entry, b: Entry) {
    a.f < b.f || (a.f == b.f && (a.p.x < b.p.x || (a.p.x == b.p.x && a.p.y < b.p.y)))
  }

  /** The search state: the open heap, `came_from` and `g_score`. */
  datatype Search = Search(heap: seq<Entry>, cameFrom: map<Point, Point>, gScore: map<Point, nat>)

  /** The index of the entry `heappop` returns: one no other entry is less than. */
  function MinIndex(heap: seq<Entry>): (i: nat)
    requires |heap| >= 1
    ensures i < |heap|
    ensures forall j :: 0 <= j < |heap| ==> !EntryLess(heap[j], heap[i])
    ensures forall j :: 0 <= j < |heap| ==> heap[i].f <= heap[j].f
  {
    if |heap| == 1 then 0
    else
      var k := MinIndex(heap[1..]) + 1;
      assert forall j :: 1 <= j < |heap| ==> heap[j] == heap[1..][j - 1];
      if EntryLess(heap[0], heap[k]) then 0 else k
  }

  function RemoveIndex(heap: seq<Entry>, i: nat): (rest: seq<Entry>)
    requires i < |heap|
    ensures |rest| == |heap| - 1
    ensures forall j :: 0 <= j < |heap| && j != i ==> heap[j] in rest
    ensures forall e :: e in rest ==> e in heap
  {
    var rest := heap[..i] + heap[i + 1..];
    assert forall j :: 0 <= j < i ==> rest[j] == heap[j];
    assert forall j :: i < j < |heap| ==> rest[j - 1] == heap[j];
    rest
  }

  // ---------------------------------------------------------------------
  // The four neighbours, in the order `get_neighbors` lists them.

  function N0(p: Point): Point { Point(p.x, p.y + 1) }
  function N1(p: Point): Point { Point(p.x, p.y - 1) }
  function N2(p: Point): Point { Point(p.x + 1, p.y) }
  function N3(p: Point): Point { Point(p.x - 1, p.y) }

  lemma Adjacent4Cases(a: Point, b: Point)
    requires Adjacent4(a, b)
    ensures b == N0(a) || b == N1(a) || b == N2(a) || b == N3(a)
  {
  }

  // ---------------------------------------------------------------------
  // Invariants of the search loop.

  /** `u` still has a heap entry whose f does not exceed its g plus heuristic. */
  ghost predicate Open(pr: Problem, st: Search, u: Point) {
    u in st.gScore &&
    exists j :: 0 <= j < |st.heap| && st.heap[j].p == u && st.heap[j].f <= st.gScore[u] + H(u, pr.goal)
  }

  /** The neighbour `n` of `u` is known, at most one step further than `u`. */
  ghost predicate Bounded(pr: Problem, st: Search, u: Point, n: Point)
    requires Valid(pr)
    requires u in st.gScore
  {
    Passable(pr, n) ==> n in st.gScore && st.gScore[n] <= st.gScore[u] + 1
  }

  /** Every passable neighbour of `u` is known, at most one step further. */
  ghost predicate Settled(pr: Problem, st: Search, u: Point)
    requires Valid(pr)
  {
    u in st.gScore &&
    Bounded(pr, st, u, N0(u)) && Bounded(pr, st, u, N1(u)) &&
    Bounded(pr, st, u, N2(u)) && Bounded(pr, st, u, N3(u))
  }

  /** A known cell without a useful heap entry has been expanded with its current g. */
  ghost predicate ClosedSettled(pr: Problem, st: Search, u: Point)
    requires Valid(pr)
  {
    u in st.gScore && !Open(pr, st, u) ==> Settled(pr, st, u)
  }

  /** Every predecessor link is one passable step from a strictly nearer known cell. */
  ghost predicate LinksBack(pr: Problem, st: Search)
    requires Valid(pr)
  {
    forall p {:trigger st.cameFrom[p]} :: p in st.cameFrom ==>
      p in st.gScore && st.cameFrom[p] in st.gScore &&
      st.gScore[st.cameFrom[p]] < st.gScore[p] &&
      Adjacent4(st.cameFrom[p], p) && Passable(pr, p)
  }

  /** Every known cell other than the start has a predecessor. */
  ghost predicate AllLinked(pr: Problem, st: Search) {
    forall p :: p in st.gScore ==> p == pr.start || p in st.cameFrom
  }

  /** Heap entries are known cells, keyed no lower than their current g. */
  ghost predicate HeapKeyed(st: Search) {
    forall j :: 0 <= j < |st.heap| ==> st.heap[j].p in st.gScore && st.gScore[st.heap[j].p] <= st.heap[j].f
  }

  ghost predicate InvCore(pr: Problem, st: Search)
    requires Valid(pr)
  {
    // the start is known at distance 0 and has no predecessor
    && pr.start in st.gScore && st.gScore[pr.start] == 0 && pr.start !in st.cameFrom
    && LinksBack(pr, st) && AllLinked(pr, st) && HeapKeyed(st)
    // the goal, once known, keeps a live heap entry
    && (pr.goal in st.gScore ==> Open(pr, st, pr.goal))
  }

  ghost predicate Inv(pr: Problem, st: Search)
    requires Valid(pr)
  {
    InvCore(pr, st) && forall u :: ClosedSettled(pr, st, u)
  }

  /** `Inv`, except that `x` (the cell being expanded) may not be settled yet. */
  ghost predicate InvExcept(pr: Problem, st: Search, x: Point)
    requires Valid(pr)
  {
    InvCore(pr, st) && forall u :: u != x ==> ClosedSettled(pr, st, u)
  }

  function Initial(pr: Problem): (st: Search)
    requires Valid(pr)
    ensures Inv(pr, st)
  {
    var st := Search([Entry(0, pr.start)], map[], map[pr.start := 0]);
    assert Open(pr, st, pr.start) by {
      assert st.heap[0].p == pr.start && st.heap[0].f <= st.gScore[pr.start] + H(pr.start, pr.goal);
    }
    assert forall p :: p in st.gScore ==> p == pr.start;
    st
  }

  // ---------------------------------------------------------------------
  // Termination measure: cells of the grid not yet known, then the sum of
  // the g-scores over the grid, then the size of the heap.

  ghost function Cells(g: Grid): set<Point> {
    set x: int, y: int | 0 <= x < Width(g) && 0 <= y < Height(g) :: Point(x, y)
  }

  ghost function Unknown(pr: Problem, st: Search): nat {
    |Cells(pr.grid) - st.gScore.Keys|
  }

  ghost function ValAt(gs: map<Point, nat>, p: Point): nat {
    if p in gs then gs[p] else 0
  }

  ghost function RowSum(gs: map<Point, nat>, y: int, x: nat): nat {
    if x == 0 then 0 else RowSum(gs, y, x - 1) + ValAt(gs, Point(x - 1, y))
  }

  ghost function GridSum(gs: map<Point, nat>, w: nat, h: nat): nat {
    if h == 0 then 0 else GridSum(gs, w, h - 1) + RowSum(gs, h - 1, w)
  }

  ghost function Total(pr: Problem, st: Search): nat {
    GridSum(st.gScore, Width(pr.grid), Height(pr.grid))
  }

  lemma {:induction false} RowSumMono(a: map<Point, nat>, b: map<Point, nat>, y: int, x: nat, q: Point)
    requires forall p :: ValAt(a, p) <= ValAt(b, p)
    ensures RowSum(a, y, x) <= RowSum(b, y, x)
    ensures q.y == y && 0 <= q.x < x && ValAt(a, q) < ValAt(b, q) ==> RowSum(a, y, x) < RowSum(b, y, x)
  {
    if x > 0 {
      RowSumMono(a, b, y, x - 1, q);
      assert ValAt(a, Point(x - 1, y)) <= ValAt(b, Point(x - 1, y));
    }
  }

  lemma {:induction false} GridSumMono(a: map<Point, nat>, b: map<Point, nat>, w: nat, h: nat, q: Point)
    requires forall p :: ValAt(a, p) <= ValAt(b, p)
    ensures GridSum(a, w, h) <= GridSum(b, w, h)
    ensures 0 <= q.x < w && 0 <= q.y < h && ValAt(a, q) < ValAt(b, q) ==> GridSum(a, w, h) < GridSum(b, w, h)
  {
    if h > 0 {
      GridSumMono(a, b, w, h - 1, q);
      RowSumMono(a, b, h - 1, w, q);
    }
  }

  /** `st'` is no further from termination than `st`, and equal if no closer. */
  ghost predicate NoWorse(pr: Problem, st: Search, st': Search) {
    && Unknown(pr, st') <= Unknown(pr, st)
    && (Unknown(pr, st') == Unknown(pr, st) ==> Total(pr, st') <= Total(pr, st))
    && (Unknown(pr, st') == Unknown(pr, st) && Total(pr, st') == Total(pr, st) ==> st' == st)
  }

  /** g-scores only gain keys and only decrease. */
  ghost predicate Improves(st: Search, st': Search) {
    forall q :: q in st.gScore ==> q in st'.gScore && st'.gScore[q] <= st.gScore[q]
  }

  // ---------------------------------------------------------------------
  // Relaxing the edges out of the current cell.

  /** `came_from[n] = cur`, `g_score[n] = t` and `heappush(open_set, (t + h(n), n))`. */
  function Record(pr: Problem, st: Search, cur: Point, n: Point, t: nat): Search {
    Search(st.heap + [Entry(t + H(n, pr.goal), n)], st.cameFrom[n := cur], st.gScore[n := t])
  }

  /** The neighbour `n` is passable and reaching it through `cur` beats its known g-score. */
  predicate Improving(pr: Problem, st: Search, cur: Point, n: Point)
    requires Valid(pr)
    requires cur in st.gScore
  {
    Passable(pr, n) && (n !in st.gScore || st.gScore[cur] + 1 < st.gScore[n])
  }

  /** One iteration of the `for neighbor in get_neighbors(current)` loop. */
  function RelaxOne(pr: Problem, st: Search, cur: Point, n: Point): (st': Search)
    requires Valid(pr)
    requires cur in st.gScore
    ensures Improves(st, st')
    ensures cur in st'.gScore && st'.gScore[cur] == st.gScore[cur]
    ensures Passable(pr, n) ==> n in st'.gScore && st'.gScore[n] <= st.gScore[cur] + 1
  {
    if Improving(pr, st, cur, n) then Record(pr, st, cur, n, st.gScore[cur] + 1) else st
  }

  /** A relaxation that records anything makes progress toward termination. */
  lemma RelaxOneProgress(pr: Problem, st: Search, cur: Point, n: Point)
    requires Valid(pr) && cur in st.gScore
    ensures NoWorse(pr, st, RelaxOne(pr, st, cur, n))
  {
    RelaxOneOutcome(pr, st, cur, n);
    OutcomeProgress(pr, st, cur, n, Improving(pr, st, cur, n), RelaxOne(pr, st, cur, n));
  }

  /** Either outcome of relaxing `cur -> n`, as `improving` says, is no worse for termination. */
  lemma OutcomeProgress(pr: Problem, st: Search, cur: Point, n: Point, improving: bool, st': Search)
    requires Valid(pr) && cur in st.gScore
    requires improving ==>
      && Passable(pr, n) && (n !in st.gScore || st.gScore[cur] + 1 < st.gScore[n])
      && st' == Record(pr, st, cur, n, st.gScore[cur] + 1)
    requires !improving ==> st' == st
    ensures NoWorse(pr, st, st')
  {
    if improving {
      assert InBounds(pr.grid, n);
      RecordProgress(pr, st, cur, n, st.gScore[cur] + 1);
      assert NoWorse(pr, st, Record(pr, st, cur, n, st.gScore[cur] + 1));
    } else {
      NoWorseSelf(pr, st);
    }
  }

  /** An unchanged search is no worse than itself. */
  lemma NoWorseSelf(pr: Problem, st: Search)
    ensures NoWorse(pr, st, st)
  {
  }

  /** Recording a new cell shrinks the unknown cells; lowering a known g-score shrinks the total. */
  lemma RecordProgress(pr: Problem, st: Search, cur: Point, n: Point, t: nat)
    requires Valid(pr) && InBounds(pr.grid, n) && (n !in st.gScore || t < st.gScore[n])
    ensures NoWorse(pr, st, Record(pr, st, cur, n, t))
  {
    var st' := Record(pr, st, cur, n, t);
    if n !in st.gScore {
      assert n in Cells(pr.grid);
      assert Cells(pr.grid) - st.gScore.Keys == (Cells(pr.grid) - st'.gScore.Keys) + {n};
    } else {
      assert st'.gScore.Keys == st.gScore.Keys;
      GridSumMono(st'.gScore, st.gScore, Width(pr.grid), Height(pr.grid), n);
    }
  }

  lemma BoundedKept(pr: Problem, st: Search, st': Search, u: Point, m: Point)
    requires Valid(pr) && Improves(st, st')
    requires u in st.gScore && u in st'.gScore && st'.gScore[u] == st.gScore[u]
    requires Bounded(pr, st, u, m)
    ensures Bounded(pr, st', u, m)
  {
  }

  lemma SettledKept(pr: Problem, st: Search, st': Search, u: Point)
    requires Valid(pr) && Improves(st, st')
    requires u in st.gScore && u in st'.gScore && st'.gScore[u] == st.gScore[u]
    requires Settled(pr, st, u)
    ensures Settled(pr, st', u)
  {
    BoundedKept(pr, st, st', u, N0(u));
    BoundedKept(pr, st, st', u, N1(u));
    BoundedKept(pr, st, st', u, N2(u));
    BoundedKept(pr, st, st', u, N3(u));
  }

  /**
    After relaxing `cur -> n` into `st'`: the core invariant holds, every
    other open cell stays open, and `n` is open unless nothing changed.
  */
  ghost predicate RelaxedWell(pr: Problem, st: Search, n: Point, st': Search)
    requires Valid(pr)
  {
    && InvCore(pr, st')
    && (forall u :: u != n && Open(pr, st, u) ==> Open(pr, st', u))
    && (Open(pr, st', n) || st' == st)
  }

  /** The two outcomes of `RelaxOne`: an improving step is recorded, or nothing changes. */
  lemma RelaxOneOutcome(pr: Problem, st: Search, cur: Point, n: Point)
    requires Valid(pr) && cur in st.gScore
    ensures Improving(pr, st, cur, n) ==>
      && Passable(pr, n) && (n !in st.gScore || st.gScore[cur] + 1 < st.gScore[n])
      && RelaxOne(pr, st, cur, n) == Record(pr, st, cur, n, st.gScore[cur] + 1)
    ensures !Improving(pr, st, cur, n) ==> RelaxOne(pr, st, cur, n) == st
  {
  }

  /** A relaxation touches only the g-score of `n`. */
  lemma RelaxOneFrame(pr: Problem, st: Search, cur: Point, n: Point)
    requires Valid(pr) && cur in st.gScore
    ensures RelaxOne(pr, st, cur, n).gScore.Keys <= st.gScore.Keys + {n}
    ensures forall u :: u in st.gScore && u != n ==>
      u in RelaxOne(pr, st, cur, n).gScore && RelaxOne(pr, st, cur, n).gScore[u] == st.gScore[u]
  {
  }

  /** Either outcome of relaxing `cur -> n`, as `improving` says, is `RelaxedWell`. */
  lemma RelaxOneCore(pr: Problem, st: Search, cur: Point, n: Point, improving: bool, st': Search)
    requires Valid(pr) && InvCore(pr, st) && cur in st.gScore && Adjacent4(cur, n)
    requires improving ==>
      && Passable(pr, n) && (n !in st.gScore || st.gScore[cur] + 1 < st.gScore[n])
      && st' == Record(pr, st, cur, n, st.gScore[cur] + 1)
    requires !improving ==> st' == st
    ensures RelaxedWell(pr, st, n, st')
  {
    if improving {
      ImprovingWell(pr, st, cur, n, st.gScore[cur] + 1, st');
    } else {
      UnchangedWell(pr, st, n);
    }
  }

  /** A relaxation that records nothing leaves a search that satisfies the core invariant `RelaxedWell`. */
  lemma UnchangedWell(pr: Problem, st: Search, n: Point)
    requires Valid(pr) && InvCore(pr, st)
    ensures RelaxedWell(pr, st, n, st)
  {
  }

  /** Recording an improving step keeps the core invariant, keeps open cells open and opens `n`. */
  lemma ImprovingWell(pr: Problem, st: Search, cur: Point, n: Point, t: nat, st': Search)
    requires Valid(pr) && InvCore(pr, st) && cur in st.gScore && Adjacent4(cur, n)
    requires t == st.gScore[cur] + 1 && Passable(pr, n) && (n !in st.gScore || t < st.gScore[n])
    requires st' == Record(pr, st, cur, n, t)
    ensures RelaxedWell(pr, st, n, st')
  {
    RecordOpen(pr, st, cur, n, t);
    RecordLinks(pr, st, cur, n, t);
  }

  /** Recording an improving step keeps every open cell open and opens `n`. */
  lemma RecordOpen(pr: Problem, st: Search, cur: Point, n: Point, t: nat)
    requires Valid(pr) && InvCore(pr, st)
    ensures forall u :: u != n && Open(pr, st, u) ==> Open(pr, Record(pr, st, cur, n, t), u)
    ensures Open(pr, Record(pr, st, cur, n, t), n)
  {
    var st' := Record(pr, st, cur, n, t);
    assert st'.heap[|st.heap|] == Entry(t + H(n, pr.goal), n);
    forall u | u != n && Open(pr, st, u)
      ensures Open(pr, st', u)
    {
      var j :| 0 <= j < |st.heap| && st.heap[j].p == u && st.heap[j].f <= st.gScore[u] + H(u, pr.goal);
      assert st'.heap[j] == st.heap[j];
    }
  }

  /** Recording an improving step into a passable neighbour keeps the core invariant. */
  lemma RecordLinks(pr: Problem, st: Search, cur: Point, n: Point, t: nat)
    requires Valid(pr) && InvCore(pr, st) && cur in st.gScore && Adjacent4(cur, n)
    requires t == st.gScore[cur] + 1 && Passable(pr, n) && (n !in st.gScore || t < st.gScore[n])
    requires Open(pr, Record(pr, st, cur, n, t), n)
    requires forall u :: u != n && Open(pr, st, u) ==> Open(pr, Record(pr, st, cur, n, t), u)
    ensures InvCore(pr, Record(pr, st, cur, n, t))
  {
    assert n != pr.start;
    RecordLinksBack(pr, st, cur, n, t);
    RecordHeapKeyed(pr, st, cur, n, t);
  }

  /** The new link `n -> cur` is one passable step back to a nearer cell, and no old link breaks. */
  lemma RecordLinksBack(pr: Problem, st: Search, cur: Point, n: Point, t: nat)
    requires Valid(pr) && LinksBack(pr, st) && cur in st.gScore && Adjacent4(cur, n)
    requires t == st.gScore[cur] + 1 && Passable(pr, n) && (n !in st.gScore || t < st.gScore[n])
    ensures LinksBack(pr, Record(pr, st, cur, n, t))
  {
    var st' := Record(pr, st, cur, n, t);
    forall p | p in st'.cameFrom
      ensures p in st'.gScore && st'.cameFrom[p] in st'.gScore
      ensures st'.gScore[st'.cameFrom[p]] < st'.gScore[p]
      ensures Adjacent4(st'.cameFrom[p], p) && Passable(pr, p)
    {
      if p != n {
        assert st'.cameFrom[p] == st.cameFrom[p];
      }
    }
  }

  /** The pushed entry is keyed at the new g, and old entries stay keyed no lower than theirs. */
  lemma RecordHeapKeyed(pr: Problem, st: Search, cur: Point, n: Point, t: nat)
    requires HeapKeyed(st) && (n !in st.gScore || t < st.gScore[n])
    ensures HeapKeyed(Record(pr, st, cur, n, t))
  {
    var st' := Record(pr, st, cur, n, t);
    forall j | 0 <= j < |st'.heap|
      ensures st'.heap[j].p in st'.gScore && st'.gScore[st'.heap[j].p] <= st'.heap[j].f
    {
      if j < |st.heap| {
        assert st'.heap[j] == st.heap[j];
      }
    }
  }

  /** One relaxation keeps every cell but `cur` settled and the core invariant intact. */
  lemma RelaxOneKeeps(pr: Problem, st: Search, cur: Point, n: Point)
    requires Valid(pr) && InvExcept(pr, st, cur) && cur in st.gScore && Adjacent4(cur, n)
    ensures InvExcept(pr, RelaxOne(pr, st, cur, n), cur)
  {
    var st' := RelaxOne(pr, st, cur, n);
    RelaxOneOutcome(pr, st, cur, n);
    RelaxOneFrame(pr, st, cur, n);
    RelaxOneCore(pr, st, cur, n, Improving(pr, st, cur, n), st');
    StaySettled(pr, st, cur, n, st');
  }

  /** A relaxation out of `cur` leaves every other closed cell settled. */
  lemma StaySettled(pr: Problem, st: Search, cur: Point, n: Point, st': Search)
    requires Valid(pr) && InvExcept(pr, st, cur) && cur in st.gScore
    requires RelaxedWell(pr, st, n, st') && Improves(st, st')
    requires st'.gScore.Keys <= st.gScore.Keys + {n}
    requires forall u :: u in st.gScore && u != n ==> u in st'.gScore && st'.gScore[u] == st.gScore[u]
    ensures InvExcept(pr, st', cur)
  {
    forall u | u != cur
      ensures ClosedSettled(pr, st', u)
    {
      if u in st'.gScore && !Open(pr, st', u) {
        assert u != n || st' == st;
        assert u in st.gScore && st'.gScore[u] == st.gScore[u];
        assert ClosedSettled(pr, st, u);
        SettledKept(pr, st, st', u);
      }
    }
  }

  /** The whole `for` loop: the four neighbours in order. */
  function Expand(pr: Problem, st: Search, cur: Point): (st': Search)
    requires Valid(pr)
    requires cur in st.gScore
    ensures Improves(st, st')
    ensures cur in st'.gScore && st'.gScore[cur] == st.gScore[cur]
    ensures Settled(pr, st', cur)
    ensures NoWorse(pr, st, st')
  {
    var s0 := RelaxOne(pr, st, cur, N0(cur));
    var s1 := RelaxOne(pr, s0, cur, N1(cur));
    var s2 := RelaxOne(pr, s1, cur, N2(cur));
    var s3 := RelaxOne(pr, s2, cur, N3(cur));
    BoundedKept(pr, s0, s1, cur, N0(cur));
    BoundedKept(pr, s1, s2, cur, N0(cur));
    BoundedKept(pr, s2, s3, cur, N0(cur));
    BoundedKept(pr, s1, s2, cur, N1(cur));
    BoundedKept(pr, s2, s3, cur, N1(cur));
    BoundedKept(pr, s2, s3, cur, N2(cur));
    RelaxOneProgress(pr, st, cur, N0(cur));
    RelaxOneProgress(pr, s0, cur, N1(cur));
    RelaxOneProgress(pr, s1, cur, N2(cur));
    RelaxOneProgress(pr, s2, cur, N3(cur));
    s3
  }

  lemma ExpandKeeps(pr: Problem, st: Search, cur: Point)
    requires Valid(pr) && InvExcept(pr, st, cur) && cur in st.gScore
    ensures Inv(pr, Expand(pr, st, cur))
  {
    var s1 := RelaxOne(pr, RelaxOne(pr, st, cur, N0(cur)), cur, N1(cur));
    RelaxTwice(pr, st, cur, N0(cur), N1(cur));
    RelaxTwice(pr, s1, cur, N2(cur), N3(cur));
    SettleLast(pr, Expand(pr, st, cur), cur);
  }

  /** Two relaxations out of `cur` keep every other cell settled. */
  lemma RelaxTwice(pr: Problem, st: Search, cur: Point, a: Point, b: Point)
    requires Valid(pr) && InvExcept(pr, st, cur) && cur in st.gScore && Adjacent4(cur, a) && Adjacent4(cur, b)
    ensures var s := RelaxOne(pr, RelaxOne(pr, st, cur, a), cur, b);
      cur in s.gScore && InvExcept(pr, s, cur)
  {
    RelaxOneKeeps(pr, st, cur, a);
    RelaxOneKeeps(pr, RelaxOne(pr, st, cur, a), cur, b);
  }

  lemma SettleLast(pr: Problem, st: Search, x: Point)
    requires Valid(pr) && InvExcept(pr, st, x) && Settled(pr, st, x)
    ensures Inv(pr, st)
  {
    forall u
      ensures ClosedSettled(pr, st, u)
    {
      if u != x {
        assert ClosedSettled(pr, st, u);
      }
    }
  }

  /** Popping an entry that is not the goal leaves every cell but its own settled. */
  lemma PopKeeps(pr: Problem, st: Search, i: nat)
    requires Valid(pr) && Inv(pr, st) && i < |st.heap| && st.heap[i].p != pr.goal
    ensures InvExcept(pr, st.(heap := RemoveIndex(st.heap, i)), st.heap[i].p)
  {
    var st' := st.(heap := RemoveIndex(st.heap, i));
    forall u | u != st.heap[i].p && Open(pr, st, u)
      ensures Open(pr, st', u)
    {
      var j :| 0 <= j < |st.heap| && st.heap[j].p == u && st.heap[j].f <= st.gScore[u] + H(u, pr.goal);
      assert st.heap[j] in st'.heap;
      var k :| 0 <= k < |st'.heap| && st'.heap[k] == st.heap[j];
    }
    forall j | 0 <= j < |st'.heap|
      ensures st'.heap[j].p in st'.gScore && st'.gScore[st'.heap[j].p] <= st'.heap[j].f
    {
      assert st'.heap[j] in st.heap;
    }
    forall u | u != st.heap[i].p
      ensures ClosedSettled(pr, st', u)
    {
      assert ClosedSettled(pr, st, u);
    }
  }

  // ---------------------------------------------------------------------
  // Reconstruction, optimality and completeness.

  /** Follows `came_from` back from `cur` to the start. */
  function Reconstruct(pr: Problem, st: Search, cur: Point): (path: seq<Point>)
    requires Valid(pr) && InvCore(pr, st) && cur in st.gScore
    ensures |path| >= 1 && path[0] == pr.start && path[|path| - 1] == cur
    ensures |path| <= st.gScore[cur] + 1
    ensures forall i :: 0 <= i < |path| - 1 ==> Adjacent4(path[i], path[i + 1])
    ensures forall i :: 1 <= i < |path| ==> Passable(pr, path[i])
    decreases st.gScore[cur]
  {
    if cur !in st.cameFrom then [cur]
    else
      var prefix := Reconstruct(pr, st, st.cameFrom[cur]);
      var path := prefix + [cur];
      assert forall i :: 0 <= i < |prefix| ==> path[i] == prefix[i];
      path
  }

  lemma {:induction false} ManhattanAlongPath(path: seq<Point>, a: nat, b: nat)
    requires a <= b < |path|
    requires forall i :: 0 <= i < |path| - 1 ==> Adjacent4(path[i], path[i + 1])
    ensures Manhattan(path[a], path[b]) <= b - a
    decreases b - a
  {
    if a < b {
      ManhattanAlongPath(path, a + 1, b);
      assert Adjacent4(path[a], path[a + 1]);
    }
  }

  /** An open cell on the path puts a heap entry within the path's length. */
  lemma OpenOnPath(pr: Problem, st: Search, path: seq<Point>, i: nat, fmin: int)
    requires Valid(pr) && InvCore(pr, st) && IsPath(pr, path) && i < |path|
    requires forall j :: 0 <= j < |st.heap| ==> fmin <= st.heap[j].f
    requires Open(pr, st, path[i]) && st.gScore[path[i]] <= i
    ensures fmin <= |path| - 1
  {
    var u := path[i];
    var j :| 0 <= j < |st.heap| && st.heap[j].p == u && st.heap[j].f <= st.gScore[u] + H(u, pr.goal);
    ManhattanAlongPath(path, i, |path| - 1);
  }

  /** A settled cell on the path passes its bound on to the next cell. */
  lemma SettledOnPath(pr: Problem, st: Search, path: seq<Point>, i: nat)
    requires Valid(pr) && IsPath(pr, path) && i + 1 < |path|
    requires Settled(pr, st, path[i])
    ensures path[i + 1] in st.gScore && st.gScore[path[i + 1]] <= st.gScore[path[i]] + 1
  {
    var u := path[i];
    assert Adjacent4(path[i], path[i + 1]);
    Adjacent4Cases(u, path[i + 1]);
    assert Passable(pr, path[i + 1]);
  }

  /**
    Along any path, each cell is either known no further than its index, or
    some heap entry is already keyed no higher than the path's length.
  */
  lemma {:induction false} ReachBound(pr: Problem, st: Search, path: seq<Point>, i: nat, fmin: int)
    requires Valid(pr) && Inv(pr, st) && IsPath(pr, path) && i < |path|
    requires forall j :: 0 <= j < |st.heap| ==> fmin <= st.heap[j].f
    ensures (path[i] in st.gScore && st.gScore[path[i]] <= i) || fmin <= |path| - 1
  {
    if i > 0 {
      ReachBound(pr, st, path, i - 1, fmin);
      var u := path[i - 1];
      if u in st.gScore && st.gScore[u] <= i - 1 {
        if Open(pr, st, u) {
          OpenOnPath(pr, st, path, i - 1, fmin);
        } else {
          assert ClosedSettled(pr, st, u);
          SettledOnPath(pr, st, path, i - 1);
        }
      }
    }
  }

  /** When the goal is popped, its g-score is the length of a shortest path. */
  lemma GoalOptimal(pr: Problem, st: Search, i: nat)
    requires Valid(pr) && Inv(pr, st) && i < |st.heap| && st.heap[i].p == pr.goal
    requires forall j :: 0 <= j < |st.heap| ==> st.heap[i].f <= st.heap[j].f
    ensures pr.goal in st.gScore
    ensures forall path :: IsPath(pr, path) ==> st.gScore[pr.goal] + 1 <= |path|
  {
    forall path | IsPath(pr, path)
      ensures st.gScore[pr.goal] + 1 <= |path|
    {
      ReachBound(pr, st, path, |path| - 1, st.heap[i].f);
    }
  }

  /** With the heap empty every cell reachable from the start is known. */
  lemma {:induction false} ExhaustedReach(pr: Problem, st: Search, path: seq<Point>, i: int)
    requires Valid(pr) && Inv(pr, st) && |st.heap| == 0
    ensures IsPath(pr, path) && 0 <= i < |path| ==> path[i] in st.gScore
    decreases if i < 0 then 0 else i
  {
    if IsPath(pr, path) && 0 < i < |path| {
      ExhaustedReach(pr, st, path, i - 1);
      assert ClosedSettled(pr, st, path[i - 1]);
      SettledOnPath(pr, st, path, i - 1);
    }
  }

  lemma Exhausted(pr: Problem, st: Search)
    requires Valid(pr) && Inv(pr, st) && |st.heap| == 0
    ensures forall path :: !IsPath(pr, path)
  {
    forall path
      ensures !IsPath(pr, path)
    {
      ExhaustedReach(pr, st, path, |path| - 1);
    }
  }

  /** The `while open_heap` loop. */
  function Run(pr: Problem, st: Search): (r: Option<seq<Point>>)
    requires Valid(pr) && Inv(pr, st)
    ensures r.Some? ==> IsPath(pr, r.value)
    ensures r.Some? ==> forall path :: IsPath(pr, path) ==> |r.value| <= |path|
    ensures r.None? <==> forall path :: !IsPath(pr, path)
    decreases Unknown(pr, st), Total(pr, st), |st.heap|
  {
    if |st.heap| == 0 then
      Exhausted(pr, st);
      None
    else
      var i := MinIndex(st.heap);
      var cur := st.heap[i].p;
      if cur == pr.goal then
        GoalOptimal(pr, st, i);
        Some(Reconstruct(pr, st, cur))
      else
        var popped := st.(heap := RemoveIndex(st.heap, i));
        PopKeeps(pr, st, i);
        assert Unknown(pr, popped) == Unknown(pr, st) && Total(pr, popped) == Total(pr, st);
        ExpandKeeps(pr, popped, cur);
        Run(pr, Expand(pr, popped, cur))
  }

  /**
    `find_path(start, goal, grid, world)`: a shortest walk from `start` to
    `goal` when one exists, and `None` exactly when none does.
  */
  function FindPath(start: Point, goal: Point, grid: Grid, world: World): (r: Option<seq<Point>>)
    requires Wf(world) && Rectangular(grid)
    ensures r.Some? ==> IsPath(Problem(world, grid, start, goal), r.value)
    ensures r.Some? ==> forall path :: IsPath(Problem(world, grid, start, goal), path) ==> |r.value| <= |path|
    ensures r.None? <==> forall path :: !IsPath(Problem(world, grid, start, goal), path)
  {
    var pr := Problem(world, grid, start, goal);
    Run(pr, Initial(pr))
  }

  /** Asking for the cell one is standing on yields the one-cell path. */
  lemma FindPathToSelf(p: Point, grid: Grid, world: World)
    requires Wf(world) && Rectangular(grid)
    ensures FindPath(p, p, grid, world) == Some([p])
  {
    var pr := Problem(world, grid, p, p);
    assert IsPath(pr, [p]);
  }

  /** A goal that is not passable cannot be reached from anywhere else. */
  lemma BlockedGoalHasNoPath(start: Point, goal: Point, grid: Grid, world: World)
    requires Wf(world) && Rectangular(grid)
    requires start != goal && !Passable(Problem(world, grid, start, goal), goal)
    ensures FindPath(start, goal, grid, world).None?
  {
    var pr := Problem(world, grid, start, goal);
    forall path
      ensures !IsPath(pr, path)
    {
      if |path| >= 1 && path[0] == start && path[|path| - 1] == goal {
        assert |path| >= 2;
      }
    }
  }

  /** The second cell of a returned path is a legal single step from the start. */
  lemma FirstStepIsLegal(start: Point, goal: Point, grid: Grid, world: World)
    requires Wf(world) && Rectangular(grid)
    ensures var found := FindPath(start, goal, grid, world);
      found.Some? && |found.value| > 1 ==>
        Adjacent4(start, found.value[1]) && Passable(Problem(world, grid, start, goal), found.value[1])
  {
  }
}

=== FILE: play_scene.dfy ===
/**
  The turn schedule of the gameplay scene (scenes/play_scene.py).
  `_process_turn` runs the systems over one shared world in a fixed order:
  combat state, movement, combat and inventory for the player's action, then
  AI, movement and combat for the monsters, then FOV. What is still queued
  afterwards is drained into the message log. `_descend_stairs` answers a
  descend request.

  Movement is wired without a player id, as the scene builds it, and combat
  is the two-argument system of its own file.
*/
module PlayScene {
  import opened Wrappers
  import opened Tiles
  import opened Components
  import opened Events
  import opened Ecs
  import opened Random
  import MessageLog
  import CombatStateSystem
  import Movement
  import Combat
  import InventorySystem
  import Ai
  import FovSystem

  /** The scene's game state: world, map, generator, combat tracker, log and counters. */
  datatype Play = Play(
    world: World,
    grid: Grid,
    rng: Rng,
    combat: CombatStateSystem.CombatState,
    log: MessageLog.Log,
    player: Eid,
    see: FovSystem.See,
    turnCount: int,
    gameOver: bool)

  /** What every turn needs and keeps: a well-formed store, a rectangular map, rollable weapon and armour dice. */
  ghost predicate Ready(s: Play) {
    Wf(s.world) && Rectangular(s.grid) && Combat.ArmsEvaluable(s.world)
  }

  const DeathText := "You have died! Press R to restart."
  const DeathTtlMs := 10000
  const OffMapText := "You can't descend here."
  const DescendText := "You descend the stairs... (Not implemented yet)"
  const NoStairsText := "There are no stairs here."

  /**
    `message_log.add_message(text, ttl_ms)` with the default priority, trimmed
    as `add_message` is written. For the scene's own log (`MessageLog()`, bound
    15) that is the bounded trim.
  */
  function Say(l: MessageLog.Log, text: string, ttlMs: int): (l': MessageLog.Log)
    ensures l'.maxMessages == l.maxMessages
    ensures |l'.messages| <= |l.messages| + 1
    ensures |l.messages| < l.maxMessages ==> l'.messages == l.messages + [MessageLog.Entry(text, ttlMs as real, "normal")]
    ensures l.maxMessages >= 1 ==> l' == MessageLog.AddMessage(l, text, ttlMs, "normal")
  {
    var l' := MessageLog.AddMessageAsWritten(l, text, ttlMs, "normal");
    assert l.maxMessages >= 1 ==> l' == MessageLog.AddMessage(l, text, ttlMs, "normal") by {
      if l.maxMessages >= 1 {
        MessageLog.PositiveBoundAgrees(l, text, ttlMs, "normal");
      }
    }
    l'
  }

  /** Weapon and armour dice are read from their tables alone. */
  lemma ArmsFollowTables(w: World, w': World)
    requires Wf(w) && Wf(w') && Combat.ArmsEvaluable(w)
    requires Table(w', WeaponKind) == Table(w, WeaponKind) && Table(w', ArmorKind) == Table(w, ArmorKind)
    ensures Combat.ArmsEvaluable(w')
  {
    assert forall e :: GetWeapon(w', e) == GetWeapon(w, e);
    assert forall e :: GetArmor(w', e) == GetArmor(w, e);
  }

  // ---------------------------------------------------------------------
  // _descend_stairs
  // ---------------------------------------------------------------------

  /** The tile test: tiles carry no `type` attribute, so the glyph alone decides. */
  predicate OnStairs(t: Tile) {
    t.glyph == ">" || t.glyph == "stairs_down"
  }

  /** The bounds test: the row exists and the column lies inside that row. */
  predicate OnMap(grid: Grid, p: Position) {
    0 <= p.y < |grid| && 0 <= p.x < |grid[p.y]|
  }

  /** The message `_descend_stairs` logs and its lifetime, if any. */
  function DescendReply(w: World, grid: Grid, player: Eid): (reply: Option<(string, int)>)
    requires Wf(w)
    ensures reply.None? <==> GetPosition(w, player).None?
    ensures reply.Some? ==>
      var p := GetPosition(w, player).value;
      && (reply.value.0 == OffMapText <==> !OnMap(grid, p))
      && (reply.value.0 == DescendText <==> OnMap(grid, p) && OnStairs(grid[p.y][p.x]))
      && (reply.value.0 == NoStairsText <==> OnMap(grid, p) && !OnStairs(grid[p.y][p.x]))
      && reply.value.1 == (if reply.value.0 == DescendText then 4000 else 2000)
  {
    match GetPosition(w, player)
    case None => None
    case Some(p) =>
      if !OnMap(grid, p) then Some((OffMapText, 2000))
      else if OnStairs(grid[p.y][p.x]) then Some((DescendText, 4000))
      else Some((NoStairsText, 2000))
  }

  /** On a rectangular map the row-wise bounds test is the map's own bounds test. */
  lemma OnMapIsInBounds(grid: Grid, p: Position)
    requires Rectangular(grid)
    ensures OnMap(grid, p) <==> InBounds(grid, p.Xy())
  {
    if 0 <= p.y < |grid| {
      assert |grid[p.y]| == |grid[0]|;
    }
  }

  /** A player on a generated stairs tile is told they descend; on a floor tile that there are no stairs. */
  lemma StairsTileDescends(w: World, grid: Grid, player: Eid)
    requires Wf(w) && Rectangular(grid) && GetPosition(w, player).Some?
    requires InBounds(grid, GetPosition(w, player).value.Xy())
    ensures At(grid, GetPosition(w, player).value.Xy()) == StairsDownTile() ==>
      DescendReply(w, grid, player) == Some((DescendText, 4000))
    ensures At(grid, GetPosition(w, player).value.Xy()) == FloorTile() ==>
      DescendReply(w, grid, player) == Some((NoStairsText, 2000))
  {
    OnMapIsInBounds(grid, GetPosition(w, player).value);
  }

  /** `_descend_stairs`: nothing without a Position, otherwise the reply is logged. */
  function DescendStairs(l: MessageLog.Log, w: World, grid: Grid, player: Eid): (l': MessageLog.Log)
    requires Wf(w)
    ensures l'.maxMessages == l.maxMessages
    ensures GetPosition(w, player).None? ==> l' == l
    ensures GetPosition(w, player).Some? && |l.messages| < l.maxMessages ==>
      var reply := DescendReply(w, grid, player).value;
      l'.messages == l.messages + [MessageLog.Entry(reply.0, reply.1 as real, "normal")]
    ensures |l'.messages| <= |l.messages| + 1
  {
    match DescendReply(w, grid, player)
    case None => l
    case Some(reply) => Say(l, reply.0, reply.1)
  }

  // ---------------------------------------------------------------------
  // The final drain of _process_turn
  // ---------------------------------------------------------------------

  /** Whether the final drain logs a line for `ev`. */
  predicate Noted(w: World, player: Eid, ev: Event)
    requires Wf(w)
  {
    || ev.Message?
    || (ev.EntityDied? && ev.eid == player)
    || (ev.DescendRequested? && GetPosition(w, player).Some?)
  }

  /** The number of events of `evs` the final drain logs a line for. */
  function NotedCount(w: World, player: Eid, evs: seq<Event>): nat
    requires Wf(w)
  {
    if |evs| == 0 then 0
    else (if Noted(w, player, evs[0]) then 1 else 0) + NotedCount(w, player, evs[1..])
  }

  /** `evs` announces the player's death. */
  ghost predicate PlayerDied(evs: seq<Event>, player: Eid) {
    exists ev :: ev in evs && ev.EntityDied? && ev.eid == player
  }

  /** One event of the final drain: messages are logged, the player's death ends the game, a descend request is answered. */
  function Handle(l: MessageLog.Log, over: bool, w: World, grid: Grid, player: Eid, ev: Event): (res: (MessageLog.Log, bool))
    requires Wf(w)
    ensures res.0.maxMessages == l.maxMessages
    ensures res.1 <==> over || (ev.EntityDied? && ev.eid == player)
    ensures !Noted(w, player, ev) ==> res.0 == l
    ensures |res.0.messages| <= |l.messages| + 1
    ensures Noted(w, player, ev) && |l.messages| < l.maxMessages ==> |res.0.messages| == |l.messages| + 1
    ensures ev.Message? && |l.messages| < l.maxMessages ==>
      res.0.messages == l.messages + [MessageLog.Entry(ev.text, ev.ttlMs as real, "normal")]
    ensures ev.EntityDied? && ev.eid == player && |l.messages| < l.maxMessages ==>
      res.0.messages == l.messages + [MessageLog.Entry(DeathText, DeathTtlMs as real, "normal")]
    ensures ev.DescendRequested? ==> res.0 == DescendStairs(l, w, grid, player)
  {
    match ev
    case Message(text, _, ttl) => (Say(l, text, ttl), over)
    case EntityDied(e, _) =>
      if e == player then (Say(l, DeathText, DeathTtlMs), true) else (l, over)
    case DescendRequested(_, _) => (DescendStairs(l, w, grid, player), over)
    case _ => (l, over)
  }

  /**
    The drain loop: the game is over exactly when it was or the player's death
    is among the events, and while the log has room every logged event adds
    exactly one line.
  */
  function Drain(l: MessageLog.Log, over: bool, w: World, grid: Grid, player: Eid, evs: seq<Event>): (res: (MessageLog.Log, bool))
    requires Wf(w)
    ensures res.0.maxMessages == l.maxMessages
    ensures res.1 <==> over || PlayerDied(evs, player)
    ensures |l.messages| + |evs| <= l.maxMessages ==> |res.0.messages| == |l.messages| + NotedCount(w, player, evs)
    decreases |evs|
  {
    if |evs| == 0 then (l, over)
    else
      var h := Handle(l, over, w, grid, player, evs[0]);
      var res := Drain(h.0, h.1, w, grid, player, evs[1..]);
      assert PlayerDied(evs, player) <==> (evs[0].EntityDied? && evs[0].eid == player) || PlayerDied(evs[1..], player) by {
        assert evs == [evs[0]] + evs[1..];
      }
      res
  }

  /** Without a descend request the drain never consults the player's Position or the map. */
  lemma {:induction false} DrainIgnoresStairs(l: MessageLog.Log, over: bool, w1: World, w2: World, grid1: Grid, grid2: Grid, player: Eid, evs: seq<Event>)
    requires Wf(w1) && Wf(w2)
    requires forall ev :: ev in evs ==> !ev.DescendRequested?
    ensures Drain(l, over, w1, grid1, player, evs) == Drain(l, over, w2, grid2, player, evs)
    decreases |evs|
  {
    if |evs| > 0 {
      assert evs[0] in evs;
      var h := Handle(l, over, w1, grid1, player, evs[0]);
      assert h == Handle(l, over, w2, grid2, player, evs[0]);
      assert forall ev :: ev in evs[1..] ==> ev in evs;
      DrainIgnoresStairs(h.0, h.1, w1, w2, grid1, grid2, player, evs[1..]);
    }
  }

  // ---------------------------------------------------------------------
  // _process_turn
  // ---------------------------------------------------------------------

  /** From `w` to `w'` no entity is created or destroyed and only the tables of `changed` may differ. */
  ghost predicate Kept(w: World, w': World, changed: set<Kind>) {
    && w'.live == w.live && w'.nextId == w.nextId
    && forall k :: k !in changed ==> Table(w', k) == Table(w, k)
  }

  lemma KeptChains(w1: World, w2: World, w3: World, a: set<Kind>, b: set<Kind>, c: set<Kind>)
    requires Kept(w1, w2, a) && Kept(w2, w3, b)
    requires forall k :: k in a || k in b ==> k in c
    ensures Kept(w1, w3, c)
  {
  }

  /** Weapons and armour untouched keep their dice rollable. */
  lemma KeptArms(w: World, w': World, changed: set<Kind>)
    requires Wf(w) && Wf(w') && Combat.ArmsEvaluable(w) && Kept(w, w', changed)
    requires WeaponKind !in changed && ArmorKind !in changed
    ensures Combat.ArmsEvaluable(w')
  {
    ArmsFollowTables(w, w');
  }

  lemma CombatStateStep(cs: CombatStateSystem.CombatState, w: World)
    requires Wf(w)
    ensures var c := CombatStateSystem.Process(cs, w); Wf(c.1) && Kept(w, c.1, {})
  {
  }

  lemma MovementStep(w: World, grid: Grid, cs: CombatStateSystem.CombatState)
    requires Wf(w) && Rectangular(grid)
    ensures var w' := Movement.Process(w, grid, Some(cs), None); Wf(w') && Kept(w, w', {PositionKind})
  {
    var w' := Movement.Process(w, grid, Some(cs), None);
    assert forall k :: Table(w.(queue := []), k) == Table(w, k);
  }

  /** The combat system: only Health changes, and only attack outcomes are left queued. */
  function Fight(w: World, r: Rng): (res: (World, Rng))
    requires Wf(w) && Combat.ArmsEvaluable(w)
    ensures Wf(res.0) && Combat.ArmsEvaluable(res.0) && Kept(w, res.0, {HealthKind})
    ensures OnlyOutcomes(res.0.queue)
  {
    assert forall k :: Table(w.(queue := []), k) == Table(w, k);
    Combat.Process(w, r)
  }

  /** The inventory system with no move outcome queued: it only empties the queue. */
  function Collect(w: World): (w': World)
    requires Wf(w) && Combat.ArmsEvaluable(w) && OnlyOutcomes(w.queue)
    ensures w' == w.(queue := [])
    ensures Wf(w') && Combat.ArmsEvaluable(w') && Kept(w, w', {})
  {
    InventorySystem.ProcessWithoutMoves(w);
    assert Kept(w, w.(queue := []), {});
    KeptArms(w, w.(queue := []), {});
    InventorySystem.Process(w)
  }

  lemma AiStep(w: World, grid: Grid, r: Rng, player: Eid)
    requires Wf(w) && Rectangular(grid)
    ensures var a := Ai.Process(w, grid, r, player); Wf(a.0) && Kept(w, a.0, {})
  {
  }

  lemma FovStep(w: World, grid: Grid, see: FovSystem.See)
    requires Wf(w)
    ensures var w' := FovSystem.Process(w, grid, see); Wf(w') && w'.queue == w.queue && Kept(w, w', {VisibleKind})
  {
  }

  /** Only attack outcomes are queued: no move, request or descend event. */
  ghost predicate OnlyOutcomes(q: seq<Event>) {
    forall ev :: ev in q ==> ev.Message? || ev.DamageApplied? || ev.EntityDied?
  }

  /** Steps 1 and 2a: combat state, then the player's move. */
  function PlayerMoves(s: Play): (res: (World, CombatStateSystem.CombatState))
    requires Ready(s)
    ensures Wf(res.0) && Combat.ArmsEvaluable(res.0)
    ensures Kept(s.world, res.0, {PositionKind})
    ensures CombatStateSystem.Consistent(s.combat) ==> CombatStateSystem.Consistent(res.1)
  {
    var c := CombatStateSystem.Process(s.combat, s.world);
    CombatStateStep(s.combat, s.world);
    var w2 := Movement.Process(c.1, s.grid, Some(c.0), None);
    MovementStep(c.1, s.grid, c.0);
    KeptChains(s.world, c.1, w2, {}, {PositionKind}, {PositionKind});
    KeptArms(s.world, w2, {PositionKind});
    (w2, c.0)
  }

  /**
    Step 2: the player's move, combat, inventory. Combat drains every move
    outcome, so the inventory step finds no `MoveResolved`: it picks nothing
    up and leaves the queue empty.
  */
  function PlayerPhase(s: Play): (res: (World, Rng, CombatStateSystem.CombatState))
    requires Ready(s)
    ensures Wf(res.0) && Combat.ArmsEvaluable(res.0)
    ensures res.0.queue == []
    ensures Kept(s.world, res.0, {PositionKind, HealthKind})
    ensures CombatStateSystem.Consistent(s.combat) ==> CombatStateSystem.Consistent(res.2)
  {
    var m := PlayerMoves(s);
    var b := Fight(m.0, s.rng);
    var w4 := Collect(b.0);
    KeptChains(s.world, m.0, b.0, {PositionKind}, {HealthKind}, {PositionKind, HealthKind});
    KeptChains(s.world, b.0, w4, {PositionKind, HealthKind}, {}, {PositionKind, HealthKind});
    (w4, b.1, m.1)
  }

  /** Step 3a: the monsters decide, then move. */
  function MonsterMoves(w: World, grid: Grid, r: Rng, cs: CombatStateSystem.CombatState, player: Eid): (res: (World, Rng))
    requires Wf(w) && Rectangular(grid) && Combat.ArmsEvaluable(w)
    ensures Wf(res.0) && Combat.ArmsEvaluable(res.0)
    ensures Kept(w, res.0, {PositionKind})
  {
    var a := Ai.Process(w, grid, r, player);
    AiStep(w, grid, r, player);
    var w6 := Movement.Process(a.0, grid, Some(cs), None);
    MovementStep(a.0, grid, cs);
    KeptChains(w, a.0, w6, {}, {PositionKind}, {PositionKind});
    KeptArms(w, w6, {PositionKind});
    (w6, a.1)
  }

  /** Steps 3 and 4: AI, movement, combat, FOV. Only combat outcomes remain queued. */
  function MonsterPhase(w: World, grid: Grid, r: Rng, cs: CombatStateSystem.CombatState, player: Eid, see: FovSystem.See): (res: (World, Rng))
    requires Wf(w) && Rectangular(grid) && Combat.ArmsEvaluable(w)
    ensures Wf(res.0) && Combat.ArmsEvaluable(res.0)
    ensures Kept(w, res.0, {PositionKind, HealthKind, VisibleKind})
    ensures OnlyOutcomes(res.0.queue)
  {
    var m := MonsterMoves(w, grid, r, cs, player);
    var b := Fight(m.0, m.1);
    KeptChains(w, m.0, b.0, {PositionKind}, {HealthKind}, {PositionKind, HealthKind});
    var w8 := FovSystem.Process(b.0, grid, see);
    FovStep(b.0, grid, see);
    KeptChains(w, b.0, w8, {PositionKind, HealthKind}, {VisibleKind}, {PositionKind, HealthKind, VisibleKind});
    KeptArms(b.0, w8, {VisibleKind});
    (w8, b.1)
  }

  /** Every system of the turn in schedule order; what remains queued are combat outcomes of the monster phase. */
  function Systems(s: Play): (res: (World, Rng, CombatStateSystem.CombatState))
    requires Ready(s)
    ensures Wf(res.0) && Combat.ArmsEvaluable(res.0)
    ensures Kept(s.world, res.0, {PositionKind, HealthKind, VisibleKind})
    ensures OnlyOutcomes(res.0.queue)
    ensures CombatStateSystem.Consistent(s.combat) ==> CombatStateSystem.Consistent(res.2)
  {
    var p := PlayerPhase(s);
    var m := MonsterPhase(p.0, s.grid, p.1, p.2, s.player, s.see);
    KeptChains(s.world, p.0, m.0, {PositionKind, HealthKind}, {PositionKind, HealthKind, VisibleKind}, {PositionKind, HealthKind, VisibleKind});
    (m.0, m.1, p.2)
  }

  /** Step 5: drain what the systems left into the log and count the turn. */
  function Finish(s: Play, w: World, r: Rng, cs: CombatStateSystem.CombatState): (s': Play)
    requires Ready(s) && Wf(w) && Combat.ArmsEvaluable(w)
    requires Kept(s.world, w, {PositionKind, HealthKind, VisibleKind})
    ensures Ready(s')
    ensures s'.world == w.(queue := []) && s'.turnCount == s.turnCount + 1
    ensures s'.grid == s.grid && s'.player == s.player
    ensures Kept(s.world, s'.world, {PositionKind, HealthKind, VisibleKind})
    ensures s'.gameOver <==> s.gameOver || PlayerDied(w.queue, s.player)
    ensures s'.log == Drain(s.log, s.gameOver, w.(queue := []), s.grid, s.player, w.queue).0
  {
    var w' := w.(queue := []);
    assert Kept(w, w', {});
    KeptChains(s.world, w, w', {PositionKind, HealthKind, VisibleKind}, {}, {PositionKind, HealthKind, VisibleKind});
    KeptArms(w, w', {});
    var d := Drain(s.log, s.gameOver, w', s.grid, s.player, w.queue);
    s.(world := w', rng := r, combat := cs, log := d.0, gameOver := d.1, turnCount := s.turnCount + 1)
  }

  /**
    `_process_turn`: run the systems, drain the queue into the log, count the
    turn. The queue ends empty, the game is over exactly when it was or the
    player died this turn, and no table but Position, Health and the FOV
    caches changes.
  */
  function ProcessTurn(s: Play): (s': Play)
    requires Ready(s)
    ensures Ready(s')
    ensures s'.world.queue == [] && s'.turnCount == s.turnCount + 1
    ensures s'.grid == s.grid && s'.player == s.player
    ensures Kept(s.world, s'.world, {PositionKind, HealthKind, VisibleKind})
    ensures s'.gameOver <==> s.gameOver || PlayerDied(Systems(s).0.queue, s.player)
  {
    var sys := Systems(s);
    Finish(s, sys.0, sys.1, sys.2)
  }

  /** Finishing a turn with only combat outcomes queued never consults the map or the player's Position. */
  lemma FinishIgnoresStairs(s: Play, w: World, r: Rng, cs: CombatStateSystem.CombatState, w2: World, grid: Grid)
    requires Ready(s) && Wf(w) && Combat.ArmsEvaluable(w) && Wf(w2)
    requires Kept(s.world, w, {PositionKind, HealthKind, VisibleKind})
    requires OnlyOutcomes(w.queue)
    ensures Finish(s, w, r, cs).log == Drain(s.log, s.gameOver, w2, grid, s.player, w.queue).0
  {
    DrainIgnoresStairs(s.log, s.gameOver, w.(queue := []), w2, s.grid, grid, s.player, w.queue);
  }

  /**
    The player's move outcome and descend request never reach the final
    drain: the log a turn leaves is the same whatever the map and wherever
    the player stands.
  */
  lemma TurnNeverDescends(s: Play, w: World, grid: Grid)
    requires Ready(s) && Wf(w)
    ensures ProcessTurn(s).log == Drain(s.log, s.gameOver, w, grid, s.player, Systems(s).0.queue).0
  {
    var sys := Systems(s);
    FinishIgnoresStairs(s, sys.0, sys.1, sys.2, w, grid);
  }
}

=== FILE: random.dfy ===
/**
  The shared random stream (`random.Random`, wrapped by `GameRNG`) as an
  explicit oracle. Every call that the program makes on its generator reads
  the oracle at the current cursor and moves the cursor forward by one, so a
  fixed oracle reproduces a fixed game, as a fixed seed does.
*/
module Random {

  /** `ints` answers integer draws, `units` answers `random()` draws. */
  datatype Rng = Rng(ints: nat -> nat, units: nat -> real, cursor: nat)

  /** `r1` is `r0` after exactly `n` further draws. */
  ghost predicate Advanced(r0: Rng, r1: Rng, n: nat) {
    r1.ints == r0.ints && r1.units == r0.units && r1.cursor == r0.cursor + n
  }

  lemma AdvancedTrans(r0: Rng, r1: Rng, r2: Rng, m: nat, n: nat)
    requires Advanced(r0, r1, m) && Advanced(r1, r2, n)
    ensures Advanced(r0, r2, m + n)
  {
  }

  function Step(r: Rng): (r': Rng)
    ensures Advanced(r, r', 1)
  {
    r.(cursor := r.cursor + 1)
  }

  /** `randrange(n)`: a draw in [0, n). */
  function RandBelow(r: Rng, n: nat): (res: (nat, Rng))
    requires n >= 1
    ensures res.0 < n
    ensures Advanced(r, res.1, 1)
  {
    (r.ints(r.cursor) % n, Step(r))
  }

  /** `randint(lo, hi)`: a draw in [lo, hi]; Python raises when lo > hi. */
  function RandInt(r: Rng, lo: int, hi: int): (res: (int, Rng))
    requires lo <= hi
    ensures lo <= res.0 <= hi
    ensures Advanced(r, res.1, 1)
  {
    var (d, r') := RandBelow(r, hi - lo + 1);
    (lo + d, r')
  }

  /** Every value of the range is produced by some oracle: the model loses no outcome. */
  lemma RandIntReaches(r: Rng, lo: int, hi: int, v: int)
    requires lo <= v <= hi
    requires r.ints(r.cursor) == v - lo
    ensures RandInt(r, lo, hi).0 == v
  {
  }

  /** `random()`: one real-valued draw. */
  function Unit(r: Rng): (res: (real, Rng))
    ensures res.0 == r.units(r.cursor)
    ensures Advanced(r, res.1, 1)
  {
    (r.units(r.cursor), Step(r))
  }

  ghost predicate Distinct<T>(s: seq<T>) {
    forall i, j :: 0 <= i < j < |s| ==> s[i] != s[j]
  }

  /** The pool after `pool[j] := pool[n-1]` and dropping the last slot. */
  function RemoveAt<T>(pool: seq<T>, j: nat): (rest: seq<T>)
    requires j < |pool|
    ensures |rest| == |pool| - 1
    ensures forall x :: x in rest ==> x in pool
    ensures Distinct(pool) ==> Distinct(rest) && pool[j] !in rest
  {
    var n := |pool|;
    var rest := pool[j := pool[n - 1]][..n - 1];
    assert forall i :: 0 <= i < n - 1 ==> rest[i] == (if i == j then pool[n - 1] else pool[i]);
    rest
  }

  /**
    `sample(pool, k)` by Python's pool method: each round draws an index j
    below the remaining size, takes pool[j], and moves the last element into
    its slot. Python raises when k exceeds the population.
  */
  function Sample<T>(r: Rng, pool: seq<T>, k: nat): (res: (seq<T>, Rng))
    requires k <= |pool|
    ensures |res.0| == k
    ensures forall x :: x in res.0 ==> x in pool
    ensures Distinct(pool) ==> Distinct(res.0)
    ensures Advanced(r, res.1, k)
    decreases k
  {
    if k == 0 then ([], r)
    else
      var (j, r1) := RandBelow(r, |pool|);
      var rest := RemoveAt(pool, j);
      var (more, r2) := Sample(r1, rest, k - 1);
      ([pool[j]] + more, r2)
  }
}

=== FILE: scene_manager.dfy ===
/**
  The scene stack (core/scene_manager.py): the active scene is the top; push,
  pop and replace act on the top only. Scenes themselves are opaque values.
*/
module SceneManager {
  import opened Wrappers

  /** `scenes`, bottom first. */
  type Stack<S> = seq<S>

  /** `active_scene`: the top, or none on an empty stack. */
  function ActiveScene<S>(st: Stack<S>): (r: Option<S>)
    ensures r.None? <==> |st| == 0
    ensures r.Some? ==> r.value == st[|st| - 1]
  {
    if |st| == 0 then None else Some(st[|st| - 1])
  }

  /** `push`: the new scene goes on top. */
  function Push<S>(st: Stack<S>, s: S): (st': Stack<S>)
    ensures |st'| == |st| + 1 && st'[..|st|] == st
    ensures ActiveScene(st') == Some(s)
  {
    st + [s]
  }

  /** `pop`: remove and return the top; an empty stack is left alone. */
  function Pop<S>(st: Stack<S>): (res: (Stack<S>, Option<S>))
    ensures res.1 == ActiveScene(st)
    ensures |st| == 0 ==> res.0 == st
    ensures |st| > 0 ==> |res.0| == |st| - 1 && st == res.0 + [st[|st| - 1]]
  {
    if |st| == 0 then (st, None) else (st[..|st| - 1], Some(st[|st| - 1]))
  }

  /** `replace`: swap the top, or push onto an empty stack. */
  function Replace<S>(st: Stack<S>, s: S): (st': Stack<S>)
    ensures ActiveScene(st') == Some(s)
    ensures |st| > 0 ==> |st'| == |st| && st'[..|st| - 1] == st[..|st| - 1]
    ensures |st| == 0 ==> st' == [s]
  {
    if |st| > 0 then st[|st| - 1 := s] else st + [s]
  }

  /** Push then pop gives back the pushed scene and the original stack. */
  lemma PushThenPop<S>(st: Stack<S>, s: S)
    ensures Pop(Push(st, s)) == (st, Some(s))
  {
  }

  /** Replacing is popping (when there is something to pop) and then pushing. */
  lemma ReplaceIsPopPush<S>(st: Stack<S>, s: S)
    ensures Replace(st, s) == Push(Pop(st).0, s)
  {
    if |st| > 0 {
      assert st[|st| - 1 := s] == st[..|st| - 1] + [s];
    }
  }
}

=== FILE: strings.dfy ===
/** String helpers the systems need for their log messages and item tests. */
module Strings {

  /** ASCII lower-casing of one character. */
  function LowerChar(c: char): char {
    if 'A' <= c <= 'Z' then (c as int + 32) as char else c
  }

  /** `str.lower()`, restricted to ASCII letters. */
  function ToLower(s: string): (r: string)
    ensures |r| == |s|
    ensures forall i :: 0 <= i < |s| ==> r[i] == LowerChar(s[i])
  {
    if |s| == 0 then "" else [LowerChar(s[0])] + ToLower(s[1..])
  }

  /** `sub` occurs in `s` starting at index `i`. */
  predicate OccursAt(s: string, sub: string, i: int) {
    0 <= i && i + |sub| <= |s| && s[i..i + |sub|] == sub
  }

  /** Python's `sub in s` on strings. */
  function Contains(s: string, sub: string): (b: bool)
    ensures b <==> exists i :: OccursAt(s, sub, i)
    decreases |s|
  {
    if |sub| > |s| then
      assert forall i :: !OccursAt(s, sub, i);
      false
    else if s[..|sub|] == sub then
      assert OccursAt(s, sub, 0);
      true
    else
      var rest := Contains(s[1..], sub);
      assert forall i :: OccursAt(s, sub, i) && i >= 1 ==> OccursAt(s[1..], sub, i - 1) by {
        forall i | OccursAt(s, sub, i) && i >= 1 ensures OccursAt(s[1..], sub, i - 1) {
          assert s[1..][i - 1..i - 1 + |sub|] == s[i..i + |sub|];
        }
      }
      assert forall i :: OccursAt(s[1..], sub, i) ==> OccursAt(s, sub, i + 1) by {
        forall i | OccursAt(s[1..], sub, i) ensures OccursAt(s, sub, i + 1) {
          assert s[1..][i..i + |sub|] == s[i + 1..i + 1 + |sub|];
        }
      }
      rest
  }

  function DigitChar(d: nat): (c: char)
    requires d < 10
    ensures '0' <= c <= '9'
  {
    ('0' as int + d) as char
  }

  /** Decimal rendering of a natural number, as Python's f-strings print it. */
  function NatToString(n: nat): (s: string)
    ensures |s| >= 1
    ensures forall i :: 0 <= i < |s| ==> '0' <= s[i] <= '9'
  {
    if n < 10 then [DigitChar(n)] else NatToString(n / 10) + [DigitChar(n % 10)]
  }

  /** Decimal rendering of an integer, with a leading minus sign when negative. */
  function IntToString(n: int): (s: string)
    ensures |s| >= 1
    ensures n < 0 <==> s[0] == '-'
  {
    if n < 0 then "-" + NatToString(-n) else NatToString(n)
  }
}

=== FILE: tiles.dfy ===
/** Map tiles and the row-major tile grid (gameplay/dungeon/tiles.py). */
module Tiles {
  import opened Geometry

  datatype TileType = Wall | Floor | Door | StairsDown | Water | Sand | Grass

  datatype Color = Color(r: int, g: int, b: int)

  /** A map cell (`blocksSight` is `Tile.opaque`); `color` and `glyph` default as in the dataclass. */
  datatype Tile = Tile(
    tileType: TileType,
    walkable: bool,
    blocksSight: bool,
    color: Color := Color(255, 255, 255),
    glyph: string := "?")

  function WallTile(): (t: Tile)
    ensures t.tileType == Wall && !t.walkable && t.blocksSight && t.glyph == "#"
  {
    Tile(Wall, false, true, Color(128, 128, 128), "#")
  }

  function FloorTile(): (t: Tile)
    ensures t.tileType == Floor && t.walkable && !t.blocksSight && t.glyph == "."
  {
    Tile(Floor, true, false, Color(255, 255, 255), ".")
  }

  function DoorTile(): (t: Tile)
    ensures t.tileType == Door && !t.walkable && t.blocksSight && t.glyph == "+"
  {
    Tile(Door, false, true, Color(139, 69, 19), "+")
  }

  function StairsDownTile(): (t: Tile)
    ensures t.tileType == StairsDown && t.walkable && !t.blocksSight && t.glyph == ">"
  {
    Tile(StairsDown, true, false, Color(255, 255, 255), ">")
  }

  function WaterTile(): (t: Tile)
    ensures t.tileType == Water && t.walkable && !t.blocksSight && t.glyph == "~"
  {
    Tile(Water, true, false, Color(0, 255, 255), "~")
  }

  /** Every predefined tile can be walked on exactly when it can be seen through (not `blocksSight`). */
  lemma PredefinedTilesWalkableIffClear(t: Tile)
    requires t in {WallTile(), FloorTile(), DoorTile(), StairsDownTile(), WaterTile()}
    ensures t.walkable <==> !t.blocksSight
  {
  }

  /** The dungeon map, indexed `grid[y][x]`. */
  type Grid = seq<seq<Tile>>

  /** Every row has the width of the first one (the code reads `len(grid[0])`). */
  ghost predicate Rectangular(g: Grid) {
    forall i :: 0 <= i < |g| ==> |g[i]| == |g[0]|
  }

  function Width(g: Grid): nat {
    if |g| == 0 then 0 else |g[0]|
  }

  function Height(g: Grid): nat {
    |g|
  }

  predicate InBounds(g: Grid, p: Point) {
    0 <= p.x < Width(g) && 0 <= p.y < Height(g)
  }

  function At(g: Grid, p: Point): Tile
    requires Rectangular(g) && InBounds(g, p)
  {
    g[p.y][p.x]
  }

  /** The tile at `p` exists and can be walked on. */
  predicate WalkableAt(g: Grid, p: Point)
    requires Rectangular(g)
  {
    InBounds(g, p) && At(g, p).walkable
  }

  /** The grid after `grid[p.y][p.x] = t`. */
  function SetTile(g: Grid, p: Point, t: Tile): (g': Grid)
    requires Rectangular(g) && InBounds(g, p)
    ensures Rectangular(g') && Height(g') == Height(g) && Width(g') == Width(g)
    ensures At(g', p) == t
    ensures forall q :: InBounds(g, q) && q != p ==> At(g', q) == At(g, q)
  {
    g[p.y := g[p.y][p.x := t]]
  }
}

=== FILE: world.dfy ===
/**
  The entity store and event queue (gameplay/ecs/world.py).

  Component storage is one map per component class, as `World`'s
  `defaultdict(dict)`: `tables[k]` maps entity ids to their component of kind
  `k`, and a kind with no table behaves as an empty map. Where `World`
  iterates a Python set, the model iterates in ascending id order.
*/
module Ecs {
  import opened Wrappers
  import opened Geometry
  import opened Tiles
  import opened Components
  import opened Events

  datatype World = World(
    nextId: Eid,
    live: set<Eid>,
    tables: map<Kind, map<Eid, Component>>,
    queue: seq<Event>)

  /** Invariant of every world built by the operations below. */
  ghost predicate Wf(w: World) {
    && w.nextId >= 1
    && (forall e :: e in w.live ==> 1 <= e < w.nextId)
    && (forall k, e :: k in w.tables && e in w.tables[k] ==> KindOf(w.tables[k][e]) == k)
  }

  function NewWorld(): (w: World)
    ensures Wf(w) && w.nextId == 1 && w.live == {} && w.queue == []
  {
    World(1, {}, map[], [])
  }

  /** `self._components[k]`: an absent table reads as empty. */
  function Table(w: World, k: Kind): map<Eid, Component> {
    if k in w.tables then w.tables[k] else map[]
  }

  /** `create_entity`: hands out the next id and marks it live. */
  function CreateEntity(w: World): (res: (World, Eid))
    requires Wf(w)
    ensures Wf(res.0)
    ensures res.1 == w.nextId && res.1 >= 1 && res.1 !in w.live
    ensures res.0.live == w.live + {res.1} && res.0.nextId == res.1 + 1
    ensures res.0.tables == w.tables && res.0.queue == w.queue
  {
    var e := w.nextId;
    (w.(nextId := e + 1, live := w.live + {e}), e)
  }

  /** Two consecutive creations return increasing ids, both absent before. */
  lemma CreateTwiceIncreasing(w: World)
    requires Wf(w)
    ensures var (w1, e1) := CreateEntity(w);
      var (_, e2) := CreateEntity(w1);
      e1 < e2 && e2 !in w.live && e1 != e2
  {
  }

  /** The first id handed out by a new world is 1. */
  lemma FirstIdIsOne()
    ensures CreateEntity(NewWorld()).1 == 1
  {
  }

  /** `destroy_entity`: a live id leaves the live set and every table; an unknown id changes nothing. */
  function DestroyEntity(w: World, e: Eid): (w': World)
    requires Wf(w)
    ensures Wf(w')
    ensures e in w.live ==> w'.live == w.live - {e} && forall k :: e !in Table(w', k)
    ensures e in w.live ==> forall k :: Table(w', k) == Table(w, k) - {e}
    ensures e in w.live ==> w'.nextId == w.nextId && w'.queue == w.queue
    ensures e !in w.live ==> w' == w
  {
    if e in w.live then
      w.(live := w.live - {e}, tables := map k | k in w.tables :: w.tables[k] - {e})
    else w
  }

  /** `add`: stores `c` as `e`'s component of its own kind, replacing any earlier one. */
  function Add(w: World, e: Eid, c: Component): (w': World)
    requires Wf(w)
    ensures Wf(w')
    ensures w'.nextId == w.nextId && w'.live == w.live && w'.queue == w.queue
    ensures Table(w', KindOf(c)) == Table(w, KindOf(c))[e := c]
    ensures forall k :: k != KindOf(c) ==> Table(w', k) == Table(w, k)
  {
    w.(tables := w.tables[KindOf(c) := Table(w, KindOf(c))[e := c]])
  }

  /** `self._components[k].pop(e, None)`: drop one component without destroying the entity. */
  function Remove(w: World, e: Eid, k: Kind): (w': World)
    requires Wf(w)
    ensures Wf(w')
    ensures w'.nextId == w.nextId && w'.live == w.live && w'.queue == w.queue
    ensures Table(w', k) == Table(w, k) - {e}
    ensures forall k2 :: k2 != k ==> Table(w', k2) == Table(w, k2)
  {
    w.(tables := w.tables[k := Table(w, k) - {e}])
  }

  /** `get`: the component of kind `k` stored for `e`, if any (live or not). */
  function Get(w: World, e: Eid, k: Kind): (r: Option<Component>)
    ensures r.Some? <==> e in Table(w, k)
    ensures r.Some? ==> r.value == Table(w, k)[e]
  {
    if e in Table(w, k) then Some(Table(w, k)[e]) else None
  }

  /** `add` then `get` of the same kind returns what was added; other kinds and entities are untouched. */
  lemma AddThenGet(w: World, e: Eid, c: Component, e2: Eid, k: Kind)
    requires Wf(w)
    ensures Get(Add(w, e, c), e, KindOf(c)) == Some(c)
    ensures (e2 != e || k != KindOf(c)) ==> Get(Add(w, e, c), e2, k) == Get(w, e2, k)
  {
  }

  /** After destroying a live entity, no lookup finds any of its components. */
  lemma DestroyThenGet(w: World, e: Eid, k: Kind)
    requires Wf(w) && e in w.live
    ensures Get(DestroyEntity(w, e), e, k) == None
    ensures e !in DestroyEntity(w, e).live
  {
  }

  /** `has(e, *kinds)`: `all(...)`, so an empty list of kinds is true. */
  function Has(w: World, e: Eid, ks: seq<Kind>): (b: bool)
    ensures b <==> forall i :: 0 <= i < |ks| ==> e in Table(w, ks[i])
  {
    if |ks| == 0 then true else e in Table(w, ks[0]) && Has(w, e, ks[1..])
  }

  /** The intersection of the key sets of the listed tables (`ks` non-empty). */
  function KeysOfAll(w: World, ks: seq<Kind>): (s: set<Eid>)
    requires |ks| >= 1
    ensures forall e :: e in s <==> forall i :: 0 <= i < |ks| ==> e in Table(w, ks[i])
  {
    if |ks| == 1 then Table(w, ks[0]).Keys
    else Table(w, ks[0]).Keys * KeysOfAll(w, ks[1..])
  }

  /** `entities_with(*kinds)`: every live id when no kind is given, else the live ids in every listed table. */
  function EntitiesWith(w: World, ks: seq<Kind>): (s: set<Eid>)
    ensures |ks| == 0 ==> s == w.live
    ensures forall e :: e in s <==> e in w.live && forall i :: 0 <= i < |ks| ==> e in Table(w, ks[i])
  {
    if |ks| == 0 then w.live else KeysOfAll(w, ks) * w.live
  }

  /** The members of `s` in [lo, hi), in ascending order. */
  function Ascending(s: set<Eid>, lo: int, hi: int): (r: seq<Eid>)
    ensures forall e :: e in r <==> e in s && lo <= e < hi
    ensures forall i, j :: 0 <= i < j < |r| ==> r[i] < r[j]
    decreases hi - lo
  {
    if lo >= hi then []
    else if lo in s then
      var rest := Ascending(s, lo + 1, hi);
      assert forall i :: 0 <= i < |rest| ==> rest[i] in rest;
      [lo] + rest
    else Ascending(s, lo + 1, hi)
  }

  /** The iteration order of `entities_with`: ascending ids. */
  function EntitiesWithOrdered(w: World, ks: seq<Kind>): (r: seq<Eid>)
    requires Wf(w)
    ensures forall e :: e in r <==> e in EntitiesWith(w, ks)
    ensures forall i, j :: 0 <= i < j < |r| ==> r[i] < r[j]
  {
    Ascending(EntitiesWith(w, ks), 1, w.nextId)
  }

  /** `post`: append at the tail of the queue. */
  function Post(w: World, ev: Event): (w': World)
    ensures w'.queue == w.queue + [ev]
    ensures w'.nextId == w.nextId && w'.live == w.live && w'.tables == w.tables
  {
    w.(queue := w.queue + [ev])
  }

  /** Post several events in order. */
  function PostAll(w: World, evs: seq<Event>): (w': World)
    ensures w'.queue == w.queue + evs
    ensures w'.nextId == w.nextId && w'.live == w.live && w'.tables == w.tables
  {
    w.(queue := w.queue + evs)
  }

  /** `drain_events`: copy the queue, then clear it. */
  function DrainEvents(w: World): (res: (World, seq<Event>))
    ensures res.1 == w.queue && res.0.queue == []
    ensures res.0.nextId == w.nextId && res.0.live == w.live && res.0.tables == w.tables
  {
    (w.(queue := []), w.queue)
  }

  /** Draining after posts returns the posts in the order they were made. */
  lemma PostThenDrainFifo(w: World, a: Event, b: Event)
    requires w.queue == []
    ensures DrainEvents(Post(Post(w, a), b)).1 == [a, b]
  {
  }

  // ---- Typed lookups: `world.get(eid, CX)` followed by reading its fields. ----

  function GetPosition(w: World, e: Eid): (r: Option<Position>)
    requires Wf(w)
    ensures r.Some? <==> e in Table(w, PositionKind)
    ensures r.Some? ==> Table(w, PositionKind)[e] == CPosition(r.value)
  {
    match Get(w, e, PositionKind)
    case Some(CPosition(p)) => Some(p)
    case _ => None
  }

  function GetHealth(w: World, e: Eid): (r: Option<Health>)
    requires Wf(w)
    ensures r.Some? <==> e in Table(w, HealthKind)
    ensures r.Some? ==> Table(w, HealthKind)[e] == CHealth(r.value)
  {
    match Get(w, e, HealthKind)
    case Some(CHealth(h)) => Some(h)
    case _ => None
  }

  function GetStats(w: World, e: Eid): (r: Option<Stats>)
    requires Wf(w)
    ensures r.Some? <==> e in Table(w, StatsKind)
    ensures r.Some? ==> Table(w, StatsKind)[e] == CStats(r.value)
  {
    match Get(w, e, StatsKind)
    case Some(CStats(s)) => Some(s)
    case _ => None
  }

  function GetWeapon(w: World, e: Eid): (r: Option<Weapon>)
    requires Wf(w)
    ensures r.Some? <==> e in Table(w, WeaponKind)
    ensures r.Some? ==> Table(w, WeaponKind)[e] == CWeapon(r.value)
  {
    match Get(w, e, WeaponKind)
    case Some(CWeapon(x)) => Some(x)
    case _ => None
  }

  function GetArmor(w: World, e: Eid): (r: Option<Armor>)
    requires Wf(w)
    ensures r.Some? <==> e in Table(w, ArmorKind)
    ensures r.Some? ==> Table(w, ArmorKind)[e] == CArmor(r.value)
  {
    match Get(w, e, ArmorKind)
    case Some(CArmor(x)) => Some(x)
    case _ => None
  }

  function GetBlocker(w: World, e: Eid): (r: Option<Blocker>)
    requires Wf(w)
    ensures r.Some? <==> e in Table(w, BlockerKind)
    ensures r.Some? ==> Table(w, BlockerKind)[e] == CBlocker(r.value)
  {
    match Get(w, e, BlockerKind)
    case Some(CBlocker(x)) => Some(x)
    case _ => None
  }

  function GetInventory(w: World, e: Eid): (r: Option<Inventory>)
    requires Wf(w)
    ensures r.Some? <==> e in Table(w, InventoryKind)
    ensures r.Some? ==> Table(w, InventoryKind)[e] == CInventory(r.value)
  {
    match Get(w, e, InventoryKind)
    case Some(CInventory(x)) => Some(x)
    case _ => None
  }

  function GetDescriptor(w: World, e: Eid): (r: Option<Descriptor>)
    requires Wf(w)
    ensures r.Some? <==> e in Table(w, DescriptorKind)
    ensures r.Some? ==> Table(w, DescriptorKind)[e] == CDescriptor(r.value)
  {
    match Get(w, e, DescriptorKind)
    case Some(CDescriptor(x)) => Some(x)
    case _ => None
  }

  function GetAI(w: World, e: Eid): (r: Option<AI>)
    requires Wf(w)
    ensures r.Some? <==> e in Table(w, AIKind)
    ensures r.Some? ==> Table(w, AIKind)[e] == CAI(r.value)
  {
    match Get(w, e, AIKind)
    case Some(CAI(x)) => Some(x)
    case _ => None
  }

  function GetVision(w: World, e: Eid): (r: Option<Vision>)
    requires Wf(w)
    ensures r.Some? <==> e in Table(w, VisionKind)
    ensures r.Some? ==> Table(w, VisionKind)[e] == CVision(r.value)
  {
    match Get(w, e, VisionKind)
    case Some(CVision(x)) => Some(x)
    case _ => None
  }

  function GetVisible(w: World, e: Eid): (r: Option<Visible>)
    requires Wf(w)
    ensures r.Some? <==> e in Table(w, VisibleKind)
    ensures r.Some? ==> Table(w, VisibleKind)[e] == CVisible(r.value)
  {
    match Get(w, e, VisibleKind)
    case Some(CVisible(x)) => Some(x)
    case _ => None
  }

  /** Two worlds that `get` the same component of a kind agree on its typed lookup. */
  lemma ReadsSame(w: World, w': World, e: Eid, k: Kind)
    requires Wf(w) && Wf(w') && Get(w', e, k) == Get(w, e, k)
    ensures k == PositionKind ==> GetPosition(w', e) == GetPosition(w, e)
    ensures k == HealthKind ==> GetHealth(w', e) == GetHealth(w, e)
    ensures k == StatsKind ==> GetStats(w', e) == GetStats(w, e)
    ensures k == WeaponKind ==> GetWeapon(w', e) == GetWeapon(w, e)
    ensures k == ArmorKind ==> GetArmor(w', e) == GetArmor(w, e)
    ensures k == BlockerKind ==> GetBlocker(w', e) == GetBlocker(w, e)
    ensures k == InventoryKind ==> GetInventory(w', e) == GetInventory(w, e)
    ensures k == DescriptorKind ==> GetDescriptor(w', e) == GetDescriptor(w, e)
    ensures k == AIKind ==> GetAI(w', e) == GetAI(w, e)
    ensures k == VisionKind ==> GetVision(w', e) == GetVision(w, e)
    ensures k == VisibleKind ==> GetVisible(w', e) == GetVisible(w, e)
  {
  }

  /** A stored component reads back through its typed lookup. */
  lemma ReadsBack(w: World, e: Eid, c: Component)
    requires Wf(w) && Get(w, e, KindOf(c)) == Some(c)
    ensures c.CPosition? ==> GetPosition(w, e) == Some(c.position)
    ensures c.CHealth? ==> GetHealth(w, e) == Some(c.health)
    ensures c.CStats? ==> GetStats(w, e) == Some(c.stats)
    ensures c.CWeapon? ==> GetWeapon(w, e) == Some(c.weapon)
    ensures c.CArmor? ==> GetArmor(w, e) == Some(c.armor)
    ensures c.CBlocker? ==> GetBlocker(w, e) == Some(c.blocker)
    ensures c.CInventory? ==> GetInventory(w, e) == Some(c.inventory)
    ensures c.CDescriptor? ==> GetDescriptor(w, e) == Some(c.descriptor)
    ensures c.CAI? ==> GetAI(w, e) == Some(c.ai)
    ensures c.CVision? ==> GetVision(w, e) == Some(c.vision)
    ensures c.CVisible? ==> GetVisible(w, e) == Some(c.visible)
  {
  }


  /** `health and not health.is_dead`: `e` has a Health that is not marked dead. */
  predicate Living(w: World, e: Eid)
    requires Wf(w)
  {
    GetHealth(w, e).Some? && !GetHealth(w, e).value.isDead
  }

  /** `blocker and not blocker.passable`. */
  predicate Obstacle(w: World, e: Eid)
    requires Wf(w)
  {
    GetBlocker(w, e).Some? && !GetBlocker(w, e).value.passable
  }

  /** `e` is live and its Position is at (x, y). */
  predicate PositionedAt(w: World, e: Eid, x: int, y: int)
    requires Wf(w)
  {
    e in w.live && GetPosition(w, e).Some? && GetPosition(w, e).value.x == x && GetPosition(w, e).value.y == y
  }

  /** The entries of `es` whose Position is at (x, y), in their original order. */
  function FilterAt(w: World, es: seq<Eid>, x: int, y: int): (r: seq<Eid>)
    requires Wf(w)
    ensures forall e :: e in r <==> e in es && GetPosition(w, e).Some? && GetPosition(w, e).value.x == x && GetPosition(w, e).value.y == y
    ensures (forall i, j :: 0 <= i < j < |es| ==> es[i] < es[j]) ==> forall i, j :: 0 <= i < j < |r| ==> r[i] < r[j]
  {
    if |es| == 0 then []
    else
      var rest := FilterAt(w, es[1..], x, y);
      var p := GetPosition(w, es[0]);
      if p.Some? && p.value.x == x && p.value.y == y then
        FilterAtStep(es, rest);
        [es[0]] + rest
      else
        assert forall e :: e in es[1..] ==> e in es;
        assert (forall i, j :: 0 <= i < j < |es| ==> es[i] < es[j]) ==> forall i, j :: 0 <= i < j < |es[1..]| ==> es[1..][i] < es[1..][j];
        rest
  }

  /** Putting the head of an ascending `es` in front of some of its tail keeps the order ascending. */
  lemma FilterAtStep(es: seq<Eid>, rest: seq<Eid>)
    requires |es| > 0 && forall e :: e in rest ==> e in es[1..]
    requires (forall i, j :: 0 <= i < j < |es[1..]| ==> es[1..][i] < es[1..][j]) ==> forall i, j :: 0 <= i < j < |rest| ==> rest[i] < rest[j]
    ensures (forall i, j :: 0 <= i < j < |es| ==> es[i] < es[j]) ==> forall i, j :: 0 <= i < j < |[es[0]] + rest| ==> ([es[0]] + rest)[i] < ([es[0]] + rest)[j]
  {
    if forall i, j :: 0 <= i < j < |es| ==> es[i] < es[j] {
      var all := [es[0]] + rest;
      forall i | 0 <= i < |rest|
        ensures es[0] < rest[i]
      {
        assert rest[i] in rest;
        var k :| 0 <= k < |es[1..]| && es[1..][k] == rest[i];
        assert es[k + 1] == rest[i];
      }
      forall i, j | 0 <= i < j < |all|
        ensures all[i] < all[j]
      {
        assert all[j] == rest[j - 1];
        if i > 0 {
          assert all[i] == rest[i - 1];
        }
      }
    }
  }

  /**
    `entities_at(x, y, *kinds)`: the live entities with a Position at (x, y)
    that also hold every listed kind, in ascending id order.
  */
  function EntitiesAt(w: World, x: int, y: int, ks: seq<Kind>): (r: seq<Eid>)
    requires Wf(w)
    ensures forall e :: e in r <==> PositionedAt(w, e, x, y) && Has(w, e, ks)
    ensures forall i, j :: 0 <= i < j < |r| ==> r[i] < r[j]
  {
    var candidates := EntitiesWithOrdered(w, [PositionKind] + ks);
    var r := FilterAt(w, candidates, x, y);
    assert forall e :: e in candidates <==> e in w.live && e in Table(w, PositionKind) && Has(w, e, ks) by {
      forall e ensures e in candidates <==> e in w.live && e in Table(w, PositionKind) && Has(w, e, ks) {
        var all := [PositionKind] + ks;
        assert forall i :: 0 <= i < |ks| ==> ks[i] == all[i + 1];
        assert (forall i :: 0 <= i < |all| ==> e in Table(w, all[i])) <==>
          (e in Table(w, PositionKind) && forall i :: 0 <= i < |ks| ==> e in Table(w, ks[i])) by {
          if forall i :: 0 <= i < |all| ==> e in Table(w, all[i]) {
            assert e in Table(w, all[0]);
            forall i | 0 <= i < |ks| ensures e in Table(w, ks[i]) {
              assert e in Table(w, all[i + 1]);
            }
          }
        }
      }
    }
    r
  }

  /** Some live entity on (x, y) carries a Blocker that is not passable. */
  ghost predicate BlockerAt(w: World, x: int, y: int)
    requires Wf(w)
  {
    exists e :: PositionedAt(w, e, x, y) && GetBlocker(w, e).Some? && !GetBlocker(w, e).value.passable
  }

  function AnyBlocking(w: World, es: seq<Eid>): (b: bool)
    requires Wf(w)
    ensures b <==> exists i :: 0 <= i < |es| && GetBlocker(w, es[i]).Some? && !GetBlocker(w, es[i]).value.passable
  {
    if |es| == 0 then false
    else
      var bl := GetBlocker(w, es[0]);
      if bl.Some? && !bl.value.passable then true
      else
        var rest := AnyBlocking(w, es[1..]);
        assert forall i :: 1 <= i < |es| ==> es[i] == es[1..][i - 1];
        assert rest ==> exists i :: 1 <= i < |es| && GetBlocker(w, es[i]).Some? && !GetBlocker(w, es[i]).value.passable by {
          if rest {
            var i :| 0 <= i < |es[1..]| && GetBlocker(w, es[1..][i]).Some? && !GetBlocker(w, es[1..][i]).value.passable;
            assert es[i + 1] == es[1..][i];
          }
        }
        rest
  }

  /**
    `is_blocked(x, y, grid)`: out of the grid, on a tile that cannot be walked,
    or sharing the cell with an entity whose Blocker is not passable. An empty
    grid is falsy in Python, so `is_blocked` skips the tile tests.
  */
  function IsBlocked(w: World, g: Grid, x: int, y: int): (b: bool)
    requires Wf(w) && Rectangular(g)
    ensures b <==>
      || (|g| > 0 && !InBounds(g, Point(x, y)))
      || (|g| > 0 && InBounds(g, Point(x, y)) && !At(g, Point(x, y)).walkable)
      || BlockerAt(w, x, y)
  {
    var p := Point(x, y);
    if |g| > 0 && (x < 0 || y < 0 || y >= |g| || x >= |g[0]|) then true
    else if |g| > 0 && !g[y][x].walkable then true
    else
      var here := EntitiesAt(w, x, y, []);
      var b := AnyBlocking(w, here);
      assert b ==> BlockerAt(w, x, y) by {
        if b {
          var i :| 0 <= i < |here| && GetBlocker(w, here[i]).Some? && !GetBlocker(w, here[i]).value.passable;
          assert PositionedAt(w, here[i], x, y);
        }
      }
      assert BlockerAt(w, x, y) ==> b by {
        if BlockerAt(w, x, y) {
          var e :| PositionedAt(w, e, x, y) && GetBlocker(w, e).Some? && !GetBlocker(w, e).value.passable;
          assert Has(w, e, []);
          assert e in here;
          var i :| 0 <= i < |here| && here[i] == e;
        }
      }
      b
  }
}

=== FILE: wrappers.dfy ===
/** Failure-compatible wrappers shared by every module of the model. */
module Wrappers {

  /** Python's `Optional[T]`: a value or `None`. */
  datatype Option<+T> = None | Some(value: T) {

    predicate IsFailure() {
      None?
    }

    function PropagateFailure<U>(): Option<U>
      requires None?
    {
      None
    }

    function Extract(): T
      requires Some?
    {
      value
    }

    /** The value, or `default` when there is none (Python's `d.get(k, default)`). */
    function GetOr(default: T): T {
      match this
      case Some(v) => v
      case None => default
    }
  }

  /** An operation that either succeeds with a value or raises an error. */
  datatype Result<+R, +E> = Success(value: R) | Failure(error: E) {

    predicate IsFailure() {
      Failure?
    }

    function PropagateFailure<U>(): Result<U, E>
      requires Failure?
    {
      Failure(error)
    }

    function Extract(): R
      requires Success?
    {
      value
    }
  }

  /** Python's `d.get(k, default)` on a dictionary. */
  function MapGet<K, V>(m: map<K, V>, k: K, default: V): (v: V)
    ensures k in m ==> v == m[k]
    ensures k !in m ==> v == default
  {
    if k in m then m[k] else default
  }
}
